=== FILE: README.md ===
# QR code generator: a Dafny model of its core

This project models the logic behind a browser QR-code generator written in TypeScript and React. It covers the following parts:

- **Content encoders.** Four forms turn their fields into the text a QR code carries:
  - a Wi-Fi network (`WIFI:T:…;S:…;P:…;;`);
  - a vCard 3.0 contact card;
  - a `mailto:` link with a percent-encoded query;
  - an iCalendar `VEVENT` block whose date-times are converted to the `YYYYMMDDTHHMMSSZ` form.
- **Colour maths.** Hex colour parsing, relative luminance and the contrast ratio.
- **Scannability indicator.** A heuristic score that rates a configuration good, medium or poor, with a message.
- **Style controls.**
  - tab skeletons;
  - the gradient toggle;
  - the dotted-path option editor;
  - logo upload and removal;
  - design templates;
  - the share link.
- **Generator state.**
  - reset;
  - history of at most five entries, with de-duplication by data;
  - loading an entry back from the history;
  - loading a shared style from the URL hash.
- **Bulk generation from CSV.**
  - the file check;
  - line splitting and blank-line filtering;
  - per-line rendering;
  - the archive entry names;
  - progress reporting;
  - the error paths.
- **Preview.**
  - what the renderer is given;
  - download requests;
  - the export-size input;
  - the visual frame and the note about it.

## How the model represents the program

- JavaScript strings are `seq<char>`.
- Configurations are immutable datatypes (`QrTypes.QrOptions`).
- Every React state update is a pure function from the old configuration to the new one.
- Each encoder has an independent decoder as its partner. The lemmas prove that decoding an encoder's output gives back what was encoded: the form for Wi-Fi, vCard and e-mail, and the `Event`, with its converted date-times, for the calendar event. They also show the inputs for which this fails: a line feed in an event value, a `?` in an e-mail recipient.
- Things outside the model are parameters:
  - the rendering library;
  - `JSON.stringify`, `btoa` and `atob`;
  - `Date.prototype.toISOString`;
  - `Math.pow`.

300 characters at level L, with good contrast and no logo, rate medium, not poor. The length check deducts 40 points, so the score is 60 (`Scannability.DenseDataAtLowLevel`).

Two of the tab skeletons are not what the matching form would emit:

- The vCard skeleton has `FN:` without the space the form writes, and carries empty `ORG`, `TEL`, `EMAIL` and `URL` lines. It is proved never to be emitted and not to be readable as a card.
- The e-mail skeleton ends in `?subject=&body=`. The form never writes an empty query. That skeleton still reads back as the empty form.

Two behaviours of the e-mail and event encoders may be unintended. The model records each one, as the code is written, in a proved lemma:

- The recipient is not percent-encoded (`EmailEncoder.RecipientNotEncoded`).
- A line feed in an event title is not escaped (`EventEncoder.NewlineInTitleBreaksBlock`).

## Model

| member | source | states |
|---|---|---|
| Text.Trim | components/modals/BulkGenerateModal.tsx:56 | `trim` removes exactly the maximal runs of JavaScript whitespace at both ends; the result is a contiguous slice of the input that starts and ends with a non-whitespace character |
| Text.TrimEmptyIff | components/modals/BulkGenerateModal.tsx:44 | a line trims to the empty string exactly when every character of it is whitespace |
| Text.TrimIdempotent | components/modals/BulkGenerateModal.tsx:56 | trimming twice gives the same as trimming once |
| Text.SplitLFCount | components/modals/BulkGenerateModal.tsx:44 | splitting at line feeds yields one more piece than there are line feeds |
| Text.JoinSplitLF | components/VCardForm.tsx:60 | joining the pieces of a split with line feeds restores the original string |
| Text.SplitJoinLF | components/VCardForm.tsx:60 | splitting a line-feed join of lines that contain no line feed returns those lines |
| Text.SplitLinesCRLF | components/modals/BulkGenerateModal.tsx:44 | `split(/\r?\n/)` recovers the rows of a file written with CRLF line ends, each row without its carriage return |
| Text.SplitLines | components/modals/BulkGenerateModal.tsx:44 | `split(/\r?\n/)` gives as many pieces as splitting at line feeds, none containing a line feed |
| Text.NatToDecimal | components/QrGenerator.tsx:82 | `String(n)` is a non-empty digit string without leading zeros whose decimal value is n |
| Text.ParseInt | components/QrPreview.tsx:123 | `parseInt(text, 10)` fails (NaN) exactly when no digit follows the leading whitespace and optional sign |
| Text.ParseIntOfDecimal | components/QrPreview.tsx:123 | `parseInt` reads back the number written by `String(n)`, whatever whitespace precedes it and whatever non-digit text follows |
| QrTypes.Spread | components/QrGenerator.tsx:61-65 | the object spread `{...prev, ...patch}`: every key the patch carries replaces the old value wholesale, every key it leaves out keeps its old value, and the empty patch changes nothing |
| QrTypes.EffectiveLevel | components/ScannabilityIndicator.tsx:36 | the error-correction level defaults to Q when none is set |
| Color.ParseHexColor | utils/color.ts:8-17 | a colour parses exactly when it matches `^#?([a-f\d]{2}){3}$` ignoring case, and then gives channels in 0..255 |
| Color.ParseIgnoresCase | utils/color.ts:9 | the `i` flag: lower-casing a colour never changes what it parses to |
| Color.ParseIgnoresHash | utils/color.ts:9 | the leading `#` is optional |
| Color.ParseFormat | utils/color.ts:8-17 | every RGB triple printed as `#rrggbb` parses back to itself |
| Color.FormatParse | utils/color.ts:8-17 | every parseable colour is `#` followed by the lower-case form of its digits, once printed back |
| Color.Luminance | utils/color.ts:25-31 | relative luminance lies in [0, 1] |
| Color.ContrastRatio | utils/color.ts:39-54 | the contrast ratio lies in [1, 21], and is 1 whenever either colour fails to parse |
| Color.LuminanceRatio | utils/color.ts:50-53 | (brighter + 0.05)/(darker + 0.05) is 1 exactly when the two luminances are equal |
| Color.ContrastSymmetric | utils/color.ts:50-53 | the ratio does not depend on the order of the two colours |
| Color.ContrastOfSameColor | utils/color.ts:39-54 | two spellings of the same colour have ratio 1 |
| Color.BlackOnWhite | utils/color.ts:39-54 | black on white has the maximal ratio 21 |
| WifiEncoder.Escape | components/WifiForm.tsx:19-20 | escaping adds exactly one backslash per special character `\ ; , " '` |
| WifiEncoder.EscapeConcat | components/WifiForm.tsx:19-20 | the global replace works character by character, so it distributes over concatenation |
| WifiEncoder.EscapePlain | components/WifiForm.tsx:19-20 | text without special characters is left unchanged |
| WifiEncoder.UnescapeEscape | components/WifiForm.tsx:19-20 | removing the escapes recovers the original field |
| WifiEncoder.EscapeUnescape | components/WifiForm.tsx:19-20 | every well-escaped text is the escape of its unescaping |
| WifiEncoder.EscapeInjective | components/WifiForm.tsx:19-20 | two different fields never escape to the same text |
| WifiEncoder.EscapeBackslashOnce | components/WifiForm.tsx:19 | escaping is a single pass: a backslash anywhere in a field becomes exactly two backslashes, the text around it is escaped on its own, and the inserted backslash is not escaped again |
| WifiEncoder.EmptyPayload | components/WifiForm.tsx:23 | empty fields give `WIFI:T:<encryption>;S:;P:;;` for every encryption, the `P:` segment included even for `nopass` |
| WifiEncoder.Payload | components/WifiForm.tsx:23 | the payload starts with `WIFI:T:`, the encryption name and `;S:`, and ends with `;;` |
| WifiEncoder.InitialPayload | components/WifiForm.tsx:11-13 | the initial form (empty fields, WPA) yields `WIFI:T:WPA;S:;P:;;` |
| WifiEncoder.DecodePayload | components/WifiForm.tsx:17-25 | the Wi-Fi payload is lossless: reading it back gives the encryption, SSID and password that produced it |
| VCardEncoder.Escape | components/VCardForm.tsx:33 | the two chained replaces equal the per-character reference escape, and lengthen the value by one for each comma, semicolon, backslash and line feed |
| VCardEncoder.EscapeIsPerCharacter | components/VCardForm.tsx:33 | the two chained replaces act as one per-character escape (`,`→`\,`, `;`→`\;`, `\`→`\\`, LF→`\n`) |
| VCardEncoder.EscapeHasNoLineFeed | components/VCardForm.tsx:33 | an escaped value never contains a line feed |
| VCardEncoder.UnescapeEscape | components/VCardForm.tsx:33 | the escape loses nothing: unescaping recovers the value |
| VCardEncoder.OptionalLines | components/VCardForm.tsx:46-56 | one line per non-empty optional field, none for empty ones |
| VCardEncoder.Lines | components/VCardForm.tsx:38-58 | the card has BEGIN and VERSION first, END last, and exactly 5 + (number of non-empty optional fields) lines |
| VCardEncoder.LinesHaveNoLineFeed | components/VCardForm.tsx:38-58 | no assembled line contains a line feed |
| VCardEncoder.Payload | components/VCardForm.tsx:60 | the joined payload splits at line feeds back into exactly the assembled lines |
| VCardEncoder.InitialPayload | components/VCardForm.tsx:11-21 | the empty form yields BEGIN, VERSION, `N:;;;;`, `FN: ` and END |
| VCardEncoder.ReadNameLineOf | components/VCardForm.tsx:41 | the `N` line reads back as the last and first name |
| VCardEncoder.OptionalPropertyPresent | components/VCardForm.tsx:46-56 | the card has a line for an optional property exactly when that field is non-empty |
| VCardEncoder.ReadOptionalLines | components/VCardForm.tsx:46-58 | the optional lines up to END read back as all optional values, an absent line counting as empty |
| VCardEncoder.DecodePayload | components/VCardForm.tsx:30-62 | the card is lossless: decoding the payload recovers every field of the form |
| Uri.Utf8RoundTrip | components/EmailForm.tsx:25 | the UTF-8 bytes that `encodeURIComponent` percent-encodes decode back to the original text |
| Uri.EncodeComponent | components/EmailForm.tsx:25 | `encodeURIComponent` output contains only unreserved characters and `%` |
| Uri.EncodeUnreserved | components/EmailForm.tsx:25 | text made of unreserved characters is left unchanged |
| Uri.EncodeExamples | components/EmailForm.tsx:25 | space, `&`, `=` and `?` become `%20`, `%26`, `%3D` and `%3F` |
| Uri.EncodeNonAscii | components/EmailForm.tsx:25 | a non-ASCII letter is sent as its UTF-8 bytes in upper-case hex (`ă` → `%C4%83`) |
| Uri.DecodeEncode | components/EmailForm.tsx:25-28 | percent-decoding the encoding of any text gives the text back |
| EmailEncoder.Params | components/EmailForm.tsx:23-29 | one parameter for each of subject and body that is non-empty |
| EmailEncoder.Query | components/EmailForm.tsx:31-34 | the query string is empty exactly when subject and body are both empty |
| EmailEncoder.Mailto | components/EmailForm.tsx:36 | the link starts with `mailto:` and the recipient as typed, and is nothing more exactly when subject and body are both empty |
| EmailEncoder.InitialMailto | components/EmailForm.tsx:9 | the empty form yields the bare `mailto:` |
| EmailEncoder.SubjectOnlyQuery | components/EmailForm.tsx:31-34 | with only a subject, the query is `?subject=` followed by the encoded subject, with no `&` |
| EmailEncoder.EncodedHasNoSeparator | components/EmailForm.tsx:25-28 | an encoded subject or body never contains `&` or `?`, so it cannot be mistaken for a separator |
| EmailEncoder.ReadQueryOf | components/EmailForm.tsx:23-34 | the query string reads back as the subject and body it was built from |
| EmailEncoder.DecodeMailto | components/EmailForm.tsx:17-38 | for a recipient without `?`, the link decodes to exactly the form that produced it |
| EmailEncoder.RecipientNotEncoded | components/EmailForm.tsx:36 | the recipient is inserted unencoded, so a recipient that contains `?subject=…` gives the same link as a different form that has a subject |
| EventEncoder.StripIso | components/EventForm.tsx:14 | the compacted timestamp is never longer than the input and holds no `-` or `:` |
| EventEncoder.IsoToICal | components/EventForm.tsx:14 | stripping `-`, `:` and the milliseconds from a UTC ISO timestamp gives the iCalendar `YYYYMMDDTHHMMSSZ` form |
| EventEncoder.FormatDateTime | components/EventForm.tsx:10-15 | a missing date or time gives the empty string, and no result contains `-` or `:` |
| EventEncoder.FormatDateTimeICal | components/EventForm.tsx:10-15 | a date and a time that convert to an ISO UTC timestamp yield a well-formed iCalendar date-time |
| EventEncoder.ToEvent | components/EventForm.tsx:34-38 | the event exists exactly when both date-time conversions succeed; its DTSTART and DTEND are the converted start and end, the title and location are copied verbatim, and an incomplete start or end gives an empty DTSTART or DTEND |
| EventEncoder.InitialPayload | components/EventForm.tsx:19-26 | the empty form yields the bare six-line VEVENT skeleton, in any time zone |
| EventEncoder.DecodeEncode | components/EventForm.tsx:40-45 | without line feeds in its values, the VEVENT block reads back as the same event |
| EventEncoder.Encode | components/EventForm.tsx:40-45 | without line feeds in the values, the block splits at line feeds into exactly its six lines |
| EventEncoder.Payload | components/EventForm.tsx:34-46 | a payload is emitted exactly when both date-time conversions succeed; without line feeds it reads back as the event the form describes |
| EventEncoder.EncodedLineCount | components/EventForm.tsx:40-45 | the block has six lines plus one for each line feed in a value |
| EventEncoder.NewlineInTitleBreaksBlock | components/EventForm.tsx:41 | a line feed in the title goes into the block unescaped, and the block no longer reads back as an event |
| Scannability.DotColor | components/ScannabilityIndicator.tsx:22 | any gradient is judged as black; otherwise the dot colour is used, with black when it is missing or empty |
| Scannability.ContrastCheck | components/ScannabilityIndicator.tsx:26-32 | contrast of 4.5 or more costs nothing and adds no message; less costs points |
| Scannability.LengthCheck | components/ScannabilityIndicator.tsx:38-43 | data up to 150 characters costs nothing; a message is added only past 250 characters at level L |
| Scannability.LogoCheck | components/ScannabilityIndicator.tsx:46-53 | a logo costs nothing exactly at levels Q and H; a message is added only at level L |
| Scannability.Score | components/ScannabilityIndicator.tsx:17-53 | the score lies in [-20, 100]; it is 100 exactly when no check deducts; no message is added exactly when no flagged condition holds |
| Scannability.Classify | components/ScannabilityIndicator.tsx:56-62 | the rating is good from 75, medium from 40, poor below; below good, the first collected message is shown |
| Scannability.Assess | components/ScannabilityIndicator.tsx:17-62 | a contrast below 3 never rates good and shows the low-contrast message, whatever the data, level and logo |
| Scannability.ScoreMonotoneInLevel | components/ScannabilityIndicator.tsx:36-53 | a stronger error-correction level never lowers the score |
| Scannability.QAndHAlike | components/ScannabilityIndicator.tsx:36-53 | levels Q and H score alike |
| Scannability.ScoreMonotoneInContrast | components/ScannabilityIndicator.tsx:26-32 | better contrast never lowers the score |
| Scannability.ScoreMonotoneInLength | components/ScannabilityIndicator.tsx:38-43 | more data never raises the score |
| Scannability.LogoNeverHelps | components/ScannabilityIndicator.tsx:46-53 | adding a logo never raises the score |
| Scannability.LowContrastDominates | components/ScannabilityIndicator.tsx:26-62 | contrast below 3 is never rated good, and its message is the one shown |
| Scannability.WeakContrastAloneIsGood | components/ScannabilityIndicator.tsx:29-32 | a contrast in [3, 4.5) alone still rates good, and its warning is hidden |
| Scannability.DenseDataAtLowLevel | components/ScannabilityIndicator.tsx:38-43 | 300 characters at level L with good contrast score 60, medium, with the dense-data message |
| Scannability.WorstCase | components/ScannabilityIndicator.tsx:17-53 | every deduction at once gives -20 and all three messages, in check order |
| Scannability.PlainConfigurationIsGood | components/ScannabilityIndicator.tsx:17-62 | with short data, no logo and the default level, a configuration rates good exactly when its contrast ratio is at least 3 |
| Templates.StylePatch | templates.ts:5-8 | a template sets the dots, background, corners and level, and never touches data, size, logo, shape or frame |
| Templates.TemplatesWellFormed | templates.ts:10-61 | four templates with distinct names; each sets either a non-empty dot colour or a gradient (never both), plus background, corners and level |
| Templates.TemplateLevels | templates.ts:10-61 | the templates are Profesional, Elegant, Jucăuș and Minimalist, in display order, and select levels H, Q, M and Q |
| Controls.TabSkeleton | components/QrControls.tsx:76-85 | the skeleton is empty exactly for the text tab |
| Controls.SelectTab | components/QrControls.tsx:74-86 | choosing a tab replaces the data with that tab's skeleton and changes nothing else |
| Controls.WifiSkeletonIsEmptyForm | components/QrControls.tsx:79 | the Wi-Fi skeleton is what the empty Wi-Fi form emits |
| Controls.EventSkeletonIsEmptyForm | components/QrControls.tsx:82 | the event skeleton is what the empty event form emits |
| Controls.VCardSkeletonNeverEmitted | components/QrControls.tsx:80 | no vCard form ever emits the vCard skeleton |
| Controls.VCardSkeletonUnreadable | components/QrControls.tsx:80 | the vCard skeleton does not read back as any card |
| Controls.EmailSkeletonDecodes | components/QrControls.tsx:81 | the e-mail skeleton reads back as the empty e-mail form |
| Controls.EmailSkeletonNeverEmitted | components/QrControls.tsx:81 | no e-mail form with a `?`-free recipient emits the e-mail skeleton |
| Controls.InitialGradient | components/QrControls.tsx:35-39 | the gradient editor starts from the current gradient, or the default two-stop one |
| Controls.SyncGradient | components/QrControls.tsx:56-68 | with the gradient on, the dots carry the gradient and no colour; with it off, no gradient and a non-empty colour (the old one, or `#4267b2`); nothing else changes |
| Controls.SyncGradientIdempotent | components/QrControls.tsx:56-68 | re-running the effect changes nothing |
| Controls.GradientRoundTripLosesColor | components/QrControls.tsx:56-68 | switching the gradient on and off again loses the previous dot colour and leaves `#4267b2` |
| Controls.SyncedColorIsScored | components/QrControls.tsx:56-68 | after the effect, the scorer judges the colour that is set, or black for a gradient |
| Controls.SetPath | components/QrControls.tsx:88-99 | a dotted-path edit throws exactly when the record on its path is absent; otherwise the path reads back the new value and the data, size, logo and gradient are unchanged |
| Controls.EditsKeepComplete | components/QrControls.tsx:88-99 | on a configuration with every nested record present, every edit succeeds and keeps them present |
| Controls.SetPathFrame | components/QrControls.tsx:88-99 | an edit changes no other path |
| Controls.SetPathRead | components/QrControls.tsx:88-99 | writing the value a path already holds changes nothing |
| Controls.SetPathTwice | components/QrControls.tsx:88-99 | two writes to one path equal the last write |
| Controls.ToggleShape | components/QrControls.tsx:285 | the circular-shape switch flips the shape and nothing else |
| Controls.ToggleShapeTwice | components/QrControls.tsx:285 | switching twice restores the configuration |
| Controls.FontSizeInput | components/QrControls.tsx:223 | the frame font size is the parsed number, with 20 when parsing fails or gives 0 |
| Controls.FontSizeOfNumber | components/QrControls.tsx:223 | a typed positive number is taken as is, and an empty field gives 20 |
| Controls.SetData | components/QrControls.tsx:70-72 | a data update replaces the data and nothing else |
| Controls.SetLogo | components/QrControls.tsx:101-111 | an upload sets the logo and nothing else |
| Controls.RemoveLogo | components/QrControls.tsx:113-121 | removal clears the logo and nothing else |
| Controls.RemoveLogoUndoesSetLogo | components/QrControls.tsx:101-121 | removing a just-uploaded logo gives the same configuration as removing it from the original |
| Controls.RemoveLogoNeverHurts | components/QrControls.tsx:113-121 | removing the logo never lowers the scannability score |
| Controls.ApplyTemplate | components/QrControls.tsx:123-133 | each top-level record the template supplies (dots, background, corners, shape, frame, `qrOptions`) replaces the current one wholesale; the records it leaves out are kept, and so are data, logo and size |
| Controls.ApplyTemplateKeepsComplete | components/QrControls.tsx:123-133 | applying a template keeps every nested record present |
| Controls.ApplyTemplateIdempotent | components/QrControls.tsx:123-133 | applying the same template twice equals applying it once |
| Controls.SyncAfterTemplateIsNoOp | components/QrControls.tsx:126-130 | after a predefined template, the gradient effect that follows has nothing to change |
| Controls.MinimalistNeverRatedGood | templates.ts:51-59 | the Minimalist template's `transparent` background never parses, so its contrast counts as 1 and it is never rated good |
| Controls.StripForShare | components/QrControls.tsx:135-144 | the shared style is the configuration without data, size and logo |
| Generator.Reset | components/QrGenerator.tsx:75-77 | reset gives the initial configuration: all records present, no logo, level Q |
| Generator.InitialIsComplete | components/QrGenerator.tsx:10-42 | the initial configuration has every nested record and the URL skeleton as data |
| Generator.EntryName | components/QrGenerator.tsx:83 | an entry is named by the first 30 characters of its data, or `Cod QR` when the data is empty |
| Generator.NewEntry | components/QrGenerator.tsx:81-86 | a new entry's id is the decimal clock value and its options are the configuration |
| Generator.DropData | components/QrGenerator.tsx:90 | the filter removes every entry with the same data, and keeps only entries of the input |
| Generator.DropDataKeepsOthers | components/QrGenerator.tsx:90 | every entry whose data differs survives the filter, so nothing but the same-data entries is lost |
| Generator.DropDataSubsequence | components/QrGenerator.tsx:90 | the filter keeps the surviving entries in their order |
| Generator.Save | components/QrGenerator.tsx:88-93 | the new entry comes first; no older entry has its data; at most five entries |
| Generator.SaveShape | components/QrGenerator.tsx:91-92 | the history is the new entry followed by the filtered history, truncated to five |
| Generator.SaveKeepsOrder | components/QrGenerator.tsx:90-92 | older entries stay in their relative order |
| Generator.SaveKeepsValid | components/QrGenerator.tsx:88-93 | saving keeps the history at most five long and free of duplicate data |
| Generator.SaveSameDataTwice | components/QrGenerator.tsx:88-93 | saving the same data twice leaves only the later entry's effect |
| Generator.Find | components/QrGenerator.tsx:98 | lookup finds the first entry with the id, or nothing exactly when no entry has it |
| Generator.Load | components/QrGenerator.tsx:97-102 | loading an unknown id keeps the configuration; loading a known one installs the options of the first entry with that id |
| Generator.LoadAfterSave | components/QrGenerator.tsx:80-102 | a just-saved configuration loads back by its id |
| Generator.Clear | components/QrGenerator.tsx:105-107 | clearing leaves an empty history |
| Generator.LoadAfterClear | components/QrGenerator.tsx:97-107 | after clearing, loading changes nothing |
| Generator.ShareHash | components/QrControls.tsx:135-139 | a share link exists exactly when the JSON of the style is Latin-1 (otherwise `btoa` throws); its hash is `#style=` followed by the Base64 of that JSON |
| Generator.ShareFailsBeyondLatin1 | components/QrControls.tsx:137-138 | a style whose JSON holds a character such as `ă` produces no share link |
| Generator.LoadSharedStyle | components/QrGenerator.tsx:52-72 | a hash without the prefix, or one that fails to decode, changes nothing; otherwise the decoded object is spread over the configuration, with the data kept |
| Generator.ShareRoundTrip | components/QrGenerator.tsx:52-72 | the style of a complete configuration (every nested record present), when Latin-1, yields a share link, and opening it restores the sender's whole style and keeps the receiver's data, size and logo |
| Generator.SharedStyleKeepsComplete | components/QrGenerator.tsx:61-65 | a shared style never removes a nested record |
| Generator.CraftedLinkSetsLogo | components/QrGenerator.tsx:61-65 | a hand-made link can still set the logo and the size, since the merge keeps back only the data |
| Bulk.CheckFile | components/modals/BulkGenerateModal.tsx:22-31 | a file is accepted exactly when its type is `text/csv`, and otherwise rejected with the invalid-file message |
| Bulk.NonBlank | components/modals/BulkGenerateModal.tsx:44 | the filter keeps only non-blank lines, never more than it is given |
| Bulk.NonBlankCount | components/modals/BulkGenerateModal.tsx:44 | the filter drops exactly as many lines as are blank once trimmed |
| Bulk.NonBlankFromInput | components/modals/BulkGenerateModal.tsx:44 | every kept line is a line of the input |
| Bulk.NonBlankKeepsNonBlank | components/modals/BulkGenerateModal.tsx:44 | no non-blank line is lost |
| Bulk.BulkLines | components/modals/BulkGenerateModal.tsx:44 | every kept line is non-blank and free of line feeds, and exactly the blank lines of the split are dropped |
| Bulk.NonBlankSubsequence | components/modals/BulkGenerateModal.tsx:44 | the blank-line filter keeps lines in file order |
| Bulk.BulkLinesOfRows | components/modals/BulkGenerateModal.tsx:44 | a file of rows with LF or CRLF ends yields exactly its non-blank rows |
| Bulk.BlankFileHasNoLines | components/modals/BulkGenerateModal.tsx:44-50 | a file of whitespace only has no lines, so it is reported empty |
| Bulk.BulkItemsAreTrimmedLines | components/modals/BulkGenerateModal.tsx:55-56 | each item is the trimmed kept line and is non-empty |
| Bulk.ItemOptions | components/modals/BulkGenerateModal.tsx:53-60 | an item carries its line as data and the current style, size and logo unchanged |
| Bulk.Outcomes | components/modals/BulkGenerateModal.tsx:53-62 | line k is rendered once, with the current style and that line as its data (the data update `Controls.SetData`) |
| Bulk.EntryName | components/modals/BulkGenerateModal.tsx:64 | the name of item `i` is `qr_code_` and `.png` around the decimal digits of `i + 1`, so entries are numbered from 1 |
| Bulk.Message | components/modals/BulkGenerateModal.tsx:47-79 | an error message is shown exactly when the run does not end in an archive; the empty-file and processing-error texts each identify their failure, and neither is the file-type rejection text |
| Bulk.EntryNamesDistinct | components/modals/BulkGenerateModal.tsx:64 | archive entry names `qr_code_<i+1>.png` are distinct for distinct lines |
| Bulk.ReportsRange | components/modals/BulkGenerateModal.tsx:66 | progress after line k is in (0, 100], and 100 only after the last line |
| Bulk.ReportsIncrease | components/modals/BulkGenerateModal.tsx:66 | progress strictly increases |
| Bulk.Process | components/modals/BulkGenerateModal.tsx:55-67 | a successful run yields at most one entry per line, each named `qr_code_…` |
| Bulk.ProcessFailsIffThrow | components/modals/BulkGenerateModal.tsx:55-80 | processing fails exactly when rendering some line throws |
| Bulk.ProcessAllRendered | components/modals/BulkGenerateModal.tsx:62-65 | when every line renders, the archive holds one entry per line, in order, with its blob |
| Bulk.ProcessNamesDistinct | components/modals/BulkGenerateModal.tsx:63-65 | archive entries never share a name, even when some lines yield no blob |
| Bulk.ProcessStaysFailed | components/modals/BulkGenerateModal.tsx:78-80 | once a line throws, the rest of the run is abandoned |
| Bulk.RenderItems | components/modals/BulkGenerateModal.tsx:55-67 | the loop computes exactly the archive and progress reports the per-line outcomes determine |
| Bulk.Generate | components/modals/BulkGenerateModal.tsx:33-86 | the result is: an empty-file error exactly when no line remains; a processing error exactly when some line throws; otherwise the archive, with progress at 100 |
| Preview.ForRenderer | components/QrPreview.tsx:52-57 | the renderer gets every option except the frame |
| Preview.RendererSeesAllButFrame | components/QrPreview.tsx:55-56 | two configurations look the same to the renderer exactly when they differ at most in the frame |
| Preview.Download | components/QrPreview.tsx:59-74 | downloads are named `cod-qr`; PNG and JPEG carry the export size as width and height, SVG carries none |
| Preview.ExportSizeInput | components/QrPreview.tsx:123 | the export size is the parsed number raised to at least 50, and 50 when parsing fails |
| Preview.ExportSizeOfNumber | components/QrPreview.tsx:123 | a typed number is taken as is when at least 50, else 50 |
| Preview.RasterDownloadAtLeast50 | components/QrPreview.tsx:123 | a raster download is at least 50 pixels wide, and 1024 before any input |
| Preview.HasFrame | components/QrPreview.tsx:77 | a frame is drawn exactly when the frame text exists and is not all whitespace |
| Preview.IsCircular | components/QrPreview.tsx:78 | the code is drawn round exactly when its shape is not square |
| Preview.ShowsNote | components/QrPreview.tsx:142 | the note shows exactly when the preview has a frame or a round container |
| Preview.Container | components/QrPreview.tsx:76-91 | the frame colour shows only with frame text; the container is round only for a circular code without a frame |
| Preview.NoteCoversEveryDifference | components/QrPreview.tsx:142-146 | whenever the preview differs from the plain square download, the note is shown |
| Preview.FrameTextShowsFrame | components/QrPreview.tsx:77 | setting the frame text shows the frame exactly when the text is not all whitespace |

## Left out

- Rendering and export of QR images belong to the external library. The bulk generator receives rendering as the function parameter `render`. Downloads are modelled as the request object only.
- `JSON.stringify` and `btoa` are the `stringify`/`btoa` parameters of the share link, and `atob`/`JSON.parse` together are its `decode` parameter. Their round trip is a precondition of `Generator.ShareRoundTrip`. A parse that throws is the `None` result.
- Generator.ShareHash: the `InvalidCharacterError` of `btoa` is modelled as no link for any character above U+00FF in the JSON. That `JSON.stringify` copies the frame text's characters into the JSON unescaped is not modelled; `Generator.ShareFailsBeyondLatin1` takes it as a precondition.
- `Date.prototype.toISOString` depends on the time zone, so it is the parameter `toIso` of the event encoder. An invalid date (a `RangeError`) is its `None` result.
- `Date.now()` is the parameter `now` of `Generator.NewEntry`. The id and the timestamp come from one reading; the source reads the clock twice.
- Color.Linearize: the `((c + 0.055) / 1.055) ^ 2.4` branch is the parameter `gamma`, assumed to map [0, 1] into [0, 1]. Floating-point rounding is not modelled; luminance and contrast are exact reals.
- Bulk.Percent: the progress `((i + 1) / lines.length) * 100` is an exact real. Its floating-point rounding is not modelled.
- Lengths count Dafny characters (Unicode scalar values), so characters outside the Basic Multilingual Plane count 1, not 2 as in JavaScript. This affects only the history name cut at 30 and the data-length thresholds of the scorer.
- `encodeURIComponent` throws on lone surrogates. Dafny characters cannot be lone surrogates, so that error path does not arise.
- React effects, state timing, re-rendering, and the components' markup and CSS are left out. So are:
  - the clipboard;
  - `localStorage` persistence;
  - `FileReader`;
  - the URL hash clean-up;
  - the logo preview.
- Zip assembly (`JSZip.generateAsync`) and the download link of the bulk modal are left out. Their failures cannot be observed apart from a render that throws.
- `null`/`undefined` and absent keys are all `None`, except the shape (see `QrTypes.QrOptions` below). The values a hand-edited share link could give (wrong JSON types, `null` records) are left out: `decode` yields only well-typed patches.
- Controls.SetPath: the value must fit the path's type (`Fits`), as the TypeScript call sites guarantee. A JavaScript write of an ill-typed value is not modelled.
- Bulk.Generate: the early return when no file is chosen or the library is missing is left out. It produces no observable result.
- Text.ParseInt: only decimal digits are recognised, because every call site passes radix 10. The result is the exact integer; JavaScript's conversion to a double (rounding beyond 2^53, `Infinity` beyond about 1.8e308) is not modelled, so `Controls.FontSizeInput` and `Preview.ExportSizeInput` are exact for inputs of that size.
- QrTypes.QrOptions: `shape` is not optional. The source's initial configuration (`Generator.InitialOptions`) has no `shape` key, so it is absent at start, after a reset and in history entries saved before any toggle; the model writes `SquareShape` there. Every reader treats an absent shape as square, so nothing drawn or scored changes. `Controls.StripForShare` always carries the shape, where the source's JSON omits an absent key. So a link from a never-toggled configuration leaves the receiver's shape alone in the source but sets it to square in the model.

=== FILE: bulk.dfy ===
/** Bulk generation from a one-column CSV file (components/modals/BulkGenerateModal.tsx):
    the file check, the line splitting and the archive of one image per line. */
module Bulk {
  import opened Wrappers
  import opened QrTypes
  import opened Text
  import Seqs
  import Controls

  const InvalidFileMessage := "Te rog \U{00EE}ncarc\U{0103} un fi\U{0219}ier valid de tip CSV."
  const EmptyFileMessage := "Fi\U{0219}ierul CSV este gol."
  const ProcessingErrorMessage := "A ap\U{0103}rut o eroare la procesarea fi\U{0219}ierului."

  datatype FileCheck = Accepted | Rejected(message: string)

  /** Only a file whose MIME type is exactly `text/csv` is taken. */
  function CheckFile(mimeType: string): (c: FileCheck)
    ensures c.Accepted? <==> mimeType == "text/csv"
    ensures c.Rejected? ==> c.message == InvalidFileMessage
  {
    if mimeType == "text/csv" then Accepted else Rejected(InvalidFileMessage)
  }

  /** The number of lines that are blank once trimmed. */
  function CountBlank(lines: seq<string>): (n: nat)
    ensures n <= |lines|
  {
    if lines == [] then 0 else (if Trim(lines[0]) == "" then 1 else 0) + CountBlank(lines[1..])
  }

  /** The lines that are not blank once trimmed, in order and untrimmed. */
  function NonBlank(lines: seq<string>): (r: seq<string>)
    ensures |r| <= |lines|
    ensures forall i :: 0 <= i < |r| ==> Trim(r[i]) != ""
  {
    if lines == [] then []
    else if Trim(lines[0]) != "" then [lines[0]] + NonBlank(lines[1..])
    else NonBlank(lines[1..])
  }

  /** `text.split(/\r?\n/).filter(line => line.trim() !== '')`. */
  function BulkLines(text: string): (r: seq<string>)
    ensures |r| == |SplitLines(text)| - CountBlank(SplitLines(text))
    ensures forall i :: 0 <= i < |r| ==> Trim(r[i]) != "" && LF !in r[i]
  {
    NonBlankCount(SplitLines(text));
    NonBlankFromInput(SplitLines(text));
    NonBlank(SplitLines(text))
  }

  /** The filter drops exactly the blank lines: no more, no fewer. */
  lemma {:induction false} NonBlankCount(lines: seq<string>)
    ensures |NonBlank(lines)| == |lines| - CountBlank(lines)
  {
    if lines != [] {
      NonBlankCount(lines[1..]);
    }
  }

  lemma {:induction false} NonBlankSubsequence(lines: seq<string>)
    ensures Seqs.Subsequence(NonBlank(lines), lines)
  {
    if lines != [] {
      NonBlankSubsequence(lines[1..]);
      if Trim(lines[0]) != "" {
        assert ([lines[0]] + NonBlank(lines[1..]))[1..] == NonBlank(lines[1..]);
      }
    }
  }

  /** Every kept line is a line of the input. */
  lemma {:induction false} NonBlankFromInput(lines: seq<string>)
    ensures forall i :: 0 <= i < |NonBlank(lines)| ==> NonBlank(lines)[i] in lines
  {
    if lines != [] {
      NonBlankFromInput(lines[1..]);
    }
  }

  /** No non-blank line is lost by the filter. */
  lemma NonBlankKeepsNonBlank(lines: seq<string>, i: int)
    requires 0 <= i < |lines| && Trim(lines[i]) != ""
    ensures lines[i] in NonBlank(lines)
  {
    NonBlankKeepsLine(lines, lines[i]);
  }

  lemma {:induction false} NonBlankKeepsLine(lines: seq<string>, x: string)
    requires x in lines && Trim(x) != ""
    ensures x in NonBlank(lines)
  {
    var head := if Trim(lines[0]) != "" then [lines[0]] else [];
    NonBlankUnfold(lines);
    if lines[0] == x {
      Seqs.InLeft(x, head, NonBlank(lines[1..]));
    } else {
      var k :| 0 <= k < |lines| && lines[k] == x;
      assert lines[1..][k - 1] == x;
      NonBlankKeepsLine(lines[1..], x);
      Seqs.InRight(x, head, NonBlank(lines[1..]));
    }
  }

  lemma NonBlankUnfold(lines: seq<string>)
    requires lines != []
    ensures NonBlank(lines) == (if Trim(lines[0]) != "" then [lines[0]] else []) + NonBlank(lines[1..])
  {
  }

  lemma {:induction false} NonBlankKeepsEvery(lines: seq<string>)
    requires forall i :: 0 <= i < |lines| ==> Trim(lines[i]) != ""
    ensures NonBlank(lines) == lines
  {
    if lines != [] {
      NonBlankKeepsEvery(lines[1..]);
      assert [lines[0]] + lines[1..] == lines;
    }
  }

  /** The rows of a file, joined with LF or with CRLF, come back in order with only the
      blank ones dropped; rows that are all non-blank come back exactly. */
  lemma BulkLinesOfRows(rows: seq<string>)
    requires |rows| >= 1
    requires forall i :: 0 <= i < |rows| ==> LF !in rows[i] && CR !in rows[i]
    ensures BulkLines(JoinLF(rows)) == NonBlank(rows)
    ensures BulkLines(JoinLF(seq(|rows|, i requires 0 <= i < |rows| =>
              if i < |rows| - 1 then rows[i] + [CR] else rows[i]))) == NonBlank(rows)
    ensures Seqs.Subsequence(BulkLines(JoinLF(rows)), rows)
    ensures (forall i :: 0 <= i < |rows| ==> Trim(rows[i]) != "") ==> BulkLines(JoinLF(rows)) == rows
  {
    SplitJoinLF(rows);
    var pieces := SplitLF(JoinLF(rows));
    forall i | 0 <= i < |rows| - 1 ensures DropOneCR(pieces[i]) == rows[i] {
      assert pieces[i] == rows[i];
      if pieces[i] != [] {
        assert pieces[i][|pieces[i]| - 1] in rows[i];
      }
    }
    assert SplitLines(JoinLF(rows)) == rows;
    SplitLinesCRLF(rows);
    NonBlankSubsequence(rows);
    if forall i :: 0 <= i < |rows| ==> Trim(rows[i]) != "" {
      NonBlankKeepsEvery(rows);
    }
  }

  /** An empty or all-blank file has no lines. */
  lemma BlankFileHasNoLines(text: string)
    requires AllWhitespace(text)
    ensures BulkLines(text) == []
  {
    SplitLFCount(text);
    if CountChar(text, LF) == 0 {
      JoinSplitLF(text);
      assert SplitLF(text) == [text] by {
        assert |SplitLF(text)| == 1;
        assert JoinLF(SplitLF(text)) == SplitLF(text)[0];
      }
      TrimEmptyIff(text);
    } else {
      assert IsJsWhitespace(LF);
      AllBlankPieces(text);
    }
  }

  lemma AllBlankPieces(text: string)
    requires AllWhitespace(text)
    ensures BulkLines(text) == []
  {
    var pieces := SplitLines(text);
    forall i | 0 <= i < |pieces| ensures Trim(pieces[i]) == "" {
      PieceOfWhitespace(text, i);
    }
    NonBlankDropsAll(pieces);
  }

  lemma PieceOfWhitespace(text: string, i: nat)
    requires AllWhitespace(text) && i < |SplitLines(text)|
    ensures Trim(SplitLines(text)[i]) == ""
  {
    var piece := SplitLF(text)[i];
    JoinSplitLF(text);
    JoinedPieceIsWhitespace(SplitLF(text), i);
    assert AllWhitespace(piece);
    var line := SplitLines(text)[i];
    assert line == piece || line == DropOneCR(piece);
    assert AllWhitespace(line) by {
      forall k | 0 <= k < |line| ensures IsJsWhitespace(line[k]) {
        assert line[k] == piece[k];
      }
    }
    TrimEmptyIff(line);
  }

  lemma {:induction false} JoinedPieceIsWhitespace(pieces: seq<string>, i: nat)
    requires i < |pieces| && AllWhitespace(JoinLF(pieces))
    ensures AllWhitespace(pieces[i])
  {
    if |pieces| > 1 {
      var rest := JoinLF(pieces[1..]);
      assert JoinLF(pieces) == pieces[0] + ([LF] + rest);
      AllWhitespaceSplit(pieces[0], [LF] + rest);
      AllWhitespaceSplit([LF], rest);
      if i > 0 {
        JoinedPieceIsWhitespace(pieces[1..], i - 1);
      }
    }
  }

  lemma {:induction false} NonBlankDropsAll(lines: seq<string>)
    requires forall i :: 0 <= i < |lines| ==> Trim(lines[i]) == ""
    ensures NonBlank(lines) == []
  {
    if lines != [] {
      NonBlankDropsAll(lines[1..]);
    }
  }

  // ---------------------------------------------------------------------------
  // The archive

  type Blob = seq<int>

  /** What the foreign renderer gives for one configuration: an image, nothing, or an
      exception. */
  datatype RenderOutcome = Rendered(blob: Blob) | NoBlob | Threw

  datatype ZipEntry = ZipEntry(name: string, blob: Blob)

  datatype BulkResult =
    | EmptyFile
    | ProcessingError
    | Archive(entries: seq<ZipEntry>, progress: seq<ProgressReport>)

  /** The message shown for an outcome, empty for an archive. The two failures read
      differently from each other and from the file-type rejection. */
  function Message(r: BulkResult): (m: string)
    ensures m == "" <==> r.Archive?
    ensures m == EmptyFileMessage <==> r.EmptyFile?
    ensures m == ProcessingErrorMessage <==> r.ProcessingError?
    ensures m != InvalidFileMessage
  {
    match r
    case EmptyFile => EmptyFileMessage
    case ProcessingError => ProcessingErrorMessage
    case Archive(_, _) => ""
  }

  /** The trimmed lines. */
  function TrimAll(lines: seq<string>): (r: seq<string>)
    ensures |r| == |lines|
  {
    if lines == [] then [] else [Trim(lines[0])] + TrimAll(lines[1..])
  }

  lemma {:induction false} TrimAllValues(lines: seq<string>)
    ensures forall k :: 0 <= k < |lines| ==> TrimAll(lines)[k] == Trim(lines[k])
  {
    if lines != [] {
      TrimAllValues(lines[1..]);
    }
  }

  /** The data of the items: each kept line, trimmed (`lines[i].trim()`). */
  function BulkItems(text: string): (items: seq<string>)
    ensures |items| == |BulkLines(text)|
  {
    TrimAll(BulkLines(text))
  }

  /** Every item is the trimmed form of its line and is not empty. */
  lemma BulkItemsAreTrimmedLines(text: string)
    ensures forall k :: 0 <= k < |BulkItems(text)| ==>
              BulkItems(text)[k] == Trim(BulkLines(text)[k]) && BulkItems(text)[k] != ""
  {
    TrimAllValues(BulkLines(text));
  }

  /** Item configuration: the current style with the data replaced (`{ ...rest, data }`),
      the same update a form makes (`Controls.SetData`). */
  function ItemOptions(style: QrOptions, data: string): (r: QrOptions)
    ensures r.data == data
    ensures Controls.StripForShare(r) == Controls.StripForShare(style)
    ensures (r.width, r.height, r.image) == (style.width, style.height, style.image)
  {
    Controls.SetData(style, data)
  }

  /** `qr_code_<i + 1>.png`: entries are numbered from 1. */
  function EntryName(i: nat): (name: string)
    ensures "qr_code_" <= name && |name| > 12
    ensures name[|name| - 4..] == ".png"
    ensures AllDigits(name[8..|name| - 4]) && DecimalValue(name[8..|name| - 4]) == i + 1
  {
    var digits := NatToDecimal(i + 1);
    var n := "qr_code_" + digits + ".png";
    assert n[8..|n| - 4] == digits;
    n
  }

  /** Different items get different names. */
  lemma EntryNamesDistinct(i: nat, j: nat)
    requires i != j
    ensures EntryName(i) != EntryName(j)
  {
    var a, b := NatToDecimal(i + 1), NatToDecimal(j + 1);
    assert EntryName(i)[8..|EntryName(i)| - 4] == a;
    assert EntryName(j)[8..|EntryName(j)| - 4] == b;
    assert a != b by { assert DecimalValue(a) != DecimalValue(b); }
  }

  /** A progress report: `done` of `total` items rendered. */
  datatype ProgressReport = ProgressReport(done: nat, total: nat)

  /** The percentage `setProgress` receives: `(done / total) * 100`. */
  function Percent(p: ProgressReport): real
    requires p.total > 0
  {
    (p.done as real / p.total as real) * 100.0
  }

  /** The reports after each of the first `i` items of `n`. */
  function Reports(i: nat, n: nat): (ps: seq<ProgressReport>)
    requires i <= n
    ensures |ps| == i
  {
    if i == 0 then [] else Reports(i - 1, n) + [ProgressReport(i, n)]
  }

  /** Report `k` says `k + 1` items of `n` are done. */
  lemma {:induction false} ReportsCount(i: nat, n: nat)
    requires i <= n
    ensures forall k :: 0 <= k < i ==> Reports(i, n)[k] == ProgressReport(k + 1, n)
  {
    if i > 0 {
      ReportsCount(i - 1, n);
    }
  }

  /** Every report lies in (0, 100], and the report after the last item is exactly 100. */
  lemma ReportsRange(n: nat, k: nat)
    requires k < n
    ensures Reports(n, n)[k] == ProgressReport(k + 1, n)
    ensures 0.0 < Percent(ProgressReport(k + 1, n)) <= 100.0
    ensures Percent(ProgressReport(k + 1, n)) == 100.0 <==> k == n - 1
  {
    ReportsCount(n, n);
    var q := (k + 1) as real / n as real;
    assert q * n as real == (k + 1) as real;
    if k == n - 1 {
      assert q == 1.0;
    } else {
      assert q < 1.0;
    }
  }

  /** Progress strictly grows from report to report. */
  lemma ReportsIncrease(n: nat, i: nat, j: nat)
    requires i < j < n
    ensures Percent(ProgressReport(i + 1, n)) < Percent(ProgressReport(j + 1, n))
  {
    var a := (i + 1) as real / n as real;
    var b := (j + 1) as real / n as real;
    assert a * n as real == (i + 1) as real;
    assert b * n as real == (j + 1) as real;
    if a >= b {
      assert a * n as real >= b * n as real;
    }
  }


  /** What the renderer gives for each line's configuration. */
  function Outcomes(items: seq<string>, style: QrOptions, render: QrOptions -> RenderOutcome): (outs: seq<RenderOutcome>)
    ensures |outs| == |items|
    ensures forall k :: 0 <= k < |items| ==> outs[k] == render(ItemOptions(style, items[k]))
  {
    if items == [] then [] else [render(ItemOptions(style, items[0]))] + Outcomes(items[1..], style, render)
  }

  /** The entries from the first `n` outcomes: `None` once a render throws, otherwise one
      entry per line that rendered to an image. */
  function Process(outs: seq<RenderOutcome>, n: nat): (r: Option<seq<ZipEntry>>)
    requires n <= |outs|
    ensures r.Some? ==> |r.value| <= n
    ensures r.Some? ==> forall k :: 0 <= k < |r.value| ==> "qr_code_" <= r.value[k].name
  {
    if n == 0 then Some([])
    else match Process(outs, n - 1)
      case None => None
      case Some(es) =>
        match outs[n - 1]
        case Threw => None
        case NoBlob => Some(es)
        case Rendered(b) => Some(es + [ZipEntry(EntryName(n - 1), b)])
  }

  /** The whole batch fails exactly when one of its renders throws. */
  lemma {:induction false} ProcessFailsIffThrow(outs: seq<RenderOutcome>, n: nat)
    requires n <= |outs|
    ensures Process(outs, n).None? <==> exists k :: 0 <= k < n && outs[k].Threw?
  {
    if n > 0 {
      ProcessFailsIffThrow(outs, n - 1);
    }
  }

  /** When every line renders, there is one entry per line, named by its position and
      holding its image. */
  lemma {:induction false} ProcessAllRendered(outs: seq<RenderOutcome>, n: nat)
    requires n <= |outs|
    requires forall k :: 0 <= k < n ==> outs[k].Rendered?
    ensures Process(outs, n).Some?
    ensures var es := Process(outs, n).value;
            |es| == n && forall k :: 0 <= k < n ==> es[k] == ZipEntry(EntryName(k), outs[k].blob)
  {
    if n > 0 {
      ProcessAllRendered(outs, n - 1);
    }
  }

  /** Every entry is named after one of the lines processed so far. */
  lemma {:induction false} ProcessNamesBelow(outs: seq<RenderOutcome>, n: nat)
    requires n <= |outs| && Process(outs, n).Some?
    ensures forall e :: e in Process(outs, n).value ==> exists k :: 0 <= k < n && e.name == EntryName(k)
  {
    if n > 0 {
      ProcessNamesBelow(outs, n - 1);
    }
  }

  /** No two entries of the archive share a name. */
  lemma {:induction false} ProcessNamesDistinct(outs: seq<RenderOutcome>, n: nat)
    requires n <= |outs| && Process(outs, n).Some?
    ensures var es := Process(outs, n).value;
            forall i, j :: 0 <= i < j < |es| ==> es[i].name != es[j].name
  {
    if n > 0 {
      var prev := Process(outs, n - 1).value;
      ProcessNamesDistinct(outs, n - 1);
      ProcessNamesBelow(outs, n - 1);
      var es := Process(outs, n).value;
      if es != prev {
        forall i | 0 <= i < |prev| ensures prev[i].name != EntryName(n - 1) {
          assert prev[i] in prev;
          var k :| 0 <= k < n - 1 && prev[i].name == EntryName(k);
          EntryNamesDistinct(k, n - 1);
        }
      }
    }
  }

  /** One more outcome extends the entries by at most one. */
  lemma ProcessStep(outs: seq<RenderOutcome>, i: nat, es: seq<ZipEntry>)
    requires i < |outs| && Process(outs, i) == Some(es)
    ensures outs[i].Threw? ==> Process(outs, i + 1).None?
    ensures outs[i].NoBlob? ==> Process(outs, i + 1) == Some(es)
    ensures outs[i].Rendered? ==> Process(outs, i + 1) == Some(es + [ZipEntry(EntryName(i), outs[i].blob)])
  {
  }

  /** Once the batch has failed it stays failed. */
  lemma {:induction false} ProcessStaysFailed(outs: seq<RenderOutcome>, m: nat, n: nat)
    requires m <= n <= |outs| && Process(outs, m).None?
    ensures Process(outs, n).None?
    decreases n - m
  {
    if m < n {
      ProcessStaysFailed(outs, m + 1, n);
    }
  }

  /** The loop of `handleGenerate`: render each item in order, add an entry for each
      image, report progress, and stop at the first exception. */
  method RenderItems(items: seq<string>, style: QrOptions, render: QrOptions -> RenderOutcome)
    returns (entries: Option<seq<ZipEntry>>, progress: seq<ProgressReport>)
    ensures entries == Process(Outcomes(items, style, render), |items|)
    ensures entries.Some? ==> progress == Reports(|items|, |items|)
  {
    ghost var outs := Outcomes(items, style, render);
    var es: seq<ZipEntry> := [];
    progress := [];
    var i := 0;
    while i < |items|
      invariant 0 <= i <= |items|
      invariant Process(outs, i) == Some(es)
      invariant progress == Reports(i, |items|)
    {
      var outcome := render(ItemOptions(style, items[i]));
      assert outcome == outs[i];
      if outcome.Threw? {
        ProcessStaysFailed(outs, i + 1, |items|);
        return None, progress;
      }
      if outcome.Rendered? {
        es := es + [ZipEntry(EntryName(i), outcome.blob)];
      }
      progress := progress + [ProgressReport(i + 1, |items|)];
      i := i + 1;
    }
    return Some(es), progress;
  }

  /** `handleGenerate` once the file is read: no lines is the empty-file error, a failed
      batch the processing error, otherwise the archive. */
  method Generate(text: string, style: QrOptions, render: QrOptions -> RenderOutcome) returns (r: BulkResult)
    ensures r.EmptyFile? <==> BulkItems(text) == []
    ensures r.ProcessingError? <==> BulkItems(text) != [] && Process(Outcomes(BulkItems(text), style, render), |BulkItems(text)|).None?
    ensures r.Archive? ==> Process(Outcomes(BulkItems(text), style, render), |BulkItems(text)|) == Some(r.entries)
    ensures r.Archive? ==> r.progress == Reports(|BulkItems(text)|, |BulkItems(text)|)
  {
    var items := BulkItems(text);
    if |items| == 0 {
      return EmptyFile;
    }
    var entries, progress := RenderItems(items, style, render);
    if entries.None? {
      return ProcessingError;
    }
    return Archive(entries.value, progress);
  }
}

=== FILE: color.dfy ===
/** Hex colour parsing and the WCAG 2.0 contrast ratio (utils/color.ts). */
module Color {
  import opened Wrappers

  /** A colour as three 8-bit channels. */
  datatype Rgb = Rgb(r: int, g: int, b: int)

  predicate ValidRgb(c: Rgb) {
    0 <= c.r <= 255 && 0 <= c.g <= 255 && 0 <= c.b <= 255
  }

  /** `[a-f\d]` under the `i` flag: ASCII digits and the letters a-f in either case. */
  predicate IsHexDigit(c: char) {
    ('0' <= c <= '9') || ('a' <= c <= 'f') || ('A' <= c <= 'F')
  }

  function HexValue(c: char): (v: nat)
    requires IsHexDigit(c)
    ensures v < 16
  {
    if '0' <= c <= '9' then c as int - '0' as int
    else if 'a' <= c <= 'f' then c as int - 'a' as int + 10
    else c as int - 'A' as int + 10
  }

  predicate AllHex(s: string) {
    forall i :: 0 <= i < |s| ==> IsHexDigit(s[i])
  }

  /** The strings matched by `/^#?([a-f\d]{2})([a-f\d]{2})([a-f\d]{2})$/i`. */
  predicate MatchesHexPattern(s: string) {
    || (|s| == 6 && AllHex(s))
    || (|s| == 7 && s[0] == '#' && AllHex(s[1..]))
  }

  /** The value of a two-digit hex pair, as `parseInt(pair, 16)` reads it. */
  function PairValue(hi: char, lo: char): (v: int)
    requires IsHexDigit(hi) && IsHexDigit(lo)
    ensures 0 <= v <= 255
  {
    16 * HexValue(hi) + HexValue(lo)
  }

  /** The six digits after an optional leading `#`. */
  function StripHash(s: string): string {
    if s != [] && s[0] == '#' then s[1..] else s
  }

  /** `hexToRgb`: a triple of channels for `#RRGGBB` or `RRGGBB` in either letter case,
      `None` (the source's `null`) for everything else. */
  function ParseHexColor(s: string): (r: Option<Rgb>)
    ensures r.Some? <==> MatchesHexPattern(s)
    ensures r.Some? ==> ValidRgb(r.value)
  {
    var d := StripHash(s);
    if |d| == 6 && AllHex(d) then
      Some(Rgb(PairValue(d[0], d[1]), PairValue(d[2], d[3]), PairValue(d[4], d[5])))
    else None
  }

  // ---------------------------------------------------------------------------
  // Case and '#' insensitivity

  function LowerAsciiChar(c: char): char {
    if 'A' <= c <= 'Z' then (c as int + 32) as char else c
  }

  function LowerAscii(s: string): (r: string)
    ensures |r| == |s|
    ensures forall i :: 0 <= i < |s| ==> r[i] == LowerAsciiChar(s[i])
  {
    seq(|s|, i requires 0 <= i < |s| => LowerAsciiChar(s[i]))
  }

  lemma LowerHexDigit(c: char)
    ensures IsHexDigit(LowerAsciiChar(c)) <==> IsHexDigit(c)
    ensures IsHexDigit(c) ==> HexValue(LowerAsciiChar(c)) == HexValue(c)
  {
  }

  /** Letter case does not change the parsed colour. */
  lemma ParseIgnoresCase(s: string)
    ensures ParseHexColor(LowerAscii(s)) == ParseHexColor(s)
  {
    var t := LowerAscii(s);
    forall i | 0 <= i < |s| ensures IsHexDigit(t[i]) <==> IsHexDigit(s[i]) {
      LowerHexDigit(s[i]);
    }
    var d, e := StripHash(s), StripHash(t);
    assert |d| == |e|;
    assert forall i :: 0 <= i < |d| ==> e[i] == LowerAsciiChar(d[i]);
    forall i | 0 <= i < |d| ensures IsHexDigit(e[i]) <==> IsHexDigit(d[i]) {
      LowerHexDigit(d[i]);
    }
    if |d| == 6 && AllHex(d) {
      forall i | 0 <= i < 6 ensures HexValue(e[i]) == HexValue(d[i]) {
        LowerHexDigit(d[i]);
      }
    }
  }

  /** A leading `#` does not change the parsed colour. */
  lemma ParseIgnoresHash(s: string)
    requires s == [] || s[0] != '#'
    ensures ParseHexColor(['#'] + s) == ParseHexColor(s)
  {
    assert StripHash(['#'] + s) == s;
  }

  // ---------------------------------------------------------------------------
  // Formatting (the `#rrggbb` form a colour input produces)

  function HexDigitChar(v: nat): (c: char)
    requires v < 16
    ensures IsHexDigit(c) && HexValue(c) == v
    ensures !('A' <= c <= 'Z')
  {
    if v < 10 then (v + '0' as int) as char else (v - 10 + 'a' as int) as char
  }

  function FormatChannel(v: int): (s: string)
    requires 0 <= v <= 255
    ensures |s| == 2 && AllHex(s) && PairValue(s[0], s[1]) == v
  {
    [HexDigitChar(v / 16), HexDigitChar(v % 16)]
  }

  /** `#rrggbb` in lower case. */
  function FormatHexColor(c: Rgb): (s: string)
    requires ValidRgb(c)
    ensures |s| == 7 && s[0] == '#' && LowerAscii(s) == s
  {
    var s := ['#'] + FormatChannel(c.r) + FormatChannel(c.g) + FormatChannel(c.b);
    assert forall i :: 1 <= i < 7 ==> IsHexDigit(s[i]) && !('A' <= s[i] <= 'Z');
    assert LowerAscii(s) == s;
    s
  }

  /** Every colour formats to a string that parses back to it. */
  lemma ParseFormat(c: Rgb)
    requires ValidRgb(c)
    ensures ParseHexColor(FormatHexColor(c)) == Some(c)
  {
    var s := FormatHexColor(c);
    var d := s[1..];
    assert d == FormatChannel(c.r) + FormatChannel(c.g) + FormatChannel(c.b);
    assert AllHex(d);
  }

  /** Parsing then formatting normalises an accepted string: a `#` in front, lower-case digits. */
  lemma FormatParse(s: string)
    requires MatchesHexPattern(s)
    ensures FormatHexColor(ParseHexColor(s).value) == ['#'] + LowerAscii(StripHash(s))
  {
    var d := StripHash(s);
    assert |d| == 6 && AllHex(d);
    var c := ParseHexColor(s).value;
    assert c == Rgb(PairValue(d[0], d[1]), PairValue(d[2], d[3]), PairValue(d[4], d[5]));
    FormatPair(d[0], d[1]);
    FormatPair(d[2], d[3]);
    FormatPair(d[4], d[5]);
    LowerSix(d);
    RegroupFour(['#'], FormatChannel(c.r), FormatChannel(c.g), FormatChannel(c.b));
  }

  lemma LowerSix(d: string)
    requires |d| == 6
    ensures LowerAscii(d) == [LowerAsciiChar(d[0]), LowerAsciiChar(d[1])] + [LowerAsciiChar(d[2]), LowerAsciiChar(d[3])]
                             + [LowerAsciiChar(d[4]), LowerAsciiChar(d[5])]
  {
  }

  lemma RegroupFour<T>(w: seq<T>, x: seq<T>, y: seq<T>, z: seq<T>)
    ensures w + x + y + z == w + (x + y + z)
  {
  }

  /** Formatting the value of a hex pair spells the pair in lower case. */
  lemma FormatPair(hi: char, lo: char)
    requires IsHexDigit(hi) && IsHexDigit(lo)
    ensures FormatChannel(PairValue(hi, lo)) == [LowerAsciiChar(hi), LowerAsciiChar(lo)]
  {
    var v := PairValue(hi, lo);
    assert v / 16 == HexValue(hi) && v % 16 == HexValue(lo);
    DigitOfValue(hi);
    DigitOfValue(lo);
  }

  /** The lower-case digit of a hex digit's value is the digit itself, lowered. */
  lemma DigitOfValue(c: char)
    requires IsHexDigit(c)
    ensures HexDigitChar(HexValue(c)) == LowerAsciiChar(c)
  {
  }

  // ---------------------------------------------------------------------------
  // Luminance and contrast

  /** The transfer curve `((c + 0.055) / 1.055) ^ 2.4` of the upper sRGB branch is a
      floating-point power; it is a parameter here, known only to map [0,1] into [0,1]. */
  ghost predicate MapsUnitInterval(gamma: real -> real) {
    forall x: real :: 0.0 <= x <= 1.0 ==> 0.0 <= gamma(x) <= 1.0
  }

  /** One channel of `getLuminance`: normalise to [0,1], then the piecewise sRGB transfer. */
  function Linearize(v: int, gamma: real -> real): (lin: real)
    requires 0 <= v <= 255
    requires MapsUnitInterval(gamma)
    ensures 0.0 <= lin <= 1.0
  {
    var c := v as real / 255.0;
    if c <= 0.03928 then c / 12.92 else gamma(c)
  }

  /** `getLuminance`: the relative luminance 0.2126 R + 0.7152 G + 0.0722 B. */
  function Luminance(c: Rgb, gamma: real -> real): (lum: real)
    requires ValidRgb(c)
    requires MapsUnitInterval(gamma)
    ensures 0.0 <= lum <= 1.0
  {
    0.2126 * Linearize(c.r, gamma) + 0.7152 * Linearize(c.g, gamma) + 0.0722 * Linearize(c.b, gamma)
  }

  function Max(a: real, b: real): real { if a >= b then a else b }
  function Min(a: real, b: real): real { if a <= b then a else b }

  /** `getContrastRatio`: (brighter + 0.05) / (darker + 0.05), or the neutral 1 when
      either colour fails to parse. */
  function ContrastRatio(hex1: string, hex2: string, gamma: real -> real): (ratio: real)
    requires MapsUnitInterval(gamma)
    ensures 1.0 <= ratio <= 21.0
    ensures !MatchesHexPattern(hex1) || !MatchesHexPattern(hex2) ==> ratio == 1.0
  {
    var p1, p2 := ParseHexColor(hex1), ParseHexColor(hex2);
    if p1.Some? && p2.Some? then LuminanceRatio(Luminance(p1.value, gamma), Luminance(p2.value, gamma))
    else 1.0
  }

  /** The WCAG ratio of two luminances: (brighter + 0.05) / (darker + 0.05). */
  function LuminanceRatio(l1: real, l2: real): (ratio: real)
    requires 0.0 <= l1 <= 1.0 && 0.0 <= l2 <= 1.0
    ensures 1.0 <= ratio <= 21.0
    ensures ratio == 1.0 <==> l1 == l2
  {
    var hi, lo := Max(l1, l2), Min(l1, l2);
    RatioBounds(hi, lo);
    (hi + 0.05) / (lo + 0.05)
  }

  lemma RatioBounds(hi: real, lo: real)
    requires 0.0 <= lo <= hi <= 1.0
    ensures 1.0 <= (hi + 0.05) / (lo + 0.05) <= 21.0
    ensures (hi + 0.05) / (lo + 0.05) == 1.0 <==> hi == lo
  {
    var d := lo + 0.05;
    var q := (hi + 0.05) / d;
    assert q * d == hi + 0.05;
    assert 21.0 * d >= 1.05;
    if hi == lo {
      assert q == 1.0;
    }
    if q == 1.0 {
      assert hi + 0.05 == d;
    }
    if q < 1.0 {
      MulMonotone(q, 1.0, d);
    }
    if q > 21.0 {
      MulMonotone(21.0, q, d);
    }
  }

  lemma MulMonotone(a: real, b: real, c: real)
    requires a < b && c > 0.0
    ensures a * c < b * c
  {
  }

  /** The ratio does not depend on the order of the two colours. */
  lemma ContrastSymmetric(hex1: string, hex2: string, gamma: real -> real)
    requires MapsUnitInterval(gamma)
    ensures ContrastRatio(hex1, hex2, gamma) == ContrastRatio(hex2, hex1, gamma)
  {
  }

  /** Two strings naming the same colour (whatever their case or `#`) have ratio 1. */
  lemma ContrastOfSameColor(hex1: string, hex2: string, gamma: real -> real)
    requires MapsUnitInterval(gamma)
    requires ParseHexColor(hex1) == ParseHexColor(hex2)
    ensures ContrastRatio(hex1, hex2, gamma) == 1.0
  {
  }

  /** Black on white reaches the maximum 21 once the transfer curve maps 1 to 1. */
  lemma BlackOnWhite(gamma: real -> real)
    requires MapsUnitInterval(gamma)
    requires gamma(1.0) == 1.0
    ensures ContrastRatio("#000000", "#ffffff", gamma) == 21.0
  {
    assert AllHex("000000");
    assert AllHex("ffffff");
    assert ParseHexColor("#000000") == Some(Rgb(0, 0, 0));
    assert ParseHexColor("#ffffff") == Some(Rgb(255, 255, 255));
    assert Luminance(Rgb(0, 0, 0), gamma) == 0.0;
    assert Luminance(Rgb(255, 255, 255), gamma) == 1.0;
  }
}

=== FILE: controls.dfy ===
/** The state updates of the settings panel (components/QrControls.tsx): content tabs,
    the gradient switch, typed option edits, the logo, templates and style sharing. */
module Controls {
  import opened Wrappers
  import opened QrTypes
  import opened Text
  import Templates
  import Scannability
  import Color
  import Uri
  import WifiEncoder
  import VCardEncoder
  import EmailEncoder
  import EventEncoder

  // ---------------------------------------------------------------------------
  // Content tabs

  datatype ContentType = UrlTab | TextTab | WifiTab | VCardTab | EmailTab | EventTab

  /** The data written into the configuration when a tab is selected, before the tab's
      form emits its own payload. Multi-line skeletons are written as their lines. */
  function TabSkeleton(tab: ContentType): (s: string)
    ensures s == "" <==> tab == TextTab
  {
    match tab
    case UrlTab => "https://www.upb.ro/"
    case WifiTab => "WIFI:T:WPA;S:;P:;;"
    case VCardTab => JoinLF(VCardSkeletonLines)
    case EmailTab => "mailto:" + "?" + "subject=&body="
    case EventTab => JoinLF(EventSkeletonLines)
    case TextTab => ""
  }

  /** Selecting a tab replaces the data and nothing else. */
  function SelectTab(o: QrOptions, tab: ContentType): (r: QrOptions)
    ensures r.data == TabSkeleton(tab)
    ensures r.(data := o.data) == o
  {
    o.(data := TabSkeleton(tab))
  }

  const EventSkeletonLines := ["BEGIN:VEVENT", "SUMMARY:", "LOCATION:", "DTSTART:", "DTEND:", "END:VEVENT"]

  const VCardSkeletonLines := ["BEGIN:VCARD", "VERSION:3.0", "N:;;;;", "FN:", "ORG:", "TEL;TYPE=WORK,VOICE:", "EMAIL:", "URL:", "END:VCARD"]

  /** The Wi-Fi skeleton is exactly what the empty Wi-Fi form emits. */
  lemma WifiSkeletonIsEmptyForm()
    ensures TabSkeleton(WifiTab) == WifiEncoder.Payload(WifiEncoder.InitialForm)
  {
    WifiEncoder.InitialPayload();
  }

  /** The event skeleton is exactly what the empty event form emits, in every time zone. */
  lemma EventSkeletonIsEmptyForm(toIso: EventEncoder.IsoConverter)
    ensures Some(TabSkeleton(EventTab)) == EventEncoder.Payload(EventEncoder.InitialForm, toIso)
  {
    EventEncoder.InitialPayload(toIso);
    EventEncoder.SkeletonText();
    JoinSixLines(EventSkeletonLines);
  }

  lemma JoinSixLines(ls: seq<string>)
    requires |ls| == 6
    ensures JoinLF(ls) == ls[0] + [LF] + ls[1] + [LF] + ls[2] + [LF] + ls[3] + [LF] + ls[4] + [LF] + ls[5]
  {
    assert ls[4..][1..] == [ls[5]];
    assert ls[3..][1..] == ls[4..];
    assert ls[2..][1..] == ls[3..];
    assert ls[1..][1..] == ls[2..];
    assert ls[0..][1..] == ls[1..];
    assert JoinLF(ls[4..]) == ls[4] + [LF] + ls[5];
    assert JoinLF(ls[3..]) == ls[3] + [LF] + (ls[4] + [LF] + ls[5]);
    assert JoinLF(ls[2..]) == ls[2] + [LF] + (ls[3] + [LF] + (ls[4] + [LF] + ls[5]));
    assert JoinLF(ls[1..]) == ls[1] + [LF] + (ls[2] + [LF] + (ls[3] + [LF] + (ls[4] + [LF] + ls[5])));
    assert JoinLF(ls) == ls[0] + [LF] + JoinLF(ls[1..]);
  }

  /** No card the vCard form can emit equals its skeleton: the skeleton's `FN:` line lacks
      the space the form always writes between the two names. */
  lemma VCardSkeletonNeverEmitted(f: VCardEncoder.VCardForm)
    ensures VCardEncoder.Payload(f) != TabSkeleton(VCardTab)
  {
    VCardSkeletonSplits();
    VCardSkeletonUnreadable();
    VCardEncoder.DecodePayload(f);
  }

  lemma VCardSkeletonSplits()
    ensures SplitLF(TabSkeleton(VCardTab)) == VCardSkeletonLines
  {
    var ls := VCardSkeletonLines;
    assert forall i :: 0 <= i < |ls| ==> LF !in ls[i];
    SplitJoinLF(ls);
  }

  /** The skeleton's fourth line is `FN:` alone, shorter than any formatted-name line. */
  lemma VCardSkeletonUnreadable()
    ensures VCardEncoder.DecodeLines(VCardSkeletonLines).None?
  {
    var ls := VCardSkeletonLines;
    assert |ls[3]| == 3;
    forall a: string, b: string
      ensures ls[3] != "FN:" + VCardEncoder.Escape(a) + " " + VCardEncoder.Escape(b)
    {
      assert |"FN:" + VCardEncoder.Escape(a) + " " + VCardEncoder.Escape(b)| >= 4;
    }
  }

  lemma EmptyQueryReads()
    ensures EmailEncoder.ReadQuery("subject=&body=") == Some(("", ""))
  {
    EmailEncoder.ReadQuerySubjectBody("", "");
    assert Uri.EncodeComponent("") == "";
    assert "subject=" + "" + "&" + "body=" + "" == "subject=&body=";
  }

  /** The e-mail skeleton reads back as the empty form. */
  lemma EmailSkeletonDecodes()
    ensures EmailEncoder.Decode(TabSkeleton(EmailTab)) == Some(EmailEncoder.InitialForm)
  {
    EmptyQueryReads();
    EmailEncoder.DecodeWithQuery("", "subject=&body=");
    assert "mailto:" + "" == "mailto:";
  }

  /** The empty form emits the bare `mailto:`, not the skeleton, so no form whose recipient
      has no `?` emits the skeleton. */
  lemma EmailSkeletonNeverEmitted(f: EmailEncoder.EmailForm)
    requires '?' !in f.to
    ensures EmailEncoder.Mailto(f) != TabSkeleton(EmailTab)
  {
    EmailSkeletonDecodes();
    EmailEncoder.DecodeMailto(f);
    EmailEncoder.InitialMailto();
    assert TabSkeleton(EmailTab) != "mailto:";
  }

  // ---------------------------------------------------------------------------
  // The gradient switch

  /** The gradient the panel starts from when the configuration has none. */
  const DefaultGradient := Gradient(Linear, Some(0.0), [ColorStop(0.0, "#ff8900"), ColorStop(1.0, "#b821ff")])

  const FallbackDotColor := "#4267b2"

  /** The gradient the switch starts from: the configuration's own, else the default. */
  function InitialGradient(o: QrOptions): (g: Gradient)
    ensures o.dotsOptions.gradient.Some? ==> g == o.dotsOptions.gradient.value
    ensures o.dotsOptions.gradient.None? ==> g == DefaultGradient
  {
    o.dotsOptions.gradient.GetOr(DefaultGradient)
  }

  /** The effect that follows the switch: on, the gradient replaces the colour; off, the
      gradient is dropped and the colour kept, or set to the fallback when empty. */
  function SyncGradient(o: QrOptions, useGradient: bool, g: Gradient): (r: QrOptions)
    ensures useGradient ==> r.dotsOptions.gradient == Some(g) && r.dotsOptions.color.None?
    ensures !useGradient ==> r.dotsOptions.gradient.None? && r.dotsOptions.color.Some? && r.dotsOptions.color.value != ""
    ensures !useGradient && o.dotsOptions.color.Some? && o.dotsOptions.color.value != "" ==> r.dotsOptions.color == o.dotsOptions.color
    ensures r.(dotsOptions := o.dotsOptions) == o && r.dotsOptions.dotType == o.dotsOptions.dotType
  {
    var d := o.dotsOptions;
    if useGradient then o.(dotsOptions := d.(color := None, gradient := Some(g)))
    else
      var c := if d.color.Some? && d.color.value != "" then d.color.value else FallbackDotColor;
      o.(dotsOptions := d.(gradient := None, color := Some(c)))
  }

  /** Running the effect again changes nothing. */
  lemma SyncGradientIdempotent(o: QrOptions, useGradient: bool, g: Gradient)
    ensures SyncGradient(SyncGradient(o, useGradient, g), useGradient, g) == SyncGradient(o, useGradient, g)
  {
  }

  /** Switching the gradient on and off again loses the dot colour: it comes back as the
      fallback, whatever it was before. */
  lemma GradientRoundTripLosesColor(o: QrOptions, g: Gradient, h: Gradient)
    ensures SyncGradient(SyncGradient(o, true, g), false, h).dotsOptions.color == Some(FallbackDotColor)
  {
  }

  /** With the switch off, the scorer judges exactly the dot colour the effect kept. */
  lemma SyncedColorIsScored(o: QrOptions, g: Gradient)
    ensures var r := SyncGradient(o, false, g);
            Scannability.DotColor(r.dotsOptions) == r.dotsOptions.color.value
    ensures Scannability.DotColor(SyncGradient(o, true, g).dotsOptions) == "#000000"
  {
  }

  // ---------------------------------------------------------------------------
  // Typed option edits

  /** The dotted paths the panel edits through `handleOptionChange`. */
  datatype Path =
    | FrameText | FrameFontFamily | FrameFontSize | FrameTextColor | FrameBackgroundColor
    | DotsColor | DotsType | BackgroundColor
    | CornersSquareColor | CornersSquareType | CornersDotColor | CornersDotType
    | ShapePath | ErrorCorrection

  datatype Value =
    | Str(s: string)
    | Number(n: int)
    | DotStyle(dot: DotType)
    | SquareStyle(square: CornerSquareType)
    | CornerDotStyle(cornerDot: CornerDotType)
    | ShapeValue(shape: Shape)
    | LevelValue(level: ErrorLevel)

  /** The value's kind matches what the path holds. */
  predicate Fits(p: Path, v: Value) {
    match p
    case FrameFontSize => v.Number?
    case DotsType => v.DotStyle?
    case CornersSquareType => v.SquareStyle?
    case CornersDotType => v.CornerDotStyle?
    case ShapePath => v.ShapeValue?
    case ErrorCorrection => v.LevelValue?
    case _ => v.Str?
  }

  /** The edit would walk through an absent record: `current[key] = value` on
      `undefined` throws a `TypeError`. */
  predicate ParentAbsent(o: QrOptions, p: Path) {
    match p
    case FrameText | FrameFontFamily | FrameFontSize | FrameTextColor | FrameBackgroundColor => o.frameOptions.None?
    case CornersSquareColor | CornersSquareType => o.cornersSquareOptions.None?
    case CornersDotColor | CornersDotType => o.cornersDotOptions.None?
    case ErrorCorrection => o.qrOptions.None?
    case _ => false
  }

  function OptStr(s: Option<string>): Option<Value> {
    match s
    case None => None
    case Some(x) => Some(Str(x))
  }

  /** The value stored at a path, `None` when it or its record is absent. */
  function Read(o: QrOptions, p: Path): Option<Value> {
    match p
    case FrameText => if o.frameOptions.None? then None else OptStr(o.frameOptions.value.text)
    case FrameFontFamily => if o.frameOptions.None? then None else OptStr(o.frameOptions.value.fontFamily)
    case FrameFontSize =>
      if o.frameOptions.None? || o.frameOptions.value.fontSize.None? then None
      else Some(Number(o.frameOptions.value.fontSize.value))
    case FrameTextColor => if o.frameOptions.None? then None else OptStr(o.frameOptions.value.textColor)
    case FrameBackgroundColor => if o.frameOptions.None? then None else OptStr(o.frameOptions.value.backgroundColor)
    case DotsColor => OptStr(o.dotsOptions.color)
    case DotsType => Some(DotStyle(o.dotsOptions.dotType))
    case BackgroundColor => Some(Str(o.backgroundOptions.color))
    case CornersSquareColor => if o.cornersSquareOptions.None? then None else Some(Str(o.cornersSquareOptions.value.color))
    case CornersSquareType => if o.cornersSquareOptions.None? then None else Some(SquareStyle(o.cornersSquareOptions.value.cornerType))
    case CornersDotColor => if o.cornersDotOptions.None? then None else Some(Str(o.cornersDotOptions.value.color))
    case CornersDotType => if o.cornersDotOptions.None? then None else Some(CornerDotStyle(o.cornersDotOptions.value.cornerType))
    case ShapePath => Some(ShapeValue(o.shape))
    case ErrorCorrection => if o.qrOptions.None? then None else Some(LevelValue(o.qrOptions.value.errorCorrectionLevel))
  }

  /** The parts of a configuration no path reaches. */
  function Unaddressed(o: QrOptions): (int, int, string, Option<string>, Option<Gradient>) {
    (o.width, o.height, o.data, o.image, o.dotsOptions.gradient)
  }

  /** `handleOptionChange(path, value)` on a deep copy of the configuration. */
  function SetPath(o: QrOptions, p: Path, v: Value): (r: Result<QrOptions, string>)
    requires Fits(p, v)
    ensures r.Failure? <==> ParentAbsent(o, p)
    ensures r.Success? ==> Read(r.value, p) == Some(v)
    ensures r.Success? ==> Unaddressed(r.value) == Unaddressed(o)
  {
    if ParentAbsent(o, p) then Failure("TypeError")
    else Success(match p
      case FrameText => o.(frameOptions := Some(o.frameOptions.value.(text := Some(v.s))))
      case FrameFontFamily => o.(frameOptions := Some(o.frameOptions.value.(fontFamily := Some(v.s))))
      case FrameFontSize => o.(frameOptions := Some(o.frameOptions.value.(fontSize := Some(v.n))))
      case FrameTextColor => o.(frameOptions := Some(o.frameOptions.value.(textColor := Some(v.s))))
      case FrameBackgroundColor => o.(frameOptions := Some(o.frameOptions.value.(backgroundColor := Some(v.s))))
      case DotsColor => o.(dotsOptions := o.dotsOptions.(color := Some(v.s)))
      case DotsType => o.(dotsOptions := o.dotsOptions.(dotType := v.dot))
      case BackgroundColor => o.(backgroundOptions := BackgroundOptions(v.s))
      case CornersSquareColor => o.(cornersSquareOptions := Some(o.cornersSquareOptions.value.(color := v.s)))
      case CornersSquareType => o.(cornersSquareOptions := Some(o.cornersSquareOptions.value.(cornerType := v.square)))
      case CornersDotColor => o.(cornersDotOptions := Some(o.cornersDotOptions.value.(color := v.s)))
      case CornersDotType => o.(cornersDotOptions := Some(o.cornersDotOptions.value.(cornerType := v.cornerDot)))
      case ShapePath => o.(shape := v.shape)
      case ErrorCorrection => o.(qrOptions := Some(QrSettings(v.level))))
  }

  /** Every optional record is present, so no edit can fail. */
  predicate Complete(o: QrOptions) {
    o.frameOptions.Some? && o.cornersSquareOptions.Some? && o.cornersDotOptions.Some? && o.qrOptions.Some?
  }

  /** On a complete configuration every edit succeeds and the result is complete again. */
  lemma EditsKeepComplete(o: QrOptions, p: Path, v: Value)
    requires Complete(o) && Fits(p, v)
    ensures SetPath(o, p, v).Success? && Complete(SetPath(o, p, v).value)
  {
  }

  /** An edit changes its own path and no other. */
  lemma SetPathFrame(o: QrOptions, p: Path, v: Value, q: Path)
    requires Fits(p, v) && SetPath(o, p, v).Success? && q != p
    ensures Read(SetPath(o, p, v).value, q) == Read(o, q)
  {
    match p
    case FrameText => {}
    case FrameFontFamily => {}
    case FrameFontSize => {}
    case FrameTextColor => {}
    case FrameBackgroundColor => {}
    case DotsColor => {}
    case DotsType => {}
    case BackgroundColor => {}
    case CornersSquareColor => {}
    case CornersSquareType => {}
    case CornersDotColor => {}
    case CornersDotType => {}
    case ShapePath => {}
    case ErrorCorrection => {}
  }

  /** Writing back the value a path already holds leaves the configuration unchanged. */
  lemma SetPathRead(o: QrOptions, p: Path, v: Value)
    requires Fits(p, v) && Read(o, p) == Some(v)
    ensures SetPath(o, p, v) == Success(o)
  {
    match p
    case FrameText => {}
    case FrameFontFamily => {}
    case FrameFontSize => {}
    case FrameTextColor => {}
    case FrameBackgroundColor => {}
    case DotsColor => {}
    case DotsType => {}
    case BackgroundColor => {}
    case CornersSquareColor => {}
    case CornersSquareType => {}
    case CornersDotColor => {}
    case CornersDotType => {}
    case ShapePath => {}
    case ErrorCorrection => {}
  }

  /** The second of two edits to the same path wins. */
  lemma SetPathTwice(o: QrOptions, p: Path, v: Value, w: Value)
    requires Fits(p, v) && Fits(p, w) && SetPath(o, p, v).Success?
    ensures SetPath(SetPath(o, p, v).value, p, w) == SetPath(o, p, w)
  {
  }

  /** Toggling the circular shape twice restores the configuration. */
  function ToggleShape(o: QrOptions): (r: QrOptions)
    ensures r.shape != o.shape && r.(shape := o.shape) == o
  {
    SetPath(o, ShapePath, ShapeValue(if o.shape == CircleShape then SquareShape else CircleShape)).value
  }

  lemma ToggleShapeTwice(o: QrOptions)
    ensures ToggleShape(ToggleShape(o)) == o
  {
  }

  /** The font-size field: `parseInt(text, 10) || 20`, so an unreadable entry or 0
      becomes 20. */
  function FontSizeInput(text: string): (n: int)
    ensures n != 0
    ensures ParseInt(text).Some? && ParseInt(text).value != 0 ==> n == ParseInt(text).value
    ensures ParseInt(text).None? || ParseInt(text) == Some(0) ==> n == 20
  {
    match ParseInt(text)
    case Some(v) => if v != 0 then v else 20
    case None => 20
  }

  /** A typed positive number is taken as is, around any surrounding blanks or trailing
      units; an empty field gives 20. */
  lemma FontSizeOfNumber(n: nat, lead: string, trail: string)
    requires n > 0 && AllWhitespace(lead) && (trail == [] || !IsDigit(trail[0]))
    ensures FontSizeInput(lead + NatToDecimal(n) + trail) == n
    ensures FontSizeInput("") == 20
  {
    ParseIntOfDecimal(n, lead, trail);
  }

  // ---------------------------------------------------------------------------
  // Data and logo

  /** A form emitting a payload replaces the data and nothing else. */
  function SetData(o: QrOptions, data: string): (r: QrOptions)
    ensures r.data == data && r.(data := o.data) == o
  {
    o.(data := data)
  }

  /** A read logo file becomes the image (its data URL). */
  function SetLogo(o: QrOptions, dataUrl: string): (r: QrOptions)
    ensures r.image == Some(dataUrl) && r.(image := o.image) == o
  {
    o.(image := Some(dataUrl))
  }

  /** `removeLogo`: the image becomes undefined, everything else stays. */
  function RemoveLogo(o: QrOptions): (r: QrOptions)
    ensures !HasLogo(r) && r.image.None?
    ensures r.(image := o.image) == o
  {
    o.(image := None)
  }

  /** Removing a logo undoes adding one. */
  lemma RemoveLogoUndoesSetLogo(o: QrOptions, dataUrl: string)
    ensures RemoveLogo(SetLogo(o, dataUrl)) == RemoveLogo(o)
  {
  }

  /** Removing the logo never lowers the scannability score. */
  lemma RemoveLogoNeverHurts(o: QrOptions, gamma: real -> real)
    requires Color.MapsUnitInterval(gamma)
    ensures var contrast := Color.ContrastRatio(Scannability.DotColor(o.dotsOptions), o.backgroundOptions.color, gamma);
            Scannability.Score(contrast, |o.data|, EffectiveLevel(o), HasLogo(o)).score
            <= Scannability.Score(contrast, |RemoveLogo(o).data|, EffectiveLevel(RemoveLogo(o)), HasLogo(RemoveLogo(o))).score
  {
    var contrast := Color.ContrastRatio(Scannability.DotColor(o.dotsOptions), o.backgroundOptions.color, gamma);
    Scannability.LogoNeverHelps(contrast, |o.data|, EffectiveLevel(o));
  }

  // ---------------------------------------------------------------------------
  // Templates

  /** `applyTemplate`: `{ ...prev, ...template.options, data: prev.data, image: prev.image }`. */
  function ApplyTemplate(o: QrOptions, t: Templates.Template): (r: QrOptions)
    ensures r.data == o.data && r.image == o.image && r.width == o.width && r.height == o.height
    ensures t.options.shape.Some? ==> r.shape == t.options.shape.value
    ensures t.options.shape.None? ==> r.shape == o.shape
    ensures t.options.frameOptions.Some? ==> r.frameOptions == t.options.frameOptions
    ensures t.options.frameOptions.None? ==> r.frameOptions == o.frameOptions
    ensures t.options.dotsOptions.Some? ==> r.dotsOptions == t.options.dotsOptions.value
    ensures t.options.dotsOptions.None? ==> r.dotsOptions == o.dotsOptions
    ensures t.options.backgroundOptions.Some? ==> r.backgroundOptions == t.options.backgroundOptions.value
    ensures t.options.backgroundOptions.None? ==> r.backgroundOptions == o.backgroundOptions
    ensures t.options.cornersSquareOptions.Some? ==> r.cornersSquareOptions == t.options.cornersSquareOptions
    ensures t.options.cornersSquareOptions.None? ==> r.cornersSquareOptions == o.cornersSquareOptions
    ensures t.options.cornersDotOptions.Some? ==> r.cornersDotOptions == t.options.cornersDotOptions
    ensures t.options.cornersDotOptions.None? ==> r.cornersDotOptions == o.cornersDotOptions
    ensures r.qrOptions == (if t.options.qrOptions.Some? then t.options.qrOptions else o.qrOptions)
    ensures t.options.qrOptions.Some? ==> EffectiveLevel(r) == t.options.qrOptions.value.errorCorrectionLevel
  {
    Spread(o, t.options).(data := o.data, image := o.image)
  }

  /** A template keeps a configuration complete. */
  lemma ApplyTemplateKeepsComplete(o: QrOptions, t: Templates.Template)
    requires Complete(o)
    ensures Complete(ApplyTemplate(o, t))
  {
  }

  /** Applying the same template twice is the same as applying it once. */
  lemma ApplyTemplateIdempotent(o: QrOptions, t: Templates.Template)
    ensures ApplyTemplate(ApplyTemplate(o, t), t) == ApplyTemplate(o, t)
  {
  }

  /** Whether the switch is on after a template: the template's dots carry a gradient. */
  function TemplateUsesGradient(t: Templates.Template): bool {
    t.options.dotsOptions.Some? && t.options.dotsOptions.value.gradient.Some?
  }

  /** After a predefined template, the gradient effect that follows has nothing to do. */
  lemma SyncAfterTemplateIsNoOp(o: QrOptions, i: nat)
    requires i < |Templates.DesignTemplates|
    ensures var t := Templates.DesignTemplates[i];
            var r := ApplyTemplate(o, t);
            SyncGradient(r, TemplateUsesGradient(t), InitialGradient(r)) == r
  {
    Templates.TemplatesWellFormed();
  }

  /** The minimalist template's background, `transparent`, is no hex colour, so the
      contrast reads as 1 and no configuration using it is ever rated good. */
  lemma MinimalistNeverRatedGood(o: QrOptions, gamma: real -> real)
    requires Color.MapsUnitInterval(gamma)
    ensures var a := Scannability.Assess(ApplyTemplate(o, Templates.Minimalist), gamma);
            a.level != Scannability.Good && a.message == Scannability.LowContrastMessage
  {
    var r := ApplyTemplate(o, Templates.Minimalist);
    assert r.backgroundOptions.color == "transparent";
    assert !Color.MatchesHexPattern("transparent");
    var contrast := Color.ContrastRatio(Scannability.DotColor(r.dotsOptions), "transparent", gamma);
    assert contrast == 1.0;
    Scannability.LowContrastDominates(contrast, |r.data|, EffectiveLevel(r), HasLogo(r));
  }

  // ---------------------------------------------------------------------------
  // Sharing a style

  /** `const { data, width, height, image, ...styleOptions } = options`: the shared part. */
  function StripForShare(o: QrOptions): (p: StyleOnlyPatch)
    ensures p.shape == Some(o.shape) && p.dotsOptions == Some(o.dotsOptions)
    ensures p.backgroundOptions == Some(o.backgroundOptions)
    ensures p.cornersSquareOptions == o.cornersSquareOptions && p.cornersDotOptions == o.cornersDotOptions
    ensures p.frameOptions == o.frameOptions && p.qrOptions == o.qrOptions
  {
    Patch(None, None, None, None, Some(o.shape), Some(o.dotsOptions), Some(o.backgroundOptions),
          o.cornersSquareOptions, o.cornersDotOptions, o.frameOptions, o.qrOptions)
  }
}

=== FILE: email.dfy ===
/** The e-mail payload `mailto:<to>[?subject=..&body=..]` (components/EmailForm.tsx). */
module EmailEncoder {
  import opened Wrappers
  import Uri

  datatype EmailForm = EmailForm(to: string, subject: string, body: string)

  const InitialForm := EmailForm("", "", "")

  /** The query parameters, in order; each is present only when its field is non-empty. */
  function Params(f: EmailForm): (ps: seq<string>)
    ensures |ps| == (if f.subject != "" then 1 else 0) + (if f.body != "" then 1 else 0)
  {
    (if f.subject != "" then ["subject=" + Uri.EncodeComponent(f.subject)] else [])
    + (if f.body != "" then ["body=" + Uri.EncodeComponent(f.body)] else [])
  }

  /** `params.join('&')`. */
  function JoinAmp(ps: seq<string>): string {
    if ps == [] then [] else if |ps| == 1 then ps[0] else ps[0] + "&" + JoinAmp(ps[1..])
  }

  /** The query string: empty when there are no parameters, else `?` and the joined list. */
  function Query(f: EmailForm): (q: string)
    ensures q == "" <==> f.subject == "" && f.body == ""
  {
    var ps := Params(f);
    if |ps| > 0 then "?" + JoinAmp(ps) else ""
  }

  /** The link assembled in the form's effect. The recipient is inserted as typed. */
  function Mailto(f: EmailForm): (m: string)
    ensures "mailto:" + f.to <= m
    ensures m == "mailto:" + f.to <==> f.subject == "" && f.body == ""
  {
    "mailto:" + f.to + Query(f)
  }

  /** The empty form gives the bare scheme. */
  lemma InitialMailto()
    ensures Mailto(InitialForm) == "mailto:"
  {
  }

  // ---------------------------------------------------------------------------
  // Reading a link back

  /** Index of the first `c` in `s`, or `|s|` when there is none. */
  function IndexOf(s: string, c: char): (i: nat)
    ensures i <= |s|
    ensures i < |s| ==> s[i] == c
  {
    if s == [] then 0 else if s[0] == c then 0 else 1 + IndexOf(s[1..], c)
  }

  /** No `c` comes before the index found. */
  lemma {:induction false} IndexOfIsFirst(s: string, c: char)
    ensures forall j :: 0 <= j < IndexOf(s, c) ==> s[j] != c
  {
    if s != [] && s[0] != c {
      IndexOfIsFirst(s[1..], c);
      assert forall j :: 1 <= j < IndexOf(s, c) ==> s[j] == s[1..][j - 1];
    }
  }

  lemma {:induction false} IndexOfPast(a: string, c: char, b: string)
    requires c !in a
    ensures IndexOf(a + b, c) == |a| + IndexOf(b, c)
  {
    if a != [] {
      assert (a + b)[0] == a[0];
      assert (a + b)[1..] == a[1..] + b;
      IndexOfPast(a[1..], c, b);
    } else {
      assert a + b == b;
    }
  }

  /** Reads the query: an optional `subject=` value, then, after `&` or alone, an optional
      `body=` value; both are decoded. */
  function ReadQuery(q: string): Option<(string, string)> {
    var amp := IndexOf(q, '&');
    if "subject=" <= q then
      match Uri.DecodeComponent(q[8..amp])
      case None => None
      case Some(subject) =>
        if amp == |q| then Some((subject, ""))
        else if "body=" <= q[amp + 1..] then
          match Uri.DecodeComponent(q[amp + 6..])
          case None => None
          case Some(body) => Some((subject, body))
        else None
    else if "body=" <= q then
      match Uri.DecodeComponent(q[5..])
      case None => None
      case Some(body) => Some(("", body))
    else None
  }

  /** Parses a link: the recipient runs up to the first `?`. */
  function Decode(m: string): Option<EmailForm> {
    if !("mailto:" <= m) then None
    else
      var rest := m[7..];
      var qm := IndexOf(rest, '?');
      if qm == |rest| then Some(EmailForm(rest, "", ""))
      else match ReadQuery(rest[qm + 1..])
        case None => None
        case Some(sb) => Some(EmailForm(rest[..qm], sb.0, sb.1))
  }

  lemma EncodedHasNoSeparator(s: string)
    ensures '&' !in Uri.EncodeComponent(s) && '?' !in Uri.EncodeComponent(s)
  {
    var e := Uri.EncodeComponent(s);
    assert forall i :: 0 <= i < |e| ==> e[i] != '&' && e[i] != '?';
  }

  /** Where the pieces of `subject=<es>&body=<eb>` sit, when `es` has no `&`. */
  lemma QueryPieces(es: string, eb: string)
    requires '&' !in es
    ensures var q := "subject=" + es + "&" + "body=" + eb;
            && IndexOf(q, '&') == 8 + |es|
            && "subject=" <= q && q[8..8 + |es|] == es
            && "body=" <= q[9 + |es|..] && q[14 + |es|..] == eb
  {
    var sp := "subject=" + es;
    var q := sp + ("&" + "body=" + eb);
    assert "subject=" + es + "&" + "body=" + eb == q;
    assert '&' !in sp;
    IndexOfPast(sp, '&', "&" + "body=" + eb);
    assert q[9 + |es|..] == "body=" + eb;
  }

  lemma ReadQuerySubjectBody(subject: string, body: string)
    ensures ReadQuery("subject=" + Uri.EncodeComponent(subject) + "&" + "body=" + Uri.EncodeComponent(body))
            == Some((subject, body))
  {
    var es, eb := Uri.EncodeComponent(subject), Uri.EncodeComponent(body);
    EncodedHasNoSeparator(subject);
    Uri.DecodeEncode(subject);
    Uri.DecodeEncode(body);
    QueryPieces(es, eb);
  }

  lemma ReadQuerySubject(subject: string)
    ensures ReadQuery("subject=" + Uri.EncodeComponent(subject)) == Some((subject, ""))
  {
    var es := Uri.EncodeComponent(subject);
    EncodedHasNoSeparator(subject);
    Uri.DecodeEncode(subject);
    var q := "subject=" + es;
    assert '&' !in q;
    IndexOfPast(q, '&', "");
    assert q + "" == q;
    assert "subject=" <= q;
    assert q[8..|q|] == es;
  }

  lemma ReadQueryBody(body: string)
    ensures ReadQuery("body=" + Uri.EncodeComponent(body)) == Some(("", body))
  {
    var eb := Uri.EncodeComponent(body);
    Uri.DecodeEncode(body);
    var q := "body=" + eb;
    assert !("subject=" <= q) by { assert q[0] != 's'; }
    assert "body=" <= q;
    assert q[5..] == eb;
  }

  lemma ReadQueryOf(f: EmailForm)
    requires f.subject != "" || f.body != ""
    ensures ReadQuery(Query(f)[1..]) == Some((f.subject, f.body))
  {
    var sp := "subject=" + Uri.EncodeComponent(f.subject);
    var bp := "body=" + Uri.EncodeComponent(f.body);
    var ps := Params(f);
    var q := Query(f)[1..];
    assert Query(f) == "?" + JoinAmp(ps);
    assert q == JoinAmp(ps);
    if f.subject != "" && f.body != "" {
      assert ps == [sp, bp];
      assert ps[1..] == [bp];
      assert JoinAmp(ps[1..]) == bp;
      assert q == sp + "&" + bp;
      assert sp + "&" + bp == "subject=" + Uri.EncodeComponent(f.subject) + "&" + "body=" + Uri.EncodeComponent(f.body);
      ReadQuerySubjectBody(f.subject, f.body);
      assert ReadQuery(q) == Some((f.subject, f.body));
    } else if f.subject != "" {
      assert ps == [sp];
      ReadQuerySubject(f.subject);
      assert ReadQuery(q) == Some((f.subject, f.body));
    } else {
      assert ps == [bp];
      ReadQueryBody(f.body);
      assert ReadQuery(q) == Some((f.subject, f.body));
    }
  }

  /** A recipient without `?` followed by `?` and a query splits back at that `?`. */
  lemma DecodeWithQuery(to: string, q: string)
    requires '?' !in to
    ensures Decode("mailto:" + to + "?" + q) == match ReadQuery(q)
      case None => None
      case Some(sb) => Some(EmailForm(to, sb.0, sb.1))
  {
    var rest := to + ("?" + q);
    var m := "mailto:" + to + "?" + q;
    assert m == "mailto:" + rest;
    assert m[7..] == rest;
    IndexOfPast(to, '?', "?" + q);
    assert rest[..|to|] == to;
    assert rest[|to| + 1..] == q;
  }

  lemma DecodeWithoutQuery(to: string)
    requires '?' !in to
    ensures Decode("mailto:" + to) == Some(EmailForm(to, "", ""))
  {
    var m := "mailto:" + to;
    assert m[7..] == to;
    IndexOfPast(to, '?', "");
    assert to + "" == to;
  }

  /** Decoding recovers the form as long as the recipient contains no `?`. */
  lemma DecodeMailto(f: EmailForm)
    requires '?' !in f.to
    ensures Decode(Mailto(f)) == Some(f)
  {
    var query := Query(f);
    if query == "" {
      assert Mailto(f) == "mailto:" + f.to;
      DecodeWithoutQuery(f.to);
    } else {
      assert query == "?" + query[1..];
      assert Mailto(f) == "mailto:" + f.to + "?" + query[1..];
      DecodeWithQuery(f.to, query[1..]);
      ReadQueryOf(f);
    }
  }

  /** The recipient is not encoded, so a `?` in it is read as the start of the query: a
      recipient that carries its own `?subject=` gives the same link as a real subject. */
  lemma RecipientNotEncoded(to: string, subject: string)
    requires subject != ""
    ensures var a := EmailForm(to + "?subject=" + Uri.EncodeComponent(subject), "", "");
            var b := EmailForm(to, subject, "");
            a != b && Mailto(a) == Mailto(b)
  {
    var e := Uri.EncodeComponent(subject);
    var a := EmailForm(to + "?subject=" + e, "", "");
    var b := EmailForm(to, subject, "");
    SubjectOnlyQuery(b);
    assert Query(a) == "";
    Regroup("mailto:", to, "?subject=", e);
    assert |a.to| > |b.to|;
  }

  lemma Regroup<T>(w: seq<T>, x: seq<T>, y: seq<T>, z: seq<T>)
    ensures w + (x + y + z) + [] == w + x + (y + z)
  {
  }

  /** With only a subject, the query is that one parameter. */
  lemma SubjectOnlyQuery(f: EmailForm)
    requires f.subject != "" && f.body == ""
    ensures Query(f) == "?subject=" + Uri.EncodeComponent(f.subject)
  {
    var p := "subject=" + Uri.EncodeComponent(f.subject);
    assert Params(f) == [p] + [];
    assert JoinAmp([p] + []) == p;
  }
}

=== FILE: event.dfy ===
/** The calendar-event payload, an iCalendar VEVENT block (components/EventForm.tsx). */
module EventEncoder {
  import opened Wrappers
  import opened Text

  datatype EventForm = EventForm(
    title: string,
    location: string,
    startDate: string,
    startTime: string,
    endDate: string,
    endTime: string)

  const InitialForm := EventForm("", "", "", "", "", "")

  /** `new Date(text).toISOString()`. Its result depends on the runtime's time zone, so it
      is a parameter; `None` stands for the `RangeError` thrown for an invalid date. */
  type IsoConverter = string -> Option<string>

  // ---------------------------------------------------------------------------
  // Compacting an ISO timestamp

  /** `s.replace(/-|:|\.\d{3}/g, '')`: drops every `-`, every `:` and every `.` followed by
      three digits, scanning left to right. */
  function StripIso(s: string): (r: string)
    ensures |r| <= |s|
    ensures '-' !in r && ':' !in r
  {
    if s == [] then []
    else if s[0] == '-' || s[0] == ':' then StripIso(s[1..])
    else if |s| >= 4 && s[0] == '.' && IsDigit(s[1]) && IsDigit(s[2]) && IsDigit(s[3]) then StripIso(s[4..])
    else [s[0]] + StripIso(s[1..])
  }

  /** The shape `YYYY-MM-DDTHH:MM:SS.sssZ` that `toISOString` produces for years 0 to 9999. */
  predicate IsIsoUtc(s: string) {
    && |s| == 24
    && AllDigits(s[0..4]) && s[4] == '-' && AllDigits(s[5..7]) && s[7] == '-' && AllDigits(s[8..10])
    && s[10] == 'T' && AllDigits(s[11..13]) && s[13] == ':' && AllDigits(s[14..16]) && s[16] == ':'
    && AllDigits(s[17..19]) && s[19] == '.' && AllDigits(s[20..23]) && s[23] == 'Z'
  }

  /** The iCalendar UTC date-time form `YYYYMMDDTHHMMSSZ` (section 3.3.5 of RFC 5545). */
  predicate IsICalUtc(t: string) {
    |t| == 16 && AllDigits(t[0..8]) && t[8] == 'T' && AllDigits(t[9..15]) && t[15] == 'Z'
  }

  lemma {:induction false} StripDigits(d: string, t: string)
    requires AllDigits(d)
    ensures StripIso(d + t) == d + StripIso(t)
  {
    if d != [] {
      assert (d + t)[0] == d[0] && IsDigit(d[0]);
      assert (d + t)[1..] == d[1..] + t;
      assert AllDigits(d[1..]);
      StripDigits(d[1..], t);
      assert d == [d[0]] + d[1..];
    } else {
      assert d + t == t;
    }
  }

  lemma StripSeparator(c: char, t: string)
    requires c == '-' || c == ':'
    ensures StripIso([c] + t) == StripIso(t)
  {
    assert ([c] + t)[1..] == t;
  }

  lemma StripKept(c: char, t: string)
    requires c == 'T' || c == 'Z'
    ensures StripIso([c] + t) == [c] + StripIso(t)
  {
    assert ([c] + t)[1..] == t;
  }

  lemma StripMillis(d: string, t: string)
    requires |d| == 3 && AllDigits(d)
    ensures StripIso(['.'] + d + t) == StripIso(t)
  {
    var s := ['.'] + d + t;
    assert s[1] == d[0] && s[2] == d[1] && s[3] == d[2];
    assert IsDigit(d[0]) && IsDigit(d[1]) && IsDigit(d[2]);
    assert s[4..] == t;
  }

  /** `-` `:` and the milliseconds go, everything else stays in place. */
  lemma IsoToICal(s: string)
    requires IsIsoUtc(s)
    ensures StripIso(s) == (s[0..4] + s[5..7] + s[8..10]) + "T" + (s[11..13] + s[14..16] + s[17..19]) + "Z"
    ensures IsICalUtc(StripIso(s))
  {
    var a, b, c, d, e, f := s[0..4], s[5..7], s[8..10], s[11..13], s[14..16], s[17..19];
    StripIsoNested(s);
    Reassociate(a, b, c, d, e, f);
    var date, time := a + b + c, d + e + f;
    var t := StripIso(s);
    assert t == date + "T" + time + "Z";
    assert |date| == 8 && |time| == 6;
    assert t[0..8] == date;
    assert t[9..15] == time;
    AllDigitsConcat3(a, b, c);
    AllDigitsConcat3(d, e, f);
  }

  lemma StripIsoNested(s: string)
    requires IsIsoUtc(s)
    ensures StripIso(s) == s[0..4] + (s[5..7] + (s[8..10] + ("T" + (s[11..13] + (s[14..16] + (s[17..19] + "Z"))))))
  {
    IsoShape(s);
    StripIsoParts(s[0..4], s[5..7], s[8..10], s[11..13], s[14..16], s[17..19], s[20..23]);
  }

  /** An ISO time stamp assembled from its digit groups, right-nested. */
  function IsoOf(y: string, mo: string, d: string, h: string, mi: string, se: string, ms: string): string {
    y + (['-'] + (mo + (['-'] + (d + (['T'] + (h + ([':'] + (mi + ([':'] + (se + (['.'] + ms + "Z")))))))))))
  }

  lemma IsoShape(s: string)
    requires IsIsoUtc(s)
    ensures s == IsoOf(s[0..4], s[5..7], s[8..10], s[11..13], s[14..16], s[17..19], s[20..23])
  {
    SliceHead(s, 19); SliceSplit(s, 20, 23);
    assert s[19..] == ['.'] + s[20..23] + "Z";
    SliceSplit(s, 17, 19);
    SliceHead(s, 16);
    SliceSplit(s, 14, 16);
    SliceHead(s, 13);
    SliceSplit(s, 11, 13);
    SliceHead(s, 10);
    SliceSplit(s, 8, 10);
    SliceHead(s, 7);
    SliceSplit(s, 5, 7);
    SliceHead(s, 4);
    SliceSplit(s, 0, 4);
    assert s == s[0..];
  }

  lemma StripIsoParts(y: string, mo: string, d: string, h: string, mi: string, se: string, ms: string)
    requires AllDigits(y) && AllDigits(mo) && AllDigits(d) && AllDigits(h) && AllDigits(mi) && AllDigits(se)
    requires |ms| == 3 && AllDigits(ms)
    ensures StripIso(IsoOf(y, mo, d, h, mi, se, ms)) == y + (mo + (d + ("T" + (h + (mi + (se + "Z"))))))
  {
    var z := "Z";
    var m := ['.'] + ms + z;
    var ss := se + m;
    var c2 := [':'] + ss;
    var mm := mi + c2;
    var c1 := [':'] + mm;
    var hh := h + c1;
    var tt := ['T'] + hh;
    var dd := d + tt;
    var h2 := ['-'] + dd;
    var mn := mo + h2;
    var h1 := ['-'] + mn;
    assert IsoOf(y, mo, d, h, mi, se, ms) == y + h1;
    assert StripIso(z) == z;
    StripMillis(ms, z);
    StripDigits(se, m);
    StripSeparator(':', ss);
    StripDigits(mi, c2);
    StripSeparator(':', mm);
    StripDigits(h, c1);
    StripKept('T', hh);
    StripDigits(d, tt);
    StripSeparator('-', dd);
    StripDigits(mo, h2);
    StripSeparator('-', mn);
    StripDigits(y, h1);
  }

  lemma SliceHead(s: string, i: nat)
    requires i < |s|
    ensures s[i..] == [s[i]] + s[i + 1..]
  {
  }

  lemma SliceSplit(s: string, i: nat, j: nat)
    requires i <= j <= |s|
    ensures s[i..] == s[i..j] + s[j..]
  {
  }

  lemma Reassociate(a: string, b: string, c: string, d: string, e: string, f: string)
    ensures a + (b + (c + ("T" + (d + (e + (f + "Z")))))) == (a + b + c) + "T" + (d + e + f) + "Z"
  {
    assert d + (e + (f + "Z")) == (d + e + f) + "Z";
    assert a + (b + (c + ("T" + ((d + e + f) + "Z")))) == (a + b + c) + ("T" + ((d + e + f) + "Z"));
  }

  lemma AllDigitsConcat3(a: string, b: string, c: string)
    requires AllDigits(a) && AllDigits(b) && AllDigits(c)
    ensures AllDigits(a + b + c)
  {
    var t := a + b + c;
    forall i | 0 <= i < |t| ensures IsDigit(t[i]) {
      if i < |a| { assert t[i] == a[i]; }
      else if i < |a| + |b| { assert t[i] == b[i - |a|]; }
      else { assert t[i] == c[i - |a| - |b|]; }
    }
  }

  /** `formatDateTime`: empty unless both the date and the time are filled in; otherwise
      the compacted ISO timestamp of the combined `<date>T<time>`. */
  function FormatDateTime(date: string, time: string, toIso: IsoConverter): (r: Option<string>)
    ensures date == "" || time == "" ==> r == Some("")
    ensures r.Some? ==> '-' !in r.value && ':' !in r.value
  {
    if date == "" || time == "" then Some("")
    else match toIso(date + "T" + time)
      case None => None
      case Some(iso) => Some(StripIso(iso))
  }

  /** With both fields filled and a well-formed ISO timestamp, the value is an iCalendar
      UTC date-time. */
  lemma FormatDateTimeICal(date: string, time: string, toIso: IsoConverter)
    requires date != "" && time != ""
    requires toIso(date + "T" + time).Some? && IsIsoUtc(toIso(date + "T" + time).value)
    ensures FormatDateTime(date, time, toIso).Some?
    ensures IsICalUtc(FormatDateTime(date, time, toIso).value)
  {
    IsoToICal(toIso(date + "T" + time).value);
  }

  // ---------------------------------------------------------------------------
  // The VEVENT block

  /** What the block carries. */
  datatype Event = Event(summary: string, location: string, dtstart: string, dtend: string)

  function Lines(e: Event): seq<string> {
    ["BEGIN:VEVENT", "SUMMARY:" + e.summary, "LOCATION:" + e.location,
     "DTSTART:" + e.dtstart, "DTEND:" + e.dtend, "END:VEVENT"]
  }

  /** The template literal: the six lines joined by line feeds. Without line feeds in
      the values, splitting the block at line feeds gives back exactly the six lines. */
  function Encode(e: Event): (r: string)
    ensures NoLineFeeds(e) ==> SplitLF(r) == Lines(e)
  {
    if NoLineFeeds(e) then
      LinesAreLineFeedFree(e);
      SplitJoinLF(Lines(e));
      JoinLF(Lines(e))
    else
      JoinLF(Lines(e))
  }

  lemma LinesAreLineFeedFree(e: Event)
    requires NoLineFeeds(e)
    ensures forall i :: 0 <= i < |Lines(e)| ==> LF !in Lines(e)[i]
  {
    var ls := Lines(e);
    forall i | 0 <= i < |ls| ensures LF !in ls[i] {
      if i == 1 { NoLineFeedConcat("SUMMARY:", e.summary); }
      else if i == 2 { NoLineFeedConcat("LOCATION:", e.location); }
      else if i == 3 { NoLineFeedConcat("DTSTART:", e.dtstart); }
      else if i == 4 { NoLineFeedConcat("DTEND:", e.dtend); }
    }
  }

  /** The event the form describes; `None` when a date-time conversion throws. */
  function ToEvent(f: EventForm, toIso: IsoConverter): (r: Option<Event>)
    ensures r.Some? ==> (r.value.summary, r.value.location) == (f.title, f.location)
    ensures f.startDate == "" || f.startTime == "" ==> r.None? || r.value.dtstart == ""
    ensures f.endDate == "" || f.endTime == "" ==> r.None? || r.value.dtend == ""
    ensures r.None? <==> FormatDateTime(f.startDate, f.startTime, toIso).None?
                         || FormatDateTime(f.endDate, f.endTime, toIso).None?
    ensures r.Some? ==> r.value.dtstart == FormatDateTime(f.startDate, f.startTime, toIso).value
                        && r.value.dtend == FormatDateTime(f.endDate, f.endTime, toIso).value
  {
    match FormatDateTime(f.startDate, f.startTime, toIso)
    case None => None
    case Some(dtstart) =>
      match FormatDateTime(f.endDate, f.endTime, toIso)
      case None => None
      case Some(dtend) => Some(Event(f.title, f.location, dtstart, dtend))
  }

  /** The payload the form's effect emits. */
  function Payload(f: EventForm, toIso: IsoConverter): (r: Option<string>)
    ensures r.None? <==> ToEvent(f, toIso).None?
    ensures r.Some? && NoLineFeeds(ToEvent(f, toIso).value) ==> Decode(r.value) == ToEvent(f, toIso)
  {
    match ToEvent(f, toIso)
    case None => None
    case Some(e) =>
      assert NoLineFeeds(e) ==> Decode(Encode(e)) == Some(e) by {
        if NoLineFeeds(e) { DecodeEncode(e); }
      }
      Some(Encode(e))
  }

  /** The empty form gives the bare skeleton, whatever the time zone. */
  lemma InitialPayload(toIso: IsoConverter)
    ensures Payload(InitialForm, toIso) == Some("BEGIN:VEVENT\nSUMMARY:\nLOCATION:\nDTSTART:\nDTEND:\nEND:VEVENT")
  {
    var e := Event("", "", "", "");
    assert ToEvent(InitialForm, toIso) == Some(e);
    EncodeUnfolded(e);
    assert "SUMMARY:" + "" == "SUMMARY:" && "LOCATION:" + "" == "LOCATION:";
    assert "DTSTART:" + "" == "DTSTART:" && "DTEND:" + "" == "DTEND:";
    SkeletonText();
  }

  lemma SkeletonText()
    ensures "BEGIN:VEVENT" + [LF] + "SUMMARY:" + [LF] + "LOCATION:" + [LF] + "DTSTART:" + [LF] + "DTEND:" + [LF] + "END:VEVENT"
            == "BEGIN:VEVENT\nSUMMARY:\nLOCATION:\nDTSTART:\nDTEND:\nEND:VEVENT"
  {
    var p1 := "BEGIN:VEVENT" + [LF] + "SUMMARY:";
    assert p1 == "BEGIN:VEVENT\nSUMMARY:";
    var p2 := p1 + [LF] + "LOCATION:";
    assert p2 == "BEGIN:VEVENT\nSUMMARY:\nLOCATION:";
    var p3 := p2 + [LF] + "DTSTART:";
    assert p3 == "BEGIN:VEVENT\nSUMMARY:\nLOCATION:\nDTSTART:";
    var p4 := p3 + [LF] + "DTEND:";
    assert p4 == "BEGIN:VEVENT\nSUMMARY:\nLOCATION:\nDTSTART:\nDTEND:";
    assert p4 + [LF] + "END:VEVENT" == "BEGIN:VEVENT\nSUMMARY:\nLOCATION:\nDTSTART:\nDTEND:\nEND:VEVENT";
  }

  /** Reads a VEVENT block of exactly six lines back. */
  function Decode(p: string): Option<Event> {
    var ls := SplitLF(p);
    if |ls| == 6 && ls[0] == "BEGIN:VEVENT" && "SUMMARY:" <= ls[1] && "LOCATION:" <= ls[2]
       && "DTSTART:" <= ls[3] && "DTEND:" <= ls[4] && ls[5] == "END:VEVENT"
    then Some(Event(ls[1][8..], ls[2][9..], ls[3][8..], ls[4][6..]))
    else None
  }

  predicate NoLineFeeds(e: Event) {
    LF !in e.summary && LF !in e.location && LF !in e.dtstart && LF !in e.dtend
  }

  /** Without line feeds in the values, the block reads back as the same event. */
  lemma DecodeEncode(e: Event)
    requires NoLineFeeds(e)
    ensures Decode(Encode(e)) == Some(e)
  {
  }

  lemma NoLineFeedConcat(a: string, b: string)
    requires LF !in a && LF !in b
    ensures LF !in a + b
  {
  }

  /** The block written out: six lines and five line feeds. */
  lemma EncodeUnfolded(e: Event)
    ensures Encode(e) == "BEGIN:VEVENT" + [LF] + ("SUMMARY:" + e.summary) + [LF] + ("LOCATION:" + e.location)
                         + [LF] + ("DTSTART:" + e.dtstart) + [LF] + ("DTEND:" + e.dtend) + [LF] + "END:VEVENT"
  {
    var ls := Lines(e);
    assert ls[4..][1..] == [ls[5]];
    assert ls[3..][1..] == ls[4..];
    assert ls[2..][1..] == ls[3..];
    assert ls[1..][1..] == ls[2..];
    assert JoinLF(ls[4..]) == ls[4] + [LF] + ls[5];
    assert JoinLF(ls[3..]) == ls[3] + [LF] + (ls[4] + [LF] + ls[5]);
    assert JoinLF(ls[2..]) == ls[2] + [LF] + (ls[3] + [LF] + (ls[4] + [LF] + ls[5]));
    assert JoinLF(ls[1..]) == ls[1] + [LF] + (ls[2] + [LF] + (ls[3] + [LF] + (ls[4] + [LF] + ls[5])));
  }

  /** The values are interpolated unescaped: each line feed in them adds a line. */
  lemma EncodedLineCount(e: Event)
    ensures |SplitLF(Encode(e))| == 6 + CountChar(e.summary, LF) + CountChar(e.location, LF)
                                      + CountChar(e.dtstart, LF) + CountChar(e.dtend, LF)
  {
    EncodeUnfolded(e);
    var s0, s1, s2, s3, s4, s5 := "BEGIN:VEVENT", "SUMMARY:" + e.summary, "LOCATION:" + e.location,
      "DTSTART:" + e.dtstart, "DTEND:" + e.dtend, "END:VEVENT";
    var x1 := s0 + [LF] + s1;
    var x2 := x1 + [LF] + s2;
    var x3 := x2 + [LF] + s3;
    var x4 := x3 + [LF] + s4;
    var x5 := x4 + [LF] + s5;
    assert Encode(e) == x5;
    CountCharConcat("SUMMARY:", e.summary, LF);
    CountCharConcat("LOCATION:", e.location, LF);
    CountCharConcat("DTSTART:", e.dtstart, LF);
    CountCharConcat("DTEND:", e.dtend, LF);
    FixedTextsHaveNoLineFeed();
    CountLineFeedJoin(s0, s1);
    CountLineFeedJoin(x1, s2);
    CountLineFeedJoin(x2, s3);
    CountLineFeedJoin(x3, s4);
    CountLineFeedJoin(x4, s5);
    SplitLFCount(Encode(e));
  }

  lemma FixedTextsHaveNoLineFeed()
    ensures CountChar("BEGIN:VEVENT", LF) == 0 && CountChar("END:VEVENT", LF) == 0
    ensures CountChar("SUMMARY:", LF) == 0 && CountChar("LOCATION:", LF) == 0
    ensures CountChar("DTSTART:", LF) == 0 && CountChar("DTEND:", LF) == 0
  {
    DelimiterLinesHaveNoLineFeed();
    TextPrefixesHaveNoLineFeed();
    TimePrefixesHaveNoLineFeed();
  }

  lemma DelimiterLinesHaveNoLineFeed()
    ensures CountChar("BEGIN:VEVENT", LF) == 0 && CountChar("END:VEVENT", LF) == 0
  {
    assert LF !in "BEGIN:VEVENT";
    assert LF !in "END:VEVENT";
  }

  lemma TextPrefixesHaveNoLineFeed()
    ensures CountChar("SUMMARY:", LF) == 0 && CountChar("LOCATION:", LF) == 0
  {
    assert LF !in "SUMMARY:";
    assert LF !in "LOCATION:";
  }

  lemma TimePrefixesHaveNoLineFeed()
    ensures CountChar("DTSTART:", LF) == 0 && CountChar("DTEND:", LF) == 0
  {
    assert LF !in "DTSTART:";
    assert LF !in "DTEND:";
  }

  lemma CountLineFeedJoin(a: string, b: string)
    ensures CountChar(a + [LF] + b, LF) == CountChar(a, LF) + 1 + CountChar(b, LF)
  {
    CountCharConcat(a + [LF], b, LF);
    CountCharConcat(a, [LF], LF);
  }

  /** A line feed in the title breaks the block: it no longer reads back. */
  lemma NewlineInTitleBreaksBlock(e: Event)
    requires LF in e.summary
    ensures Decode(Encode(e)) == None
  {
    EncodedLineCount(e);
  }
}

=== FILE: generator.dfy ===
/** The top-level state of the generator (components/QrGenerator.tsx): the initial
    configuration, the saved history, and loading a style shared through the URL. */
module Generator {
  import opened Wrappers
  import opened QrTypes
  import opened Text
  import Controls
  import Seqs

  /** `INITIAL_QR_OPTIONS`: the configuration on start and after a reset. */
  const InitialOptions := QrOptions(
    width := 300,
    height := 300,
    data := "https://www.upb.ro/",
    image := None,
    shape := SquareShape,
    dotsOptions := DotOptions(Rounded, Some("#4267b2"), None),
    backgroundOptions := BackgroundOptions("#ffffff"),
    cornersSquareOptions := Some(CornersSquareOptions(ExtraRoundedCorner, "#4267b2")),
    cornersDotOptions := Some(CornersDotOptions(DotCornerDot, "#4267b2")),
    frameOptions := Some(FrameOptions(Some(""), Some("#000000"), Some("#ffffff"), Some("Arial, sans-serif"), Some(20))),
    qrOptions := Some(QrSettings(Q)))

  /** `handleReset`. */
  function Reset(o: QrOptions): (r: QrOptions)
    ensures Controls.Complete(r) && !HasLogo(r) && EffectiveLevel(r) == Q
  {
    InitialOptions
  }

  /** The initial configuration has every optional record, and the edits, templates and
      shared styles all keep it that way: the panel's edits never hit an absent record. */
  lemma InitialIsComplete(o: QrOptions)
    ensures Controls.Complete(Reset(o))
    ensures Reset(o).data == Controls.TabSkeleton(Controls.UrlTab)
  {
  }

  // ---------------------------------------------------------------------------
  // History

  const MaxHistory := 5

  datatype HistoryEntry = HistoryEntry(id: string, name: string, timestamp: int, options: QrOptions)

  /** The entry's name: the first 30 characters of the data, or `Cod QR` for empty data. */
  function EntryName(data: string): (name: string)
    ensures data == "" ==> name == "Cod QR"
    ensures data != "" ==> name <= data && |name| == if |data| < 30 then |data| else 30
  {
    var head := data[..if |data| < 30 then |data| else 30];
    if head != "" then head else "Cod QR"
  }

  /** The entry saved at time `now` (milliseconds): its id is the decimal time. */
  function NewEntry(o: QrOptions, now: nat): (e: HistoryEntry)
    ensures e.options == o && e.timestamp == now && e.name == EntryName(o.data)
    ensures AllDigits(e.id) && DecimalValue(e.id) == now
  {
    HistoryEntry(NatToDecimal(now), EntryName(o.data), now, o)
  }

  /** `prevHistory.filter(item => item.options.data !== data)`. */
  function DropData(h: seq<HistoryEntry>, data: string): (r: seq<HistoryEntry>)
    ensures |r| <= |h|
    ensures forall i :: 0 <= i < |r| ==> r[i].options.data != data && r[i] in h
  {
    if h == [] then []
    else if h[0].options.data != data then [h[0]] + DropData(h[1..], data)
    else DropData(h[1..], data)
  }

  /** The filter loses nothing else: every entry whose data differs survives. */
  lemma {:induction false} DropDataKeepsOthers(h: seq<HistoryEntry>, data: string)
    ensures forall i :: 0 <= i < |h| && h[i].options.data != data ==> h[i] in DropData(h, data)
  {
    if h != [] {
      DropDataKeepsOthers(h[1..], data);
      forall i | 0 <= i < |h| && h[i].options.data != data
        ensures h[i] in DropData(h, data)
      {
        if i > 0 {
          assert h[i] == h[1..][i - 1];
        }
      }
    }
  }

  /** Save: drop entries with the same data, put the new one first, keep five. */
  function Save(h: seq<HistoryEntry>, e: HistoryEntry): (r: seq<HistoryEntry>)
    ensures 1 <= |r| <= MaxHistory && r[0] == e
    ensures forall i :: 1 <= i < |r| ==> r[i].options.data != e.options.data && r[i] in h
  {
    var all := [e] + DropData(h, e.options.data);
    all[..if |all| < MaxHistory then |all| else MaxHistory]
  }

  /** No two entries share their data. */
  predicate DistinctData(h: seq<HistoryEntry>) {
    forall i, j :: 0 <= i < j < |h| ==> h[i].options.data != h[j].options.data
  }

  predicate ValidHistory(h: seq<HistoryEntry>) {
    |h| <= MaxHistory && DistinctData(h)
  }

  lemma {:induction false} DropDataSubsequence(h: seq<HistoryEntry>, data: string)
    ensures Seqs.Subsequence(DropData(h, data), h)
  {
    if h != [] {
      DropDataSubsequence(h[1..], data);
      if h[0].options.data != data {
        assert ([h[0]] + DropData(h[1..], data))[1..] == DropData(h[1..], data);
      }
    }
  }

  /** Entries that survive a save keep their relative order. */
  lemma SaveKeepsOrder(h: seq<HistoryEntry>, e: HistoryEntry)
    ensures Seqs.Subsequence(Save(h, e)[1..], h)
  {
    var kept := DropData(h, e.options.data);
    var all := [e] + kept;
    var n := if |all| < MaxHistory then |all| else MaxHistory;
    DropDataSubsequence(h, e.options.data);
    assert Save(h, e)[1..] == kept[..n - 1];
    Seqs.SubsequenceOfPrefix(kept, h, n - 1);
  }

  lemma {:induction false} DropDataKeepsDistinct(h: seq<HistoryEntry>, data: string)
    requires DistinctData(h)
    ensures DistinctData(DropData(h, data))
  {
    if h != [] {
      assert DistinctData(h[1..]) by {
        forall i, j | 0 <= i < j < |h[1..]|
          ensures h[1..][i].options.data != h[1..][j].options.data
        {
          assert h[1..][i] == h[i + 1] && h[1..][j] == h[j + 1];
        }
      }
      DropDataKeepsDistinct(h[1..], data);
      var rest := DropData(h[1..], data);
      if h[0].options.data != data {
        forall k | 0 <= k < |rest| ensures rest[k].options.data != h[0].options.data {
          var m :| 0 <= m < |h[1..]| && h[1..][m] == rest[k];
          assert h[m + 1] == rest[k];
        }
      }
    }
  }

  /** Saving keeps the history valid: at most five entries, no two with the same data. */
  lemma SaveKeepsValid(h: seq<HistoryEntry>, e: HistoryEntry)
    requires DistinctData(h)
    ensures ValidHistory(Save(h, e))
  {
    var kept := DropData(h, e.options.data);
    DropDataKeepsDistinct(h, e.options.data);
    var r := Save(h, e);
    forall i, j | 0 <= i < j < |r| ensures r[i].options.data != r[j].options.data {
      if i > 0 {
        assert r[i] == kept[i - 1] && r[j] == kept[j - 1];
      }
    }
  }

  lemma {:induction false} DropDataNothingToDrop(h: seq<HistoryEntry>, data: string)
    requires forall i :: 0 <= i < |h| ==> h[i].options.data != data
    ensures DropData(h, data) == h
  {
    if h != [] {
      DropDataNothingToDrop(h[1..], data);
      assert [h[0]] + h[1..] == h;
    }
  }

  /** Saving the same data again replaces its entry instead of adding a second one. */
  lemma SaveSameDataTwice(h: seq<HistoryEntry>, e1: HistoryEntry, e2: HistoryEntry)
    requires e1.options.data == e2.options.data
    ensures Save(Save(h, e1), e2) == Save(h, e2)
  {
    var d := e1.options.data;
    var dd := DropData(h, d);
    var s1 := Save(h, e1);
    var k := |s1| - 1;
    SaveShape(h, e1);
    SaveShape(h, e2);
    SaveShape(s1, e2);
    assert s1[1..] == dd[..k];
    DropDataNothingToDrop(s1[1..], d);
    assert s1 == [e1] + s1[1..];
    assert DropData(s1, d) == dd[..k];
    assert |Save(s1, e2)| - 1 == k;
    assert dd[..k][..k] == dd[..k];
  }

  /** The saved list is the new entry followed by a prefix of the survivors. */
  lemma SaveShape(h: seq<HistoryEntry>, e: HistoryEntry)
    ensures var dd := DropData(h, e.options.data);
            && |Save(h, e)| == (if 1 + |dd| < MaxHistory then 1 + |dd| else MaxHistory)
            && Save(h, e) == [e] + dd[..|Save(h, e)| - 1]
  {
    var dd := DropData(h, e.options.data);
    var all := [e] + dd;
    var n := if |all| < MaxHistory then |all| else MaxHistory;
    assert all[..n] == [e] + dd[..n - 1];
  }

  /** `history.find(item => item.id === id)`: the first entry with that id. */
  function Find(h: seq<HistoryEntry>, id: string): (r: Option<HistoryEntry>)
    ensures r.None? <==> forall i :: 0 <= i < |h| ==> h[i].id != id
    ensures r.Some? ==> exists i :: 0 <= i < |h| && h[i] == r.value && r.value.id == id
                                  && forall j :: 0 <= j < i ==> h[j].id != id
  {
    if h == [] then None
    else if h[0].id == id then Some(h[0])
    else
      var r := Find(h[1..], id);
      if r.Some? then
        ghost var i :| 0 <= i < |h[1..]| && h[1..][i] == r.value && r.value.id == id
                       && forall j :: 0 <= j < i ==> h[1..][j].id != id;
        assert h[i + 1] == r.value;
        assert forall j :: 0 <= j < i + 1 ==> h[j].id != id by {
          forall j | 0 <= j < i + 1 ensures h[j].id != id {
            if j > 0 { assert h[j] == h[1..][j - 1]; }
          }
        }
        r
      else
        assert forall i :: 0 <= i < |h| ==> h[i].id != id by {
          forall i | 0 <= i < |h| ensures h[i].id != id {
            if i > 0 { assert h[i] == h[1..][i - 1]; }
          }
        }
        r
  }

  /** `handleLoadFromHistory`: the entry's configuration, or the current one when no entry
      has the id. */
  function Load(h: seq<HistoryEntry>, id: string, current: QrOptions): (r: QrOptions)
    ensures (forall i :: 0 <= i < |h| ==> h[i].id != id) ==> r == current
    ensures h != [] && h[0].id == id ==> r == h[0].options
    ensures Find(h, id).Some? ==> r == Find(h, id).value.options
  {
    match Find(h, id)
    case Some(e) => e.options
    case None => current
  }

  /** An entry just saved loads back to the configuration it was saved from. */
  lemma LoadAfterSave(h: seq<HistoryEntry>, o: QrOptions, now: nat, current: QrOptions)
    ensures Load(Save(h, NewEntry(o, now)), NatToDecimal(now), current) == o
  {
  }

  /** `handleClearHistory`. */
  function Clear(h: seq<HistoryEntry>): (r: seq<HistoryEntry>)
    ensures ValidHistory(r) && |r| == 0
  {
    []
  }

  /** After clearing, loading any id keeps the current configuration. */
  lemma LoadAfterClear(h: seq<HistoryEntry>, id: string, current: QrOptions)
    ensures Load(Clear(h), id, current) == current
  {
  }

  // ---------------------------------------------------------------------------
  // Shared styles

  /** `btoa` accepts only characters up to U+00FF; anything above makes it throw an
      `InvalidCharacterError`. */
  predicate IsLatin1(s: string)
  {
    forall i :: 0 <= i < |s| ==> s[i] as int <= 0xFF
  }

  /** The hash of a share link: `#style=` and the Base64 of the JSON of the stripped
      options, or `None` when `btoa` throws because the JSON holds a character above
      U+00FF (a frame text such as `Scanează-mă!`), so no link is copied. JSON and Base64
      are the parameters `stringify` and `btoa`. */
  function ShareHash(o: QrOptions, stringify: Patch -> string, btoa: string -> string): (hash: Option<string>)
    ensures hash.Some? <==> IsLatin1(stringify(Controls.StripForShare(o)))
    ensures hash.Some? ==> "#style=" <= hash.value
                           && hash.value[7..] == btoa(stringify(Controls.StripForShare(o)))
  {
    var json := stringify(Controls.StripForShare(o));
    if IsLatin1(json) then Some("#style=" + btoa(json)) else None
  }

  /** A style whose JSON carries a character beyond Latin-1 cannot be shared at all. */
  lemma ShareFailsBeyondLatin1(o: QrOptions, stringify: Patch -> string, btoa: string -> string)
    requires '\U{0103}' in stringify(Controls.StripForShare(o))
    ensures ShareHash(o, stringify, btoa) == None
  {
  }

  /** The effect run on load: a `#style=` hash whose rest decodes is spread over the
      configuration, keeping its data; anything else (no hash, or a decoding failure,
      caught) leaves it unchanged. Base64 and JSON are the parameter `decode`. */
  function LoadSharedStyle(prev: QrOptions, hash: string, decode: string -> Option<Patch>): (r: QrOptions)
    ensures r.data == prev.data
    ensures !("#style=" <= hash) ==> r == prev
    ensures "#style=" <= hash && decode(hash[7..]).None? ==> r == prev
    ensures "#style=" <= hash && decode(hash[7..]).Some? ==> r == Spread(prev, decode(hash[7..]).value).(data := prev.data)
  {
    if "#style=" <= hash then
      match decode(hash[7..])
      case None => prev
      case Some(p) => Spread(prev, p).(data := prev.data)
    else prev
  }

  /** A share link of a complete configuration, opened anywhere, restores its whole
      style and keeps the data, size and logo already on the page, provided its JSON is
      Latin-1 and the serialisation round-trips. */
  lemma ShareRoundTrip(o: QrOptions, prev: QrOptions, stringify: Patch -> string, btoa: string -> string,
                       decode: string -> Option<Patch>)
    requires Controls.Complete(o)
    requires IsLatin1(stringify(Controls.StripForShare(o)))
    requires decode(btoa(stringify(Controls.StripForShare(o)))) == Some(Controls.StripForShare(o))
    ensures ShareHash(o, stringify, btoa).Some?
    ensures LoadSharedStyle(prev, ShareHash(o, stringify, btoa).value, decode)
            == o.(data := prev.data, width := prev.width, height := prev.height, image := prev.image)
  {
  }

  /** Loading a shared style keeps a configuration complete: a decoded record can only
      replace optional records, never remove them. */
  lemma SharedStyleKeepsComplete(prev: QrOptions, hash: string, decode: string -> Option<Patch>)
    requires Controls.Complete(prev)
    ensures Controls.Complete(LoadSharedStyle(prev, hash, decode))
  {
  }

  /** Only the data is protected: a crafted link can still replace the size and the logo. */
  lemma CraftedLinkSetsLogo(prev: QrOptions, hash: string, decode: string -> Option<Patch>, logo: string)
    requires "#style=" <= hash && decode(hash[7..]) == Some(EmptyPatch.(image := Some(logo), width := Some(1)))
    ensures LoadSharedStyle(prev, hash, decode).image == Some(logo)
    ensures LoadSharedStyle(prev, hash, decode).width == 1
  {
  }
}

=== FILE: preview.dfy ===
/** What the preview derives from a configuration (components/QrPreview.tsx): the options
    passed to the renderer, the download request, the export size, and the visual frame. */
module Preview {
  import opened Wrappers
  import opened QrTypes
  import opened Text
  import Controls

  /** The options the renderer is updated with: the configuration without `frameOptions`,
      which only the on-page frame uses. */
  datatype RendererOptions = RendererOptions(
    width: int,
    height: int,
    data: string,
    image: Option<string>,
    shape: Shape,
    dotsOptions: DotOptions,
    backgroundOptions: BackgroundOptions,
    cornersSquareOptions: Option<CornersSquareOptions>,
    cornersDotOptions: Option<CornersDotOptions>,
    qrOptions: Option<QrSettings>)

  /** `const { frameOptions, ...restOptions } = options`. */
  function ForRenderer(o: QrOptions): (r: RendererOptions)
    ensures r.width == o.width && r.height == o.height && r.data == o.data && r.image == o.image
    ensures r.shape == o.shape && r.dotsOptions == o.dotsOptions && r.backgroundOptions == o.backgroundOptions
    ensures r.cornersSquareOptions == o.cornersSquareOptions && r.cornersDotOptions == o.cornersDotOptions
    ensures r.qrOptions == o.qrOptions
  {
    RendererOptions(o.width, o.height, o.data, o.image, o.shape, o.dotsOptions, o.backgroundOptions,
                    o.cornersSquareOptions, o.cornersDotOptions, o.qrOptions)
  }

  /** Two configurations reach the renderer alike exactly when they differ at most in
      their frame: the frame never reaches it, and everything else does. */
  lemma RendererSeesAllButFrame(a: QrOptions, b: QrOptions)
    ensures ForRenderer(a) == ForRenderer(b) <==> a.(frameOptions := b.frameOptions) == b
  {
  }

  // ---------------------------------------------------------------------------
  // Downloads

  /** `DOWNLOAD_FORMATS`. */
  datatype DownloadFormat = Png | Svg | Jpeg

  const DownloadFormats := [Png, Svg, Jpeg]

  function Extension(f: DownloadFormat): string {
    match f
    case Png => "png"
    case Svg => "svg"
    case Jpeg => "jpeg"
  }

  datatype DownloadOptions = DownloadOptions(name: string, extension: string, width: Option<int>, height: Option<int>)

  /** The request built by `handleDownload`: raster formats are exported at the chosen size,
      SVG at its own. */
  function Download(f: DownloadFormat, exportSize: int): (d: DownloadOptions)
    ensures d.name == "cod-qr" && d.extension == Extension(f)
    ensures d.width.Some? <==> f != Svg
    ensures d.width == d.height
    ensures d.width.Some? ==> d.width.value == exportSize
  {
    var base := DownloadOptions("cod-qr", Extension(f), None, None);
    if f == Png || f == Jpeg then base.(width := Some(exportSize), height := Some(exportSize))
    else base
  }

  const InitialExportSize := 1024

  /** The export-size field: `Math.max(50, parseInt(text, 10)) || 50`; an unreadable entry
      makes the maximum NaN, which falls back to 50. */
  function ExportSizeInput(text: string): (n: int)
    ensures n >= 50
    ensures ParseInt(text).None? ==> n == 50
    ensures ParseInt(text).Some? ==> n == if ParseInt(text).value < 50 then 50 else ParseInt(text).value
  {
    match ParseInt(text)
    case None => 50
    case Some(v) => if v < 50 then 50 else v
  }

  /** A typed size of at least 50 is kept; anything smaller is raised to 50. */
  lemma ExportSizeOfNumber(n: nat, lead: string, trail: string)
    requires AllWhitespace(lead) && (trail == [] || !IsDigit(trail[0]))
    ensures ExportSizeInput(lead + NatToDecimal(n) + trail) == if n < 50 then 50 else n
  {
    ParseIntOfDecimal(n, lead, trail);
  }

  /** Whatever was typed, a raster download is never smaller than 50 pixels. */
  lemma RasterDownloadAtLeast50(f: DownloadFormat, text: string)
    requires f != Svg
    ensures Download(f, ExportSizeInput(text)).width.value >= 50
    ensures Download(f, InitialExportSize).width == Some(1024)
  {
  }

  // ---------------------------------------------------------------------------
  // The visual frame

  /** A frame is drawn when its text exists and is not blank. */
  function HasFrame(o: QrOptions): (b: bool)
    ensures b <==> o.frameOptions.Some? && o.frameOptions.value.text.Some?
                   && !AllWhitespace(o.frameOptions.value.text.value)
  {
    if o.frameOptions.Some? && o.frameOptions.value.text.Some? then
      TrimEmptyIff(o.frameOptions.value.text.value);
      Trim(o.frameOptions.value.text.value) != ""
    else
      false
  }

  /** `shape === 'circle'`: an absent or square shape is drawn square. */
  function IsCircular(o: QrOptions): (b: bool)
    ensures b <==> o.shape != SquareShape
  {
    o.shape == CircleShape
  }

  /** The container's background and corner radius. */
  datatype ContainerStyle = ContainerStyle(background: Option<string>, borderRadius: string)

  /** The frame's background colour shows only with a frame, otherwise the container is
      `transparent`; the container is a full circle only for a circular code without a
      frame. */
  function Container(o: QrOptions): (c: ContainerStyle)
    ensures HasFrame(o) ==> c.background == o.frameOptions.value.backgroundColor
    ensures !HasFrame(o) ==> c.background == Some("transparent")
    ensures c.borderRadius == "9999px" <==> IsCircular(o) && !HasFrame(o)
  {
    ContainerStyle(
      if HasFrame(o) then o.frameOptions.value.backgroundColor else Some("transparent"),
      if IsCircular(o) && !HasFrame(o) then "9999px" else "0.5rem")
  }

  /** The note that the download differs from the preview. */
  function ShowsNote(o: QrOptions): (b: bool)
    ensures b <==> HasFrame(o) || Container(o).borderRadius == "9999px"
  {
    HasFrame(o) || IsCircular(o)
  }

  /** Whenever the on-page preview is not the plain square the download contains (a frame
      around it or a rounded container), the note is shown. */
  lemma NoteCoversEveryDifference(o: QrOptions)
    ensures Container(o).borderRadius == "9999px" ==> ShowsNote(o)
    ensures !ShowsNote(o) ==> Container(o) == ContainerStyle(Some("transparent"), "0.5rem")
  {
  }

  /** Typing frame text shows the frame exactly when the text is not all blanks. */
  lemma FrameTextShowsFrame(o: QrOptions, text: string)
    requires o.frameOptions.Some?
    ensures var r := Controls.SetPath(o, Controls.FrameText, Controls.Str(text));
            r.Success? && (HasFrame(r.value) <==> !AllWhitespace(text))
  {
    TrimEmptyIff(text);
  }
}

=== FILE: scannability.dfy ===
/** The heuristic scannability score shown under the preview
    (components/ScannabilityIndicator.tsx). */
module Scannability {
  import opened Wrappers
  import opened QrTypes
  import Color

  datatype Level = Good | Medium | Poor

  /** What the indicator shows: a level, a message and the dot's CSS class. */
  datatype Assessment = Assessment(level: Level, message: string, color: string)

  const LowContrastMessage := "Contrastul este foarte sc\U{0103}zut."
  const WeakContrastMessage := "Contrastul ar putea fi mai bun."
  const DenseDataMessage := "Date multe cu corec\U{021B}ie sc\U{0103}zut\U{0103}."
  const LogoMessage := "Logo-ul necesit\U{0103} corec\U{021B}ie de erori M, Q sau H."
  const GoodMessage := "Scanare excelent\U{0103}"
  const MediumMessage := "Scanare acceptabil\U{0103}"
  const PoorMessage := "Scanare dificil\U{0103}"

  /** The colour whose contrast is judged: black whenever a gradient is set, otherwise the
      dot colour, with a missing or empty colour read as black. */
  function DotColor(d: DotOptions): (c: string)
    ensures c != ""
    ensures d.gradient.Some? ==> c == "#000000"
    ensures d.gradient.None? && d.color.Some? && d.color.value != "" ==> c == d.color.value
  {
    if d.gradient.Some? then "#000000"
    else if d.color.Some? && d.color.value != "" then d.color.value
    else "#000000"
  }

  /** The running score and the messages collected, in the order they were pushed. */
  datatype Tally = Tally(score: int, messages: seq<string>)

  function ContrastCheck(contrast: real): (t: Tally)
    ensures t.score <= 0 && (t.score == 0 <==> contrast >= 4.5)
    ensures t.messages == [] <==> contrast >= 4.5
  {
    if contrast < 3.0 then Tally(-50, [LowContrastMessage])
    else if contrast < 4.5 then Tally(-25, [WeakContrastMessage])
    else Tally(0, [])
  }

  /** Long data costs 15 points; past 250 characters at level L it costs 40 and adds a
      message. */
  function LengthCheck(dataLength: nat, level: ErrorLevel): (t: Tally)
    ensures t.score <= 0 && (t.score == 0 <==> dataLength <= 150)
    ensures t.messages == [] <==> !(dataLength > 250 && level == L)
  {
    if dataLength > 250 && level == L then Tally(-40, [DenseDataMessage])
    else if dataLength > 150 then Tally(-15, [])
    else Tally(0, [])
  }

  /** A logo costs 30 points at level L (with a message), 15 at M, nothing at Q or H. */
  function LogoCheck(hasLogo: bool, level: ErrorLevel): (t: Tally)
    ensures t.score <= 0
    ensures t.score == 0 <==> (!hasLogo || level.Q? || level.H?)
    ensures t.messages == [] <==> !(hasLogo && level == L)
  {
    if hasLogo && level == L then Tally(-30, [LogoMessage])
    else if hasLogo && level == M then Tally(-15, [])
    else Tally(0, [])
  }

  /** The three checks applied to a starting score of 100. */
  function Score(contrast: real, dataLength: nat, level: ErrorLevel, hasLogo: bool): (t: Tally)
    ensures -20 <= t.score <= 100
    ensures t.score == 100 <==> contrast >= 4.5 && dataLength <= 150 && (!hasLogo || level == Q || level == H)
    ensures t.messages == [] <==> contrast >= 4.5 && !(dataLength > 250 && level == L) && !(hasLogo && level == L)
    ensures |t.messages| <= 3
  {
    var c, d, g := ContrastCheck(contrast), LengthCheck(dataLength, level), LogoCheck(hasLogo, level);
    Tally(100 + c.score + d.score + g.score, c.messages + d.messages + g.messages)
  }

  /** The final tiers: 75 and above is good, 40 and above medium, the rest poor. Below
      the top tier the first collected message is shown, or the tier's own text. */
  function Classify(t: Tally): (a: Assessment)
    ensures a.level == Good <==> t.score >= 75
    ensures a.level == Medium <==> 40 <= t.score < 75
    ensures a.level == Poor <==> t.score < 40
    ensures a.level == Good ==> a.message == GoodMessage
    ensures a.level != Good && t.messages != [] ==> a.message == t.messages[0]
  {
    if t.score >= 75 then Assessment(Good, GoodMessage, "bg-green-500")
    else if t.score >= 40 then Assessment(Medium, if t.messages != [] then t.messages[0] else MediumMessage, "bg-yellow-500")
    else Assessment(Poor, if t.messages != [] then t.messages[0] else PoorMessage, "bg-red-500")
  }

  /** The indicator for a configuration. The exponent branch of the luminance formula is
      the parameter `gamma` (see `Color.Linearize`). */
  function Assess(o: QrOptions, gamma: real -> real): (a: Assessment)
    requires Color.MapsUnitInterval(gamma)
    ensures Color.ContrastRatio(DotColor(o.dotsOptions), o.backgroundOptions.color, gamma) < 3.0
            ==> a.level != Good && a.message == LowContrastMessage
  {
    var contrast := Color.ContrastRatio(DotColor(o.dotsOptions), o.backgroundOptions.color, gamma);
    var a := Classify(Score(contrast, |o.data|, EffectiveLevel(o), HasLogo(o)));
    assert contrast < 3.0 ==> a.level != Good && a.message == LowContrastMessage by {
      if contrast < 3.0 { LowContrastDominates(contrast, |o.data|, EffectiveLevel(o), HasLogo(o)); }
    }
    a
  }

  // ---------------------------------------------------------------------------
  // Properties of the score

  /** Error-correction levels ordered by the protection the score credits: L < M < Q = H. */
  function Protection(level: ErrorLevel): nat {
    match level
    case L => 0
    case M => 1
    case Q => 2
    case H => 2
  }

  /** A stronger error-correction level never lowers the score. */
  lemma ScoreMonotoneInLevel(contrast: real, dataLength: nat, a: ErrorLevel, b: ErrorLevel, hasLogo: bool)
    requires Protection(a) <= Protection(b)
    ensures Score(contrast, dataLength, a, hasLogo).score <= Score(contrast, dataLength, b, hasLogo).score
  {
  }

  /** Q and H are scored alike. */
  lemma QAndHAlike(contrast: real, dataLength: nat, hasLogo: bool)
    ensures Score(contrast, dataLength, Q, hasLogo) == Score(contrast, dataLength, H, hasLogo)
  {
  }

  /** Better contrast never lowers the score. */
  lemma ScoreMonotoneInContrast(c1: real, c2: real, dataLength: nat, level: ErrorLevel, hasLogo: bool)
    requires c1 <= c2
    ensures Score(c1, dataLength, level, hasLogo).score <= Score(c2, dataLength, level, hasLogo).score
  {
  }

  /** More data never raises the score. */
  lemma ScoreMonotoneInLength(contrast: real, n1: nat, n2: nat, level: ErrorLevel, hasLogo: bool)
    requires n1 <= n2
    ensures Score(contrast, n2, level, hasLogo).score <= Score(contrast, n1, level, hasLogo).score
  {
  }

  /** Adding a logo never raises the score. */
  lemma LogoNeverHelps(contrast: real, dataLength: nat, level: ErrorLevel)
    ensures Score(contrast, dataLength, level, true).score <= Score(contrast, dataLength, level, false).score
  {
  }

  /** Contrast below 3 can never be rated good, and its message is the one shown, since
      the contrast check runs first. */
  lemma LowContrastDominates(contrast: real, dataLength: nat, level: ErrorLevel, hasLogo: bool)
    requires contrast < 3.0
    ensures var a := Classify(Score(contrast, dataLength, level, hasLogo));
            a.level != Good && a.message == LowContrastMessage
  {
  }

  /** A mediocre contrast on its own still rates good, and its warning is not shown. */
  lemma WeakContrastAloneIsGood(contrast: real, dataLength: nat, level: ErrorLevel)
    requires 3.0 <= contrast < 4.5 && dataLength <= 150
    ensures Classify(Score(contrast, dataLength, level, false)) == Assessment(Good, GoodMessage, "bg-green-500")
  {
  }

  /** 300 characters at level L with good contrast and no logo score 60: medium, with the
      dense-data message. */
  lemma DenseDataAtLowLevel(contrast: real)
    requires contrast >= 4.5
    ensures Score(contrast, 300, L, false).score == 60
    ensures Classify(Score(contrast, 300, L, false)) == Assessment(Medium, DenseDataMessage, "bg-yellow-500")
  {
  }

  /** Every deduction at once gives the lowest score, -20. */
  lemma WorstCase()
    ensures Score(1.0, 251, L, true) == Tally(-20, [LowContrastMessage, DenseDataMessage, LogoMessage])
  {
  }

  /** With short data, no logo and the default level, only contrast decides: the
      configuration rates good exactly when its colours reach a ratio of 3. */
  lemma PlainConfigurationIsGood(o: QrOptions, gamma: real -> real)
    requires Color.MapsUnitInterval(gamma)
    requires |o.data| <= 150 && !HasLogo(o) && o.qrOptions.None?
    ensures Assess(o, gamma).level == Good
            <==> Color.ContrastRatio(DotColor(o.dotsOptions), o.backgroundOptions.color, gamma) >= 3.0
  {
  }
}

=== FILE: seqs.dfy ===
/** Order-preserving selection from a sequence, shared by the history and the bulk
    input. */
module Seqs {
  /** `a` is `b` with some elements left out, the rest in their order. */
  predicate Subsequence<T(==)>(a: seq<T>, b: seq<T>)
    decreases |b|
  {
    if a == [] then true
    else if b == [] then false
    else if a[0] == b[0] then Subsequence(a[1..], b[1..])
    else Subsequence(a, b[1..])
  }

  /** A prefix of a subsequence is a subsequence. */
  lemma {:induction false} SubsequenceOfPrefix<T>(a: seq<T>, b: seq<T>, k: nat)
    requires Subsequence(a, b) && k <= |a|
    ensures Subsequence(a[..k], b)
    decreases |b|
  {
    if k > 0 {
      if a[0] == b[0] {
        assert a[..k][1..] == a[1..][..k - 1];
        SubsequenceOfPrefix(a[1..], b[1..], k - 1);
      } else {
        SubsequenceOfPrefix(a, b[1..], k);
      }
    }
  }

  lemma InLeft<T>(x: T, a: seq<T>, b: seq<T>)
    requires x in a
    ensures x in a + b
  {
    var k :| 0 <= k < |a| && a[k] == x;
    assert (a + b)[k] == x;
  }

  lemma InRight<T>(x: T, a: seq<T>, b: seq<T>)
    requires x in b
    ensures x in a + b
  {
    var k :| 0 <= k < |b| && b[k] == x;
    assert (a + b)[|a| + k] == x;
  }
}

=== FILE: templates.dfy ===
/** The four predefined design templates (templates.ts). */
module Templates {
  import opened Wrappers
  import opened QrTypes

  /** A named style. Its options can never carry data, size or logo (`StyleOnlyPatch`). */
  datatype Template = Template(name: string, options: StyleOnlyPatch)

  /** A style patch that sets the dots, background, both corner records and the level,
      and leaves shape and frame alone. */
  function StylePatch(dots: DotOptions, background: string, square: CornersSquareOptions,
                      dot: CornersDotOptions, level: ErrorLevel): (p: StyleOnlyPatch)
    ensures p.dotsOptions == Some(dots) && p.backgroundOptions == Some(BackgroundOptions(background))
    ensures p.cornersSquareOptions == Some(square) && p.cornersDotOptions == Some(dot)
    ensures p.qrOptions == Some(QrSettings(level))
    ensures p.shape.None? && p.frameOptions.None?
  {
    Patch(None, None, None, None, None, Some(dots), Some(BackgroundOptions(background)),
          Some(square), Some(dot), None, Some(QrSettings(level)))
  }

  /** The playful template's two-stop linear gradient, rotated by 0.785 rad (45 degrees). */
  const PlayfulGradient := Gradient(Linear, Some(0.785), [ColorStop(0.0, "#f97316"), ColorStop(1.0, "#ec4899")])

  const Professional := Template("Profesional", StylePatch(
    DotOptions(SquareDots, Some("#1f2937"), None), "#ffffff",
    CornersSquareOptions(SquareCorner, "#1f2937"), CornersDotOptions(SquareCornerDot, "#1f2937"), H))

  const Elegant := Template("Elegant", StylePatch(
    DotOptions(Dots, Some("#4a044e"), None), "#f3e8ff",
    CornersSquareOptions(DotCorner, "#86198f"), CornersDotOptions(DotCornerDot, "#86198f"), Q))

  const Playful := Template("Juc\U{0103}u\U{0219}", StylePatch(
    DotOptions(Rounded, None, Some(PlayfulGradient)), "#ffffff",
    CornersSquareOptions(ExtraRoundedCorner, "#f97316"), CornersDotOptions(DotCornerDot, "#ec4899"), M))

  const Minimalist := Template("Minimalist", StylePatch(
    DotOptions(Classy, Some("#4b5563"), None), "transparent",
    CornersSquareOptions(SquareCorner, "#4b5563"), CornersDotOptions(SquareCornerDot, "#4b5563"), Q))

  /** `DESIGN_TEMPLATES`, in display order. */
  const DesignTemplates: seq<Template> := [Professional, Elegant, Playful, Minimalist]

  /** Every template sets exactly one of dot colour and gradient: a non-empty colour, or
      a gradient and no colour. */
  predicate ColorOrGradient(d: DotOptions) {
    (d.gradient.None? && d.color.Some? && d.color.value != "") || (d.gradient.Some? && d.color.None?)
  }

  lemma TemplatesWellFormed()
    ensures |DesignTemplates| == 4
    ensures forall i :: 0 <= i < |DesignTemplates| ==>
      var p := DesignTemplates[i].options;
      && p.dotsOptions.Some? && ColorOrGradient(p.dotsOptions.value)
      && p.backgroundOptions.Some? && p.cornersSquareOptions.Some? && p.cornersDotOptions.Some?
      && p.qrOptions.Some? && p.shape.None? && p.frameOptions.None?
    ensures forall i, j :: 0 <= i < j < |DesignTemplates| ==> DesignTemplates[i].name != DesignTemplates[j].name
  {
  }

  /** The templates' names in display order, and the error-correction level each selects. */
  lemma TemplateLevels()
    ensures seq(4, i requires 0 <= i < 4 => DesignTemplates[i].name)
            == ["Profesional", "Elegant", "Juc\U{0103}u\U{0219}", "Minimalist"]
    ensures seq(4, i requires 0 <= i < 4 => DesignTemplates[i].options.qrOptions.value.errorCorrectionLevel)
            == [H, Q, M, Q]
  {
  }
}

=== FILE: text.dfy ===
/** JavaScript string primitives the components rely on: `trim`, `split` at line
    breaks, `join('\n')`, `parseInt(s, 10)` and integer-to-decimal conversion.
    A Dafny `string` stands for a JavaScript string, one `char` per Unicode scalar value. */
module Text {
  import opened Wrappers

  const LF: char := '\n'
  const CR: char := '\r'

  /** The characters `String.prototype.trim` and `parseInt` skip: ECMAScript
      WhiteSpace (including every space separator) and LineTerminator. */
  predicate IsJsWhitespace(c: char) {
    || c == '\t' || c == '\n' || c == '\U{000B}' || c == '\U{000C}' || c == '\r'
    || c == ' ' || c == '\U{00A0}' || c == '\U{1680}'
    || ('\U{2000}' <= c <= '\U{200A}')
    || c == '\U{2028}' || c == '\U{2029}' || c == '\U{202F}' || c == '\U{205F}'
    || c == '\U{3000}' || c == '\U{FEFF}'
  }

  predicate AllWhitespace(s: string) {
    forall i :: 0 <= i < |s| ==> IsJsWhitespace(s[i])
  }

  /** The number of whitespace characters `trim` cuts from the front of `s`. */
  function LeadingWhitespace(s: string): (k: nat)
    ensures k <= |s| && AllWhitespace(s[..k])
    ensures k < |s| ==> !IsJsWhitespace(s[k])
  {
    if s != [] && IsJsWhitespace(s[0]) then
      var k := 1 + LeadingWhitespace(s[1..]);
      forall i | 0 <= i < k ensures IsJsWhitespace(s[..k][i]) {
        if i > 0 { assert s[..k][i] == s[1..][..k - 1][i - 1]; }
      }
      k
    else 0
  }

  /** Removes leading whitespace. */
  function TrimStart(s: string): (r: string)
    ensures |r| <= |s| && r == s[|s| - |r|..]
    ensures AllWhitespace(s[..|s| - |r|])
    ensures r == [] || !IsJsWhitespace(r[0])
  {
    s[LeadingWhitespace(s)..]
  }

  /** Removes trailing whitespace. */
  function TrimEnd(s: string): (r: string)
    ensures |r| <= |s| && r == s[..|r|]
    ensures AllWhitespace(s[|r|..])
    ensures r == [] || !IsJsWhitespace(r[|r| - 1])
  {
    if s != [] && IsJsWhitespace(s[|s| - 1]) then
      var init := s[..|s| - 1];
      var r := TrimEnd(init);
      forall i | |r| <= i < |s| ensures IsJsWhitespace(s[i]) {
        if i < |s| - 1 { assert s[i] == init[|r|..][i - |r|]; }
      }
      assert forall i :: 0 <= i < |s[|r|..]| ==> s[|r|..][i] == s[|r| + i];
      r
    else s
  }


  /** `s.trim()`: the piece of `s` starting after its leading whitespace that neither
      starts nor ends with whitespace, with only whitespace cut away on either side. */
  function Trim(s: string): (r: string)
    ensures LeadingWhitespace(s) + |r| <= |s|
    ensures r == s[LeadingWhitespace(s)..LeadingWhitespace(s) + |r|]
    ensures AllWhitespace(s[..LeadingWhitespace(s)])
    ensures AllWhitespace(s[LeadingWhitespace(s) + |r|..])
    ensures r == [] || (!IsJsWhitespace(r[0]) && !IsJsWhitespace(r[|r| - 1]))
  {
    var t := TrimStart(s);
    var r := TrimEnd(t);
    var k := |s| - |t|;
    assert t == s[k..];
    assert r == t[..|r|];
    assert r == s[k..k + |r|];
    assert s[k + |r|..] == t[|r|..];
    r
  }

  /** A string is blank after trimming exactly when every character is whitespace. */
  lemma TrimEmptyIff(s: string)
    ensures Trim(s) == [] <==> AllWhitespace(s)
  {
    var r := Trim(s);
    if r == [] {
      var k := LeadingWhitespace(s);
      assert s == s[..k] + s[k..];
      AllWhitespaceConcat(s[..k], s[k..]);
    } else {
      var k := LeadingWhitespace(s);
      assert s[k] == r[0];
      assert !IsJsWhitespace(s[k]);
    }
  }

  lemma AllWhitespaceConcat(a: string, b: string)
    requires AllWhitespace(a) && AllWhitespace(b)
    ensures AllWhitespace(a + b)
  {
    forall i | 0 <= i < |a + b| ensures IsJsWhitespace((a + b)[i]) {
      if i < |a| { assert (a + b)[i] == a[i]; } else { assert (a + b)[i] == b[i - |a|]; }
    }
  }

  lemma AllWhitespaceSplit(a: string, b: string)
    requires AllWhitespace(a + b)
    ensures AllWhitespace(a) && AllWhitespace(b)
  {
    forall i | 0 <= i < |a| ensures IsJsWhitespace(a[i]) { assert (a + b)[i] == a[i]; }
    forall i | 0 <= i < |b| ensures IsJsWhitespace(b[i]) { assert (a + b)[|a| + i] == b[i]; }
  }

  /** Trimming a trimmed string changes nothing. */
  lemma TrimIdempotent(s: string)
    ensures Trim(Trim(s)) == Trim(s)
  {
    var r := Trim(s);
    if r != [] {
      assert TrimStart(r) == r;
      assert TrimEnd(r) == r;
    }
  }

  function CountChar(s: string, c: char): (n: nat)
    ensures n <= |s|
    ensures n == 0 <==> c !in s
  {
    if s == [] then 0 else (if s[0] == c then 1 else 0) + CountChar(s[1..], c)
  }

  lemma {:induction false} CountCharConcat(a: string, b: string, c: char)
    ensures CountChar(a + b, c) == CountChar(a, c) + CountChar(b, c)
  {
    if a != [] {
      assert (a + b)[0] == a[0];
      assert (a + b)[1..] == a[1..] + b;
      CountCharConcat(a[1..], b, c);
    } else {
      assert a + b == b;
    }
  }

  /** `lines.join('\n')`: the lines separated by a single LF, no trailing newline. */
  function JoinLF(lines: seq<string>): string
  {
    if |lines| == 0 then ""
    else if |lines| == 1 then lines[0]
    else lines[0] + [LF] + JoinLF(lines[1..])
  }

  /** Lines free of line feeds stay so when two lists of them are concatenated. */
  lemma LinesWithoutLineFeedConcat(a: seq<string>, b: seq<string>)
    requires forall i :: 0 <= i < |a| ==> LF !in a[i]
    requires forall i :: 0 <= i < |b| ==> LF !in b[i]
    ensures forall i :: 0 <= i < |a + b| ==> LF !in (a + b)[i]
  {
    forall i | 0 <= i < |a + b| ensures LF !in (a + b)[i] {
      if i < |a| { assert (a + b)[i] == a[i]; } else { assert (a + b)[i] == b[i - |a|]; }
    }
  }

  /** `s.split('\n')`: the maximal LF-free pieces between line feeds, in order. */
  function SplitLF(s: string): (r: seq<string>)
    ensures |r| >= 1
    ensures forall i :: 0 <= i < |r| ==> LF !in r[i]
  {
    if s == [] then [""]
    else if s[0] == LF then [""] + SplitLF(s[1..])
    else
      var rest := SplitLF(s[1..]);
      [[s[0]] + rest[0]] + rest[1..]
  }

  /** A split yields one more piece than there are line feeds. */
  lemma {:induction false} SplitLFCount(s: string)
    ensures |SplitLF(s)| == 1 + CountChar(s, LF)
  {
    if s != [] {
      SplitLFCount(s[1..]);
    }
  }

  /** Re-joining the pieces of a split with LF restores the string. */
  lemma {:induction false} JoinSplitLF(s: string)
    ensures JoinLF(SplitLF(s)) == s
  {
    if s != [] {
      var rest := SplitLF(s[1..]);
      JoinSplitLF(s[1..]);
      assert s == [s[0]] + s[1..];
      if s[0] != LF {
        var r := [[s[0]] + rest[0]] + rest[1..];
        if |rest| > 1 {
          assert r[1..] == rest[1..];
          assert JoinLF(r) == ([s[0]] + rest[0]) + [LF] + JoinLF(rest[1..]);
        }
      }
    }
  }

  /** Splitting a string that begins with an LF-free piece `a` glues `a` onto the first line. */
  lemma {:induction false} SplitLFPrefix(a: string, rest: string)
    requires LF !in a
    ensures SplitLF(a + rest) == [a + SplitLF(rest)[0]] + SplitLF(rest)[1..]
  {
    var S := SplitLF(rest);
    if a == [] {
      assert a + rest == rest;
      SplitLFUncons(S);
    } else {
      assert LF !in a[1..] by { assert forall i :: 0 <= i < |a[1..]| ==> a[1..][i] == a[i + 1]; }
      SplitLFPrefix(a[1..], rest);
      SplitLFPrefixStep(a[0], a[1..], rest);
      assert [a[0]] + a[1..] == a;
    }
  }

  lemma SplitLFPrefixStep(c: char, a: string, rest: string)
    requires c != LF
    requires SplitLF(a + rest) == [a + SplitLF(rest)[0]] + SplitLF(rest)[1..]
    ensures SplitLF([c] + a + rest) == [[c] + a + SplitLF(rest)[0]] + SplitLF(rest)[1..]
  {
    var x := a + rest;
    var sr := SplitLF(rest);
    assert [c] + a + rest == [c] + x;
    SplitLFCons(c, x);
    GluePiece(c, a, sr[0], sr[1..], SplitLF(x));
  }

  lemma GluePiece(c: char, a: string, s0: string, tl: seq<string>, t: seq<string>)
    requires t == [a + s0] + tl
    ensures [[c] + t[0]] + t[1..] == [[c] + a + s0] + tl
  {
    assert t[1..] == tl;
    assert [c] + (a + s0) == [c] + a + s0;
  }

  lemma SplitLFUncons(S: seq<string>)
    requires |S| >= 1
    ensures S == [[] + S[0]] + S[1..]
  {
    assert [] + S[0] == S[0];
  }

  lemma SplitLFCons(c: char, t: string)
    requires c != LF
    ensures SplitLF([c] + t) == [[c] + SplitLF(t)[0]] + SplitLF(t)[1..]
  {
    assert ([c] + t)[1..] == t;
  }

  /** Joining LF-free lines and splitting again gives back exactly the same lines. */
  lemma {:induction false} SplitJoinLF(lines: seq<string>)
    requires |lines| >= 1
    requires forall i :: 0 <= i < |lines| ==> LF !in lines[i]
    ensures SplitLF(JoinLF(lines)) == lines
  {
    if |lines| == 1 {
      SplitLFPrefix(lines[0], "");
      assert lines[0] + "" == lines[0];
    } else {
      var tail := JoinLF(lines[1..]);
      SplitJoinLF(lines[1..]);
      assert lines[0] + [LF] + tail == lines[0] + ([LF] + tail);
      SplitLFPrefix(lines[0], [LF] + tail);
      assert ([LF] + tail)[1..] == tail;
      assert SplitLF([LF] + tail) == [""] + lines[1..];
      assert lines[0] + "" == lines[0];
    }
  }

  /** `s.split(/\r?\n/)`: the LF pieces, each one that precedes a line feed losing one
      carriage return at its end (the regex consumes it as part of the separator). */
  function SplitLines(s: string): (r: seq<string>)
    ensures |r| == |SplitLF(s)|
    ensures forall i :: 0 <= i < |r| ==> LF !in r[i]
  {
    var pieces := SplitLF(s);
    seq(|pieces|, i requires 0 <= i < |pieces| =>
      if i < |pieces| - 1 then DropOneCR(pieces[i]) else pieces[i])
  }

  function DropOneCR(s: string): (r: string)
    ensures s == r || s == r + [CR]
  {
    if s != [] && s[|s| - 1] == CR then s[..|s| - 1] else s
  }

  /** Lines written with CRLF separators split back into themselves. */
  lemma SplitLinesCRLF(lines: seq<string>)
    requires |lines| >= 1
    requires forall i :: 0 <= i < |lines| ==> LF !in lines[i] && CR !in lines[i]
    ensures SplitLines(JoinLF(seq(|lines|, i requires 0 <= i < |lines| =>
              if i < |lines| - 1 then lines[i] + [CR] else lines[i]))) == lines
  {
    var withCR := seq(|lines|, i requires 0 <= i < |lines| =>
      if i < |lines| - 1 then lines[i] + [CR] else lines[i]);
    forall i | 0 <= i < |withCR| ensures LF !in withCR[i] {
      if i < |lines| - 1 { assert withCR[i] == lines[i] + [CR]; }
    }
    SplitJoinLF(withCR);
    forall i | 0 <= i < |lines| - 1 ensures DropOneCR(withCR[i]) == lines[i] {
      assert withCR[i][..|withCR[i]| - 1] == lines[i];
    }
  }

  // ---------------------------------------------------------------------------
  // Decimal integers

  predicate IsDigit(c: char) { '0' <= c <= '9' }

  function DigitValue(c: char): (v: nat)
    requires IsDigit(c)
    ensures v < 10
  {
    c as int - '0' as int
  }

  function DigitChar(d: nat): (c: char)
    requires d < 10
    ensures IsDigit(c) && DigitValue(c) == d
  {
    (d + '0' as int) as char
  }

  predicate AllDigits(s: string) {
    forall i :: 0 <= i < |s| ==> IsDigit(s[i])
  }

  /** The value of a string of decimal digits, most significant first. */
  function DecimalValue(s: string): nat
    requires AllDigits(s)
  {
    if s == [] then 0 else 10 * DecimalValue(s[..|s| - 1]) + DigitValue(s[|s| - 1])
  }

  /** The length of the longest prefix of decimal digits. */
  function DigitPrefixLength(s: string): (n: nat)
    ensures n <= |s| && AllDigits(s[..n])
    ensures n < |s| ==> !IsDigit(s[n])
  {
    if s == [] || !IsDigit(s[0]) then 0
    else
      var n := 1 + DigitPrefixLength(s[1..]);
      assert s[..n] == [s[0]] + s[1..][..n - 1];
      n
  }

  /** `String(n)` for a non-negative integer: its shortest decimal spelling. */
  function NatToDecimal(n: nat): (s: string)
    ensures |s| >= 1 && AllDigits(s)
    ensures DecimalValue(s) == n
    ensures |s| > 1 ==> s[0] != '0'
  {
    if n < 10 then [DigitChar(n)]
    else
      var s := NatToDecimal(n / 10) + [DigitChar(n % 10)];
      assert s[..|s| - 1] == NatToDecimal(n / 10);
      s
  }

  /** `parseInt(s, 10)`: skip leading whitespace, read an optional sign and the longest
      run of decimal digits; `None` stands for `NaN` (no digit at all). */
  function ParseInt(s: string): (r: Option<int>)
    ensures r.None? <==> DigitPrefixLength(SkipSign(TrimStart(s))) == 0
  {
    var t := TrimStart(s);
    var negative := t != [] && t[0] == '-';
    var u := SkipSign(t);
    var n := DigitPrefixLength(u);
    if n == 0 then None
    else
      var v: int := DecimalValue(u[..n]);
      Some(if negative then -v else v)
  }

  function SkipSign(t: string): string {
    if t != [] && (t[0] == '-' || t[0] == '+') then t[1..] else t
  }

  /** `parseInt` reads back exactly the number `String(n)` wrote, with any whitespace
      in front and any non-digit text after it. */
  lemma ParseIntOfDecimal(n: nat, lead: string, trail: string)
    requires AllWhitespace(lead)
    requires trail == [] || !IsDigit(trail[0])
    ensures ParseInt(lead + NatToDecimal(n) + trail) == Some(n)
  {
    var d := NatToDecimal(n);
    var u := d + trail;
    assert u[0] == d[0] && IsDigit(d[0]);
    assert lead + d + trail == lead + u;
    TrimStartPast(lead, u);
    DigitPrefixOfDigits(d, trail);
    ParseIntOfUnsigned(lead + u, u, |d|);
    assert u[..|d|] == d;
  }

  /** Once the blanks are skipped, an unsigned run of `k` digits is read as its value. */
  lemma ParseIntOfUnsigned(s: string, u: string, k: nat)
    requires TrimStart(s) == u && u != [] && IsDigit(u[0])
    requires DigitPrefixLength(u) == k && k <= |u|
    ensures AllDigits(u[..k]) && ParseInt(s) == Some(DecimalValue(u[..k]) as int)
  {
    assert SkipSign(u) == u;
  }

  lemma {:induction false} TrimStartPast(lead: string, rest: string)
    requires AllWhitespace(lead)
    requires rest == [] || !IsJsWhitespace(rest[0])
    ensures TrimStart(lead + rest) == rest
  {
    if lead != [] {
      assert (lead + rest)[1..] == lead[1..] + rest;
      TrimStartPast(lead[1..], rest);
    } else {
      assert lead + rest == rest;
    }
  }

  lemma {:induction false} DigitPrefixOfDigits(d: string, trail: string)
    requires AllDigits(d)
    requires trail == [] || !IsDigit(trail[0])
    ensures DigitPrefixLength(d + trail) == |d|
  {
    if d != [] {
      assert (d + trail)[1..] == d[1..] + trail;
      DigitPrefixOfDigits(d[1..], trail);
    } else {
      assert d + trail == trail;
    }
  }
}

=== FILE: types.dfy ===
/** The configuration record of one QR code (`QrOptions`) and its parts, as declared
    in types.ts. Optional properties are `Option`s; `None` is an absent (undefined) key. */
module QrTypes {
  import opened Wrappers

  datatype GradientType = Linear | Radial

  datatype ColorStop = ColorStop(offset: real, color: string)

  datatype Gradient = Gradient(kind: GradientType, rotation: Option<real>, colorStops: seq<ColorStop>)

  datatype DotType = Rounded | Dots | Classy | ClassyRounded | SquareDots | ExtraRoundedDots

  /** Dot styling; `color` and `gradient` are alternatives, the gradient winning when set. */
  datatype DotOptions = DotOptions(dotType: DotType, color: Option<string>, gradient: Option<Gradient>)

  datatype BackgroundOptions = BackgroundOptions(color: string)

  datatype CornerSquareType = SquareCorner | DotCorner | ExtraRoundedCorner

  datatype CornersSquareOptions = CornersSquareOptions(cornerType: CornerSquareType, color: string)

  datatype CornerDotType = SquareCornerDot | DotCornerDot

  datatype CornersDotOptions = CornersDotOptions(cornerType: CornerDotType, color: string)

  /** The call-to-action banner drawn around the code in the preview only. */
  datatype FrameOptions = FrameOptions(
    text: Option<string>,
    textColor: Option<string>,
    backgroundColor: Option<string>,
    fontFamily: Option<string>,
    fontSize: Option<int>)

  /** QR error-correction levels, from lowest to highest redundancy. */
  datatype ErrorLevel = L | M | Q | H

  /** The `qrOptions` sub-record. */
  datatype QrSettings = QrSettings(errorCorrectionLevel: ErrorLevel)

  datatype Shape = SquareShape | CircleShape

  datatype QrOptions = QrOptions(
    width: int,
    height: int,
    data: string,
    image: Option<string>,
    shape: Shape,
    dotsOptions: DotOptions,
    backgroundOptions: BackgroundOptions,
    cornersSquareOptions: Option<CornersSquareOptions>,
    cornersDotOptions: Option<CornersDotOptions>,
    frameOptions: Option<FrameOptions>,
    qrOptions: Option<QrSettings>)

  /** `Partial<QrOptions>`: a record whose every key may be absent, as produced by parsing
      a shared style or written in a design template. Spreading it over a configuration
      (`{ ...prev, ...patch }`) replaces exactly the keys it carries. */
  datatype Patch = Patch(
    width: Option<int>,
    height: Option<int>,
    data: Option<string>,
    image: Option<string>,
    shape: Option<Shape>,
    dotsOptions: Option<DotOptions>,
    backgroundOptions: Option<BackgroundOptions>,
    cornersSquareOptions: Option<CornersSquareOptions>,
    cornersDotOptions: Option<CornersDotOptions>,
    frameOptions: Option<FrameOptions>,
    qrOptions: Option<QrSettings>)

  const EmptyPatch := Patch(None, None, None, None, None, None, None, None, None, None, None)

  /** `Partial<Omit<QrOptions, 'data' | 'width' | 'height' | 'image'>>`: the options of a
      design template can never carry content, size or logo. */
  type StyleOnlyPatch = p: Patch | p.data.None? && p.width.None? && p.height.None? && p.image.None?
    witness EmptyPatch

  /** `{ ...prev, ...patch }`: every key the patch carries replaces the previous value
      wholesale; every other key keeps its previous value. */
  function Spread(prev: QrOptions, patch: Patch): (r: QrOptions)
    ensures patch == EmptyPatch ==> r == prev
    ensures patch.data.Some? ==> r.data == patch.data.value
    ensures patch.data.None? ==> r.data == prev.data
    ensures patch.width.Some? ==> r.width == patch.width.value
    ensures patch.height.Some? ==> r.height == patch.height.value
    ensures patch.width.None? ==> r.width == prev.width
    ensures patch.height.None? ==> r.height == prev.height
    ensures patch.image.Some? ==> r.image == patch.image
    ensures patch.image.None? ==> r.image == prev.image
    ensures patch.shape.Some? ==> r.shape == patch.shape.value
    ensures patch.shape.None? ==> r.shape == prev.shape
    ensures patch.dotsOptions.Some? ==> r.dotsOptions == patch.dotsOptions.value
    ensures patch.dotsOptions.None? ==> r.dotsOptions == prev.dotsOptions
    ensures patch.backgroundOptions.Some? ==> r.backgroundOptions == patch.backgroundOptions.value
    ensures patch.backgroundOptions.None? ==> r.backgroundOptions == prev.backgroundOptions
    ensures patch.cornersSquareOptions.Some? ==> r.cornersSquareOptions == patch.cornersSquareOptions
    ensures patch.cornersSquareOptions.None? ==> r.cornersSquareOptions == prev.cornersSquareOptions
    ensures patch.cornersDotOptions.Some? ==> r.cornersDotOptions == patch.cornersDotOptions
    ensures patch.cornersDotOptions.None? ==> r.cornersDotOptions == prev.cornersDotOptions
    ensures patch.frameOptions.Some? ==> r.frameOptions == patch.frameOptions
    ensures patch.frameOptions.None? ==> r.frameOptions == prev.frameOptions
    ensures patch.qrOptions.Some? ==> r.qrOptions == patch.qrOptions
    ensures patch.qrOptions.None? ==> r.qrOptions == prev.qrOptions
  {
    QrOptions(
      width := patch.width.GetOr(prev.width),
      height := patch.height.GetOr(prev.height),
      data := patch.data.GetOr(prev.data),
      image := patch.image.Or(prev.image),
      shape := patch.shape.GetOr(prev.shape),
      dotsOptions := patch.dotsOptions.GetOr(prev.dotsOptions),
      backgroundOptions := patch.backgroundOptions.GetOr(prev.backgroundOptions),
      cornersSquareOptions := patch.cornersSquareOptions.Or(prev.cornersSquareOptions),
      cornersDotOptions := patch.cornersDotOptions.Or(prev.cornersDotOptions),
      frameOptions := patch.frameOptions.Or(prev.frameOptions),
      qrOptions := patch.qrOptions.Or(prev.qrOptions))
  }

  /** The error-correction level in force: `qrOptions?.errorCorrectionLevel || 'Q'`. */
  function EffectiveLevel(o: QrOptions): (level: ErrorLevel)
    ensures o.qrOptions.None? ==> level == Q
    ensures o.qrOptions.Some? ==> level == o.qrOptions.value.errorCorrectionLevel
  {
    match o.qrOptions
    case Some(settings) => settings.errorCorrectionLevel
    case None => Q
  }

  /** `!!options.image`: a logo is present when the image is set and not the empty string. */
  predicate HasLogo(o: QrOptions) {
    o.image.Some? && o.image.value != ""
  }
}

=== FILE: uri.dfy ===
/** `encodeURIComponent` and its inverse `decodeURIComponent`, as the email form uses
    them: each character outside the unreserved set is written as the percent-encoded
    bytes of its UTF-8 form (section 2.1 of RFC 3986, section 3 of RFC 3629). */
module Uri {
  import opened Wrappers
  import Color

  /** A byte value. */
  type Byte = b: int | 0 <= b < 256

  // ---------------------------------------------------------------------------
  // UTF-8

  /** A Unicode scalar value: every code point except the surrogates. */
  predicate IsScalar(cp: int) {
    (0 <= cp < 0xD800) || (0xE000 <= cp < 0x11_0000)
  }

  /** The UTF-8 bytes of one character: one to four bytes by code-point range. */
  function Utf8Char(c: char): (bytes: seq<Byte>)
    ensures 1 <= |bytes| <= 4
  {
    var cp := c as int;
    if cp < 0x80 then [cp]
    else if cp < 0x800 then [0xC0 + cp / 64, 0x80 + cp % 64]
    else if cp < 0x1_0000 then [0xE0 + cp / 4096, 0x80 + (cp / 64) % 64, 0x80 + cp % 64]
    else [0xF0 + cp / 262144, 0x80 + (cp / 4096) % 64, 0x80 + (cp / 64) % 64, 0x80 + cp % 64]
  }

  function Utf8(s: string): seq<Byte> {
    if s == [] then [] else Utf8Char(s[0]) + Utf8(s[1..])
  }

  predicate IsContinuation(b: Byte) {
    0x80 <= b < 0xC0
  }

  /** Decodes the first character of a byte sequence: the character and the number of
      bytes it took. Overlong forms, surrogates and values past U+10FFFF are rejected. */
  function DecodeChar(b: seq<Byte>): (r: Option<(char, nat)>)
    requires b != []
    ensures r.Some? ==> 1 <= r.value.1 <= |b|
  {
    var b0, b1, b2, b3: int := b[0], if |b| > 1 then b[1] else 0, if |b| > 2 then b[2] else 0, if |b| > 3 then b[3] else 0;
    if b0 < 0x80 then Some((b0 as char, 1))
    else if 0xC0 <= b0 < 0xE0 && |b| >= 2 && IsContinuation(b[1]) then
      var cp := (b0 - 0xC0) * 64 + (b1 - 0x80);
      if cp >= 0x80 then Some((cp as char, 2)) else None
    else if 0xE0 <= b0 < 0xF0 && |b| >= 3 && IsContinuation(b[1]) && IsContinuation(b[2]) then
      var cp := (b0 - 0xE0) * 4096 + (b1 - 0x80) * 64 + (b2 - 0x80);
      if cp >= 0x800 && IsScalar(cp) then Some((cp as char, 3)) else None
    else if 0xF0 <= b0 < 0xF8 && |b| >= 4 && IsContinuation(b[1]) && IsContinuation(b[2]) && IsContinuation(b[3]) then
      var cp := (b0 - 0xF0) * 262144 + (b1 - 0x80) * 4096 + (b2 - 0x80) * 64 + (b3 - 0x80);
      if 0x1_0000 <= cp < 0x11_0000 then Some((cp as char, 4)) else None
    else None
  }

  /** Decodes a whole byte sequence; `None` when it is not well-formed UTF-8. */
  function Utf8Decode(b: seq<Byte>): Option<string>
    decreases |b|
  {
    if b == [] then Some([])
    else match DecodeChar(b)
      case None => None
      case Some(cn) =>
        match Utf8Decode(b[cn.1..])
        case None => None
        case Some(rest) => Some([cn.0] + rest)
  }

  lemma DecodeCharOfEncoded(c: char, rest: seq<Byte>)
    ensures DecodeChar(Utf8Char(c) + rest) == Some((c, |Utf8Char(c)|))
  {
    var cp := c as int;
    if cp < 0x80 {
    } else if cp < 0x800 {
      DecodeTwoBytes(c, rest);
    } else if cp < 0x1_0000 {
      DecodeThreeBytes(c, rest);
    } else {
      DecodeFourBytes(c, rest);
    }
  }

  lemma DecodeTwoBytes(c: char, rest: seq<Byte>)
    requires 0x80 <= c as int < 0x800
    ensures DecodeChar(Utf8Char(c) + rest) == Some((c, 2))
  {
    var cp := c as int;
    var hi, lo := cp / 64, cp % 64;
    var b := Utf8Char(c) + rest;
    assert b[0] == 0xC0 + hi && b[1] == 0x80 + lo;
    assert hi * 64 + lo == cp;
  }

  lemma DecodeThreeBytes(c: char, rest: seq<Byte>)
    requires 0x800 <= c as int < 0x1_0000
    ensures DecodeChar(Utf8Char(c) + rest) == Some((c, 3))
  {
    var cp := c as int;
    var hi, mid, lo := cp / 4096, (cp / 64) % 64, cp % 64;
    SplitSixBits(cp);
    var b := Utf8Char(c) + rest;
    assert b[0] == 0xE0 + hi && b[1] == 0x80 + mid && b[2] == 0x80 + lo;
    assert hi * 4096 + mid * 64 + lo == cp;
  }

  lemma DecodeFourBytes(c: char, rest: seq<Byte>)
    requires 0x1_0000 <= c as int
    ensures DecodeChar(Utf8Char(c) + rest) == Some((c, 4))
  {
    var top, hi, mid, lo := FourByteParts(c);
    var b := Utf8Char(c) + rest;
    assert b[0] == 0xF0 + top && b[1] == 0x80 + hi && b[2] == 0x80 + mid && b[3] == 0x80 + lo;
  }

  /** The four groups of bits a supplementary character is split into. */
  lemma FourByteParts(c: char) returns (top: nat, hi: nat, mid: nat, lo: nat)
    requires 0x1_0000 <= c as int
    ensures top < 5 && hi < 64 && mid < 64 && lo < 64
    ensures Utf8Char(c) == [0xF0 + top, 0x80 + hi, 0x80 + mid, 0x80 + lo]
    ensures top * 262144 + hi * 4096 + mid * 64 + lo == c as int
  {
    var cp := c as int;
    top, hi, mid, lo := cp / 262144, (cp / 4096) % 64, (cp / 64) % 64, cp % 64;
    SplitSixBits(cp);
    SplitSixBits(cp / 64);
  }

  /** Splitting off six bits twice: `n == (n / 4096) * 4096 + ((n / 64) % 64) * 64 + n % 64`. */
  lemma SplitSixBits(n: nat)
    ensures n / 4096 == (n / 64) / 64
    ensures n == (n / 4096) * 4096 + ((n / 64) % 64) * 64 + n % 64
  {
    var q := n / 64;
    assert n == q * 64 + n % 64;
    assert q == (q / 64) * 64 + q % 64;
    assert n == (q / 64) * 4096 + (q % 64) * 64 + n % 64;
  }

  /** UTF-8 loses nothing: decoding the bytes of a string gives the string back. */
  lemma {:induction false} Utf8RoundTrip(s: string)
    ensures Utf8Decode(Utf8(s)) == Some(s)
  {
    if s != [] {
      Utf8RoundTrip(s[1..]);
      var b := Utf8(s);
      DecodeCharOfEncoded(s[0], Utf8(s[1..]));
      assert b[|Utf8Char(s[0])|..] == Utf8(s[1..]);
      assert [s[0]] + s[1..] == s;
    }
  }

  lemma {:induction false} Utf8Concat(a: string, b: string)
    ensures Utf8(a + b) == Utf8(a) + Utf8(b)
  {
    if a != [] {
      assert (a + b)[0] == a[0];
      assert (a + b)[1..] == a[1..] + b;
      Utf8Concat(a[1..], b);
    } else {
      assert a + b == b;
    }
  }

  // ---------------------------------------------------------------------------
  // Percent-encoding

  /** The characters `encodeURIComponent` leaves alone: `A-Z a-z 0-9 - _ . ! ~ * ' ( )`. */
  predicate IsUnreserved(c: char) {
    ('A' <= c <= 'Z') || ('a' <= c <= 'z') || ('0' <= c <= '9')
    || c == '-' || c == '_' || c == '.' || c == '!' || c == '~' || c == '*' || c == '\'' || c == '(' || c == ')'
  }

  /** Upper-case hexadecimal digit of a value below 16. */
  function UpperHexDigit(v: nat): (c: char)
    requires v < 16
    ensures Color.IsHexDigit(c) && Color.HexValue(c) == v && IsUnreserved(c)
  {
    if v < 10 then ('0' as int + v) as char else ('A' as int + v - 10) as char
  }

  /** `%XX` with upper-case hexadecimal digits. */
  function PercentByte(b: Byte): (r: string)
    ensures |r| == 3 && r[0] == '%'
  {
    ['%', UpperHexDigit(b / 16), UpperHexDigit(b % 16)]
  }

  function PercentBytes(bs: seq<Byte>): string {
    if bs == [] then [] else PercentByte(bs[0]) + PercentBytes(bs[1..])
  }

  /** Only unreserved characters and `%` appear in an encoded string. */
  predicate EncodedAlphabet(t: string) {
    forall i :: 0 <= i < |t| ==> IsUnreserved(t[i]) || t[i] == '%'
  }

  lemma EncodedAlphabetConcat(a: string, b: string)
    requires EncodedAlphabet(a) && EncodedAlphabet(b)
    ensures EncodedAlphabet(a + b)
  {
    forall i | 0 <= i < |a + b|
      ensures IsUnreserved((a + b)[i]) || (a + b)[i] == '%'
    {
      if i >= |a| {
        assert (a + b)[i] == b[i - |a|];
      }
    }
  }

  lemma {:induction false} PercentBytesAlphabet(bs: seq<Byte>)
    ensures EncodedAlphabet(PercentBytes(bs))
  {
    if bs != [] {
      PercentBytesAlphabet(bs[1..]);
      EncodedAlphabetConcat(PercentByte(bs[0]), PercentBytes(bs[1..]));
    }
  }

  function EncodeChar(c: char): (r: string)
    ensures EncodedAlphabet(r)
  {
    if IsUnreserved(c) then [c]
    else
      PercentBytesAlphabet(Utf8Char(c));
      PercentBytes(Utf8Char(c))
  }

  /** `encodeURIComponent(s)`. Every Dafny character is a Unicode scalar value, so the
      lone-surrogate case in which the built-in throws cannot arise. */
  function EncodeComponent(s: string): (r: string)
    ensures EncodedAlphabet(r)
  {
    if s == [] then []
    else
      var r := EncodeChar(s[0]) + EncodeComponent(s[1..]);
      EncodedAlphabetConcat(EncodeChar(s[0]), EncodeComponent(s[1..]));
      r
  }

  /** A string of unreserved characters is left as it is. */
  lemma {:induction false} EncodeUnreserved(s: string)
    requires forall i :: 0 <= i < |s| ==> IsUnreserved(s[i])
    ensures EncodeComponent(s) == s
  {
    if s != [] {
      assert forall i :: 0 <= i < |s[1..]| ==> IsUnreserved(s[1..][i]) by {
        forall i | 0 <= i < |s[1..]| ensures IsUnreserved(s[1..][i]) { assert s[1..][i] == s[i + 1]; }
      }
      EncodeUnreserved(s[1..]);
      assert [s[0]] + s[1..] == s;
    }
  }

  /** A few concrete encodings: space is `%20` (never `+`) and the query separators are
      encoded. */
  lemma EncodeExamples()
    ensures EncodeChar(' ') == "%20"
    ensures EncodeChar('&') == "%26" && EncodeChar('=') == "%3D" && EncodeChar('?') == "%3F"
  {
    EncodeAscii(' ');
    EncodeAscii('&');
    EncodeAscii('=');
    EncodeAscii('?');
  }

  /** A reserved ASCII character becomes the one triple of its code. */
  lemma EncodeAscii(c: char)
    requires (c as int) < 0x80 && !IsUnreserved(c)
    ensures EncodeChar(c) == PercentByte(c as int)
  {
    var b := c as int;
    assert Utf8Char(c) == [b];
    assert PercentBytes([b]) == PercentByte(b) + PercentBytes([]);
    assert PercentByte(b) + [] == PercentByte(b);
  }

  /** A non-ASCII letter becomes its two UTF-8 bytes. */
  lemma EncodeNonAscii()
    ensures EncodeChar('\U{0103}') == "%C4%83"
  {
    assert Utf8Char('\U{0103}') == [0xC4, 0x83];
    assert PercentBytes([0xC4, 0x83]) == PercentByte(0xC4) + PercentBytes([0x83]);
  }

  // ---------------------------------------------------------------------------
  // Decoding

  /** The bytes a component stands for: `%XX` is one byte, any other character stands
      for its own UTF-8 bytes. `None` when a `%` is not followed by two hex digits. */
  function ComponentBytes(t: string): Option<seq<Byte>>
    decreases |t|
  {
    if t == [] then Some([])
    else if t[0] == '%' then
      if |t| >= 3 && Color.IsHexDigit(t[1]) && Color.IsHexDigit(t[2]) then
        match ComponentBytes(t[3..])
        case None => None
        case Some(rest) => Some([Color.HexValue(t[1]) * 16 + Color.HexValue(t[2])] + rest)
      else None
    else
      match ComponentBytes(t[1..])
      case None => None
      case Some(rest) => Some(Utf8Char(t[0]) + rest)
  }

  /** `decodeURIComponent(t)`; `None` where the built-in throws `URIError`. */
  function DecodeComponent(t: string): Option<string> {
    match ComponentBytes(t)
    case None => None
    case Some(bytes) => Utf8Decode(bytes)
  }

  lemma {:induction false} ComponentBytesOfPercent(bs: seq<Byte>, rest: string, restBytes: seq<Byte>)
    requires ComponentBytes(rest) == Some(restBytes)
    ensures ComponentBytes(PercentBytes(bs) + rest) == Some(bs + restBytes)
  {
    if bs != [] {
      ComponentBytesOfPercent(bs[1..], rest, restBytes);
      var tail := PercentBytes(bs[1..]) + rest;
      ComponentBytesOfByte(bs[0], tail, bs[1..] + restBytes);
      Regroup3(PercentByte(bs[0]), PercentBytes(bs[1..]), rest);
      Regroup3([bs[0]], bs[1..], restBytes);
      assert [bs[0]] + bs[1..] == bs;
    } else {
      assert PercentBytes(bs) + rest == rest;
      assert bs + restBytes == restBytes;
    }
  }

  /** One `%XX` triple reads back as its byte. */
  lemma ComponentBytesOfByte(b: Byte, tail: string, tailBytes: seq<Byte>)
    requires ComponentBytes(tail) == Some(tailBytes)
    ensures ComponentBytes(PercentByte(b) + tail) == Some([b] + tailBytes)
  {
    var t := PercentByte(b) + tail;
    assert t[0] == '%' && t[1] == UpperHexDigit(b / 16) && t[2] == UpperHexDigit(b % 16);
    assert t[3..] == tail;
    assert Color.HexValue(t[1]) * 16 + Color.HexValue(t[2]) == b;
  }

  lemma Regroup3<T>(x: seq<T>, y: seq<T>, z: seq<T>)
    ensures x + y + z == x + (y + z)
  {
  }

  lemma {:induction false} ComponentBytesOfEncoded(s: string)
    ensures ComponentBytes(EncodeComponent(s)) == Some(Utf8(s))
  {
    if s != [] {
      ComponentBytesOfEncoded(s[1..]);
      var tail := EncodeComponent(s[1..]);
      var c := s[0];
      if IsUnreserved(c) {
        var t := [c] + tail;
        assert EncodeComponent(s) == t;
        assert t[1..] == tail;
      } else {
        ComponentBytesOfPercent(Utf8Char(c), tail, Utf8(s[1..]));
      }
    }
  }

  /** The component encoding is lossless: `decodeURIComponent(encodeURIComponent(s)) == s`. */
  lemma DecodeEncode(s: string)
    ensures DecodeComponent(EncodeComponent(s)) == Some(s)
  {
    ComponentBytesOfEncoded(s);
    Utf8RoundTrip(s);
  }
}

=== FILE: vcard.dfy ===
/** The contact-card payload in vCard 3.0 form (components/VCardForm.tsx). */
module VCardEncoder {
  import opened Wrappers
  import opened Text

  datatype VCardForm = VCardForm(
    firstName: string,
    lastName: string,
    title: string,
    phone: string,
    workPhone: string,
    email: string,
    company: string,
    website: string,
    address: string)

  const InitialForm := VCardForm("", "", "", "", "", "", "", "", "")

  // ---------------------------------------------------------------------------
  // Property-value escaping, in the style of section 3.4 of RFC 6350

  /** The characters the first pass `/([,;\\])/g` matches. */
  predicate IsStructural(c: char) {
    c == ',' || c == ';' || c == '\\'
  }

  /** First pass: a backslash in front of every comma, semicolon and backslash. */
  function EscapeStructural(s: string): string {
    if s == [] then []
    else (if IsStructural(s[0]) then ['\\', s[0]] else [s[0]]) + EscapeStructural(s[1..])
  }

  /** Second pass `/\n/g -> '\\n'`: every line feed becomes the two characters `\` `n`. */
  function EscapeNewlines(s: string): string {
    if s == [] then []
    else (if s[0] == LF then ['\\', 'n'] else [s[0]]) + EscapeNewlines(s[1..])
  }

  /** The form's `escape` helper: the two passes one after the other. Together they
      escape each character on its own, adding one backslash per comma, semicolon,
      backslash and line feed. */
  function Escape(s: string): (r: string)
    ensures r == EscapeEach(s)
    ensures |r| == |s| + EscapedCount(s)
  {
    EscapeIsPerCharacter(s);
    EscapeNewlines(EscapeStructural(s))
  }

  /** The number of characters escaping rewrites into two. */
  function EscapedCount(s: string): nat {
    if s == [] then 0 else (if IsStructural(s[0]) || s[0] == LF then 1 else 0) + EscapedCount(s[1..])
  }

  /** What one character becomes under escaping. */
  function EscapeChar(c: char): (r: string)
    ensures LF !in r
  {
    if IsStructural(c) then ['\\', c] else if c == LF then ['\\', 'n'] else [c]
  }

  /** The reference escape: each character replaced independently, in order. */
  function EscapeEach(s: string): (r: string)
    ensures LF !in r
    ensures |r| == |s| + EscapedCount(s)
  {
    if s == [] then [] else EscapeChar(s[0]) + EscapeEach(s[1..])
  }

  lemma {:induction false} EscapeNewlinesConcat(a: string, b: string)
    ensures EscapeNewlines(a + b) == EscapeNewlines(a) + EscapeNewlines(b)
  {
    if a != [] {
      assert (a + b)[0] == a[0];
      assert (a + b)[1..] == a[1..] + b;
      EscapeNewlinesConcat(a[1..], b);
    } else {
      assert a + b == b;
    }
  }

  /** The two regex passes together escape each character independently: the backslashes
      inserted by the first pass are never touched by the second. */
  lemma {:induction false} EscapeIsPerCharacter(s: string)
    ensures EscapeNewlines(EscapeStructural(s)) == EscapeEach(s)
  {
    if s != [] {
      EscapeIsPerCharacter(s[1..]);
      var head := if IsStructural(s[0]) then ['\\', s[0]] else [s[0]];
      EscapeNewlinesConcat(head, EscapeStructural(s[1..]));
      assert EscapeNewlines(head) == EscapeChar(s[0]);
    }
  }

  /** An escaped value never contains a line feed, so it stays on one content line. */
  lemma EscapeHasNoLineFeed(s: string)
    ensures LF !in Escape(s)
  {
    EscapeIsPerCharacter(s);
  }

  /** Reverses the escape: `\n` to a line feed, `\,` `\;` `\\` to the bare character. */
  function Unescape(t: string): string
    decreases |t|
  {
    if t == [] then []
    else if |t| >= 2 && t[0] == '\\' && t[1] == 'n' then [LF] + Unescape(t[2..])
    else if |t| >= 2 && t[0] == '\\' && IsStructural(t[1]) then [t[1]] + Unescape(t[2..])
    else [t[0]] + Unescape(t[1..])
  }

  lemma {:induction false} UnescapeEscapeEach(s: string)
    ensures Unescape(EscapeEach(s)) == s
  {
    if s != [] {
      UnescapeEscapeEach(s[1..]);
      var e := EscapeEach(s[1..]);
      var h := EscapeChar(s[0]);
      if |h| == 2 {
        assert (h + e)[2..] == e;
      } else {
        assert (h + e)[1..] == e;
      }
      assert [s[0]] + s[1..] == s;
    }
  }

  /** Escaping loses nothing: unescaping recovers the field. */
  lemma UnescapeEscape(s: string)
    ensures Unescape(Escape(s)) == s
  {
    EscapeIsPerCharacter(s);
    UnescapeEscapeEach(s);
  }

  // ---------------------------------------------------------------------------
  // Line assembly

  /** The optional properties, in emission order: TITLE, ORG, mobile TEL, work TEL,
      EMAIL, URL and ADR (the address goes in the street component). */
  const OptionalPrefixes: seq<string> :=
    ["TITLE:", "ORG:", "TEL;TYPE=CELL:", "TEL;TYPE=WORK,VOICE:", "EMAIL:", "URL:", "ADR;TYPE=WORK:;;"]
  const OptionalSuffixes: seq<string> := ["", "", "", "", "", "", ";;;;"]
  const OptionalCount := 7

  /** The optional fields' values, in the same order as their prefixes. */
  function OptionalValues(f: VCardForm): (vals: seq<string>)
    ensures |vals| == OptionalCount
  {
    [f.title, f.company, f.phone, f.workPhone, f.email, f.website, f.address]
  }

  function OptionalLine(k: nat, value: string): string
    requires k < OptionalCount
  {
    OptionalPrefixes[k] + Escape(value) + OptionalSuffixes[k]
  }

  /** How many of the values from index `k` on are non-empty. */
  function NonEmptyFrom(vals: seq<string>, k: nat): (n: nat)
    requires k <= |vals|
    decreases |vals| - k
  {
    if k == |vals| then 0 else (if vals[k] != "" then 1 else 0) + NonEmptyFrom(vals, k + 1)
  }

  /** `if (value) lines.push(...)` for the optional properties from index `k` on. */
  function OptionalLines(vals: seq<string>, k: nat): (lines: seq<string>)
    requires |vals| == OptionalCount && k <= OptionalCount
    ensures |lines| == NonEmptyFrom(vals, k)
    decreases OptionalCount - k
  {
    if k == OptionalCount then []
    else
      var rest := OptionalLines(vals, k + 1);
      if vals[k] == "" then rest else [OptionalLine(k, vals[k])] + rest
  }

  /** An optional line never contains a line feed, whatever its value. */
  lemma {:induction false} OptionalLinesHaveNoLineFeed(vals: seq<string>, k: nat)
    requires |vals| == OptionalCount && k <= OptionalCount
    ensures forall i :: 0 <= i < |OptionalLines(vals, k)| ==> LF !in OptionalLines(vals, k)[i]
    decreases OptionalCount - k
  {
    if k < OptionalCount {
      OptionalLinesHaveNoLineFeed(vals, k + 1);
      if vals[k] != "" {
        OptionalLineHasNoLineFeed(k, vals[k]);
        LinesWithoutLineFeedConcat([OptionalLine(k, vals[k])], OptionalLines(vals, k + 1));
      }
    }
  }

  lemma OptionalLineHasNoLineFeed(k: nat, value: string)
    requires k < OptionalCount
    ensures LF !in OptionalLine(k, value)
  {
    AffixesHaveNoLineFeed(k);
  }

  lemma AffixesHaveNoLineFeed(k: nat)
    requires k < OptionalCount
    ensures LF !in OptionalPrefixes[k] && LF !in OptionalSuffixes[k]
  {
  }

  function NameLine(f: VCardForm): string {
    "N:" + Escape(f.lastName) + ";" + Escape(f.firstName) + ";;;"
  }

  function FormattedNameLine(f: VCardForm): string {
    "FN:" + Escape(f.firstName) + " " + Escape(f.lastName)
  }

  /** The content lines of the card, in order. */
  function Lines(f: VCardForm): (lines: seq<string>)
    ensures |lines| == 5 + NonEmptyFrom(OptionalValues(f), 0)
    ensures lines[0] == "BEGIN:VCARD" && lines[1] == "VERSION:3.0"
    ensures lines[|lines| - 1] == "END:VCARD"
  {
    var head := ["BEGIN:VCARD", "VERSION:3.0", NameLine(f), FormattedNameLine(f)];
    head + OptionalLines(OptionalValues(f), 0) + ["END:VCARD"]
  }

  /** No field value can put a line feed inside a line. */
  lemma LinesHaveNoLineFeed(f: VCardForm)
    ensures forall i :: 0 <= i < |Lines(f)| ==> LF !in Lines(f)[i]
  {
    var head := ["BEGIN:VCARD", "VERSION:3.0", NameLine(f), FormattedNameLine(f)];
    var optional := OptionalLines(OptionalValues(f), 0);
    FixedLinesHaveNoLineFeed();
    HeadLinesHaveNoLineFeed(f);
    OptionalLinesHaveNoLineFeed(OptionalValues(f), 0);
    FourLinesWithoutLineFeed("BEGIN:VCARD", "VERSION:3.0", NameLine(f), FormattedNameLine(f));
    LinesWithoutLineFeedConcat(head, optional);
    LinesWithoutLineFeedConcat(head + optional, ["END:VCARD"]);
  }

  lemma FixedLinesHaveNoLineFeed()
    ensures LF !in "BEGIN:VCARD" && LF !in "VERSION:3.0" && LF !in "END:VCARD"
  {
    assert LF !in "BEGIN:VCARD";
    assert LF !in "VERSION:3.0";
    assert LF !in "END:VCARD";
  }

  lemma FourLinesWithoutLineFeed(a: string, b: string, c: string, d: string)
    requires LF !in a && LF !in b && LF !in c && LF !in d
    ensures forall i :: 0 <= i < |[a, b, c, d]| ==> LF !in [a, b, c, d][i]
  {
  }

  lemma HeadLinesHaveNoLineFeed(f: VCardForm)
    ensures LF !in NameLine(f) && LF !in FormattedNameLine(f)
  {
    EscapeHasNoLineFeed(f.firstName);
    EscapeHasNoLineFeed(f.lastName);
  }

  /** `lines.join('\n')`. */
  function Payload(f: VCardForm): (p: string)
    ensures SplitLF(p) == Lines(f)
  {
    LinesHaveNoLineFeed(f);
    SplitJoinLF(Lines(f));
    JoinLF(Lines(f))
  }

  /** The empty form still carries the name lines (with `FN: `), and no optional line. */
  lemma InitialPayload()
    ensures Lines(InitialForm) == ["BEGIN:VCARD", "VERSION:3.0", "N:;;;;", "FN: ", "END:VCARD"]
  {
    var f := InitialForm;
    assert Escape("") == "";
    assert NameLine(f) == "N:;;;;";
    assert FormattedNameLine(f) == "FN: ";
    NoOptionalLines(OptionalValues(f), 0);
  }

  lemma {:induction false} NoOptionalLines(vals: seq<string>, k: nat)
    requires |vals| == OptionalCount && k <= OptionalCount
    requires forall i :: k <= i < OptionalCount ==> vals[i] == ""
    ensures OptionalLines(vals, k) == []
    decreases OptionalCount - k
  {
    if k < OptionalCount {
      NoOptionalLines(vals, k + 1);
    }
  }

  // ---------------------------------------------------------------------------
  // Reading a card back

  /** Reads one escaped component up to its unescaped `;`. */
  function ReadComponent(t: string): Option<(string, string)>
    decreases |t|
  {
    if t == [] then None
    else if t[0] == ';' then Some(([], t[1..]))
    else if |t| >= 2 && t[0] == '\\' && (t[1] == 'n' || IsStructural(t[1])) then
      match ReadComponent(t[2..])
      case None => None
      case Some(vr) => Some((Unescape(t[..2]) + vr.0, vr.1))
    else
      match ReadComponent(t[1..])
      case None => None
      case Some(vr) => Some(([t[0]] + vr.0, vr.1))
  }

  lemma {:induction false} ReadEscapedComponent(s: string, rest: string)
    ensures ReadComponent(EscapeEach(s) + ";" + rest) == Some((s, rest))
  {
    if s == [] {
      assert EscapeEach(s) + ";" + rest == [';'] + rest;
    } else {
      ReadEscapedComponent(s[1..], rest);
      var tail := EscapeEach(s[1..]) + ";" + rest;
      ReadComponentStep(s[0], tail, s[1..], rest);
      Regroup3(EscapeChar(s[0]), EscapeEach(s[1..]), ";" + rest);
      Regroup3(EscapeEach(s), ";", rest);
      Regroup3(EscapeEach(s[1..]), ";", rest);
      assert [s[0]] + s[1..] == s;
    }
  }

  /** One escaped character in front of a component adds that character to its value. */
  lemma ReadComponentStep(c: char, tail: string, v: string, r: string)
    requires ReadComponent(tail) == Some((v, r))
    ensures ReadComponent(EscapeChar(c) + tail) == Some(([c] + v, r))
  {
    var h := EscapeChar(c);
    var t := h + tail;
    if |h| == 2 {
      assert t[0] == '\\' && t[1] == h[1] && t[..2] == h && t[2..] == tail;
      assert Unescape(h) == [c];
    } else {
      assert t[0] == c && t[1..] == tail;
    }
  }

  lemma Regroup3<T>(x: seq<T>, y: seq<T>, z: seq<T>)
    ensures x + y + z == x + (y + z)
  {
  }

  /** Parses the `N:` line into (last name, first name). */
  function ReadNameLine(line: string): Option<(string, string)> {
    if !("N:" <= line) then None
    else match ReadComponent(line[2..])
      case None => None
      case Some(lr) =>
        match ReadComponent(lr.1)
        case None => None
        case Some(fr) => if fr.1 == ";;" then Some((lr.0, fr.0)) else None
  }

  lemma ReadNameLineOf(f: VCardForm)
    ensures ReadNameLine(NameLine(f)) == Some((f.lastName, f.firstName))
  {
    var line := NameLine(f);
    EscapeIsPerCharacter(f.lastName);
    EscapeIsPerCharacter(f.firstName);
    var afterLast := EscapeEach(f.firstName) + ";" + ";;";
    assert ";;;" == ";" + ";;";
    RegroupName("N:", EscapeEach(f.lastName), ";", EscapeEach(f.firstName), ";", ";;");
    assert line[2..] == EscapeEach(f.lastName) + ";" + afterLast;
    ReadEscapedComponent(f.lastName, afterLast);
    ReadEscapedComponent(f.firstName, ";;");
  }

  lemma RegroupName<T>(a: seq<T>, l: seq<T>, b: seq<T>, r: seq<T>, c: seq<T>, d: seq<T>)
    ensures a + l + b + r + (c + d) == a + (l + b + (r + c + d))
  {
  }

  /** Two fixed prefixes that disagree at some position. */
  predicate Incomparable(a: string, b: string) {
    exists i :: 0 <= i < |a| && i < |b| && a[i] != b[i]
  }

  lemma IncomparableNotPrefix(a: string, b: string, x: string)
    requires Incomparable(a, b)
    ensures !(a <= b + x)
  {
    var i :| 0 <= i < |a| && i < |b| && a[i] != b[i];
    assert (b + x)[i] == b[i];
  }

  /** Every optional prefix disagrees with every later prefix and with the END line. */
  lemma OptionalPrefixesIncomparable(k: nat, j: nat)
    requires k < j <= OptionalCount
    ensures Incomparable(OptionalPrefixes[k], if j == OptionalCount then "END:VCARD" else OptionalPrefixes[j])
  {
    var a := OptionalPrefixes[k];
    var b := if j == OptionalCount then "END:VCARD" else OptionalPrefixes[j];
    if (k == 0 && j == 2) || (k == 0 && j == 3) || (k == 4 && j == 7) {
      assert a[1] != b[1];
    } else if k == 2 && j == 3 {
      assert a[9] != b[9];
    } else {
      assert a[0] != b[0];
    }
  }

  /** Any two distinct optional prefixes disagree at some position. */
  lemma DistinctPrefixesIncomparable(k: nat, j: nat)
    requires k < OptionalCount && j < OptionalCount && k != j
    ensures Incomparable(OptionalPrefixes[k], OptionalPrefixes[j])
  {
    var a, b := OptionalPrefixes[k], OptionalPrefixes[j];
    if (k == 0 || k == 2 || k == 3) && (j == 0 || j == 2 || j == 3) {
      if k == 0 || j == 0 {
        assert a[1] != b[1];
      } else {
        assert a[9] != b[9];
      }
    } else {
      assert a[0] != b[0];
    }
  }

  /** The starts of the mandatory lines: BEGIN, VERSION, N, FN and END. */
  const FixedStarts: seq<string> := ["BEGIN:VCARD", "VERSION:3.0", "N:", "FN:", "END:VCARD"]

  lemma FixedStartsIncomparable(k: nat, j: nat)
    requires k < OptionalCount && j < |FixedStarts|
    ensures Incomparable(OptionalPrefixes[k], FixedStarts[j])
  {
    var a, b := OptionalPrefixes[k], FixedStarts[j];
    if k == 4 && j == 4 {
      assert a[1] != b[1];
    } else {
      assert a[0] != b[0];
    }
  }

  /** Some line starts with the property prefix `p`. */
  predicate HasProperty(lines: seq<string>, p: string) {
    exists i :: 0 <= i < |lines| && p <= lines[i]
  }

  lemma HasPropertyConcat(a: seq<string>, b: seq<string>, p: string)
    ensures HasProperty(a + b, p) <==> HasProperty(a, p) || HasProperty(b, p)
  {
    if HasProperty(a + b, p) {
      var i :| 0 <= i < |a + b| && p <= (a + b)[i];
      if i < |a| {
        assert a[i] == (a + b)[i];
      } else {
        assert b[i - |a|] == (a + b)[i];
      }
    }
    if HasProperty(a, p) {
      var i :| 0 <= i < |a| && p <= a[i];
      assert (a + b)[i] == a[i];
    }
    if HasProperty(b, p) {
      var i :| 0 <= i < |b| && p <= b[i];
      assert (a + b)[|a| + i] == b[i];
    }
  }

  /** Among the optional lines from index `j` on, one carries property `k` exactly when
      `k` is in range and its value is non-empty. */
  lemma {:induction false} OptionalLinesHaveProperty(vals: seq<string>, k: nat, j: nat)
    requires |vals| == OptionalCount && k < OptionalCount && j <= OptionalCount
    ensures HasProperty(OptionalLines(vals, j), OptionalPrefixes[k]) <==> j <= k && vals[k] != ""
    decreases OptionalCount - j
  {
    var p := OptionalPrefixes[k];
    if j < OptionalCount {
      OptionalLinesHaveProperty(vals, k, j + 1);
      var rest := OptionalLines(vals, j + 1);
      if vals[j] != "" {
        var line := OptionalLine(j, vals[j]);
        assert OptionalLines(vals, j) == [line] + rest;
        HasPropertyConcat([line], rest, p);
        if k == j {
          assert p <= [line][0];
          assert HasProperty([line], p);
        } else {
          DistinctPrefixesIncomparable(k, j);
          IncomparableNotPrefix(p, OptionalPrefixes[j], Escape(vals[j]) + OptionalSuffixes[j]);
          assert line == OptionalPrefixes[j] + (Escape(vals[j]) + OptionalSuffixes[j]);
          assert !HasProperty([line], p);
        }
      }
    } else {
      assert OptionalLines(vals, j) == [];
    }
  }

  /** Each optional property appears in the card exactly when its field is non-empty. */
  lemma OptionalPropertyPresent(f: VCardForm, k: nat)
    requires k < OptionalCount
    ensures HasProperty(Lines(f), OptionalPrefixes[k]) <==> OptionalValues(f)[k] != ""
  {
    var p := OptionalPrefixes[k];
    var head := ["BEGIN:VCARD", "VERSION:3.0", NameLine(f), FormattedNameLine(f)];
    var optional := OptionalLines(OptionalValues(f), 0);
    assert Lines(f) == head + optional + ["END:VCARD"];
    HasPropertyConcat(head + optional, ["END:VCARD"], p);
    HasPropertyConcat(head, optional, p);
    OptionalLinesHaveProperty(OptionalValues(f), k, 0);
    FixedLinesLackOptional(f, k);
  }

  /** No optional property is found among the fixed lines of the card. */
  lemma FixedLinesLackOptional(f: VCardForm, k: nat)
    requires k < OptionalCount
    ensures !HasProperty(["BEGIN:VCARD", "VERSION:3.0", NameLine(f), FormattedNameLine(f)], OptionalPrefixes[k])
    ensures !HasProperty(["END:VCARD"], OptionalPrefixes[k])
  {
    var p := OptionalPrefixes[k];
    var head := ["BEGIN:VCARD", "VERSION:3.0", NameLine(f), FormattedNameLine(f)];
    assert NameLine(f) == "N:" + NameLine(f)[2..];
    assert FormattedNameLine(f) == "FN:" + FormattedNameLine(f)[3..];
    forall i | 0 <= i < 4
      ensures !(p <= head[i])
    {
      FixedStartsIncomparable(k, i);
      IncomparableNotPrefix(p, FixedStarts[i], head[i][|FixedStarts[i]|..]);
      assert head[i] == FixedStarts[i] + head[i][|FixedStarts[i]|..];
    }
    FixedStartsIncomparable(k, 4);
    IncomparableNotPrefix(p, "END:VCARD", "");
    assert "END:VCARD" + "" == "END:VCARD";
  }

  /** Reads the optional lines from property `k` on, up to the END line. */
  function ReadOptional(lines: seq<string>, k: nat): (r: Option<seq<string>>)
    requires k <= OptionalCount
    ensures r.Some? ==> |r.value| == OptionalCount - k
    decreases OptionalCount - k
  {
    if k == OptionalCount then (if lines == ["END:VCARD"] then Some([]) else None)
    else
      var p, q := OptionalPrefixes[k], OptionalSuffixes[k];
      if lines != [] && p <= lines[0] && |p| + |q| <= |lines[0]| && lines[0][|lines[0]| - |q|..] == q then
        var value := Unescape(lines[0][|p|..|lines[0]| - |q|]);
        match ReadOptional(lines[1..], k + 1)
        case None => None
        case Some(vs) => Some([value] + vs)
      else
        match ReadOptional(lines, k + 1)
        case None => None
        case Some(vs) => Some([""] + vs)
  }

  /** The line of property `k`, or the END line, is not mistaken for an earlier property. */
  lemma LaterLineNotMatched(vals: seq<string>, k: nat, j: nat)
    requires |vals| == OptionalCount && k < j <= OptionalCount
    ensures var lines := OptionalLines(vals, j) + ["END:VCARD"];
            !(OptionalPrefixes[k] <= lines[0])
    decreases OptionalCount - j
  {
    var lines := OptionalLines(vals, j) + ["END:VCARD"];
    if j == OptionalCount {
      OptionalPrefixesIncomparable(k, j);
      IncomparableNotPrefix(OptionalPrefixes[k], "END:VCARD", "");
      assert "END:VCARD" + "" == lines[0];
    } else if vals[j] == "" {
      LaterLineNotMatched(vals, k, j + 1);
    } else {
      OptionalPrefixesIncomparable(k, j);
      var x := Escape(vals[j]) + OptionalSuffixes[j];
      IncomparableNotPrefix(OptionalPrefixes[k], OptionalPrefixes[j], x);
      assert lines[0] == OptionalPrefixes[j] + x;
    }
  }

  /** A present line of property `k` is read as its value. */
  lemma ReadOptionalPresent(k: nat, v: string, rest: seq<string>, vs: seq<string>)
    requires k < OptionalCount && ReadOptional(rest, k + 1) == Some(vs)
    ensures ReadOptional([OptionalLine(k, v)] + rest, k) == Some([v] + vs)
  {
    var p, q := OptionalPrefixes[k], OptionalSuffixes[k];
    var line := OptionalLine(k, v);
    var lines := [line] + rest;
    assert lines[0] == line && lines[1..] == rest;
    assert line[..|p|] == p;
    assert line[|line| - |q|..] == q;
    assert line[|p|..|line| - |q|] == Escape(v);
    UnescapeEscape(v);
  }

  /** An absent property is read as "" when the next line is not one of its lines. */
  lemma ReadOptionalAbsent(k: nat, lines: seq<string>, vs: seq<string>)
    requires k < OptionalCount && ReadOptional(lines, k + 1) == Some(vs)
    requires lines != [] && !(OptionalPrefixes[k] <= lines[0])
    ensures ReadOptional(lines, k) == Some([""] + vs)
  {
  }

  lemma {:induction false} ReadOptionalLines(vals: seq<string>, k: nat)
    requires |vals| == OptionalCount && k <= OptionalCount
    ensures ReadOptional(OptionalLines(vals, k) + ["END:VCARD"], k) == Some(vals[k..])
    decreases OptionalCount - k
  {
    var lines := OptionalLines(vals, k) + ["END:VCARD"];
    if k == OptionalCount {
      assert lines == ["END:VCARD"];
    } else {
      ReadOptionalLines(vals, k + 1);
      var rest := OptionalLines(vals, k + 1) + ["END:VCARD"];
      if vals[k] == "" {
        assert lines == rest;
        LaterLineNotMatched(vals, k, k + 1);
        ReadOptionalAbsent(k, rest, vals[k + 1..]);
      } else {
        assert lines == [OptionalLine(k, vals[k])] + rest;
        ReadOptionalPresent(k, vals[k], rest, vals[k + 1..]);
      }
      assert vals[k..] == [vals[k]] + vals[k + 1..];
    }
  }

  function FormFromValues(first: string, last: string, vals: seq<string>): VCardForm
    requires |vals| == OptionalCount
  {
    VCardForm(first, last, vals[0], vals[2], vals[3], vals[4], vals[1], vals[5], vals[6])
  }

  /** Parses the content lines of a card back into the form. */
  function DecodeLines(lines: seq<string>): Option<VCardForm> {
    if |lines| < 5 || lines[0] != "BEGIN:VCARD" || lines[1] != "VERSION:3.0" then None
    else match ReadNameLine(lines[2])
      case None => None
      case Some(names) =>
        if lines[3] != "FN:" + Escape(names.1) + " " + Escape(names.0) then None
        else match ReadOptional(lines[4..], 0)
          case None => None
          case Some(vals) => Some(FormFromValues(names.1, names.0, vals))
  }

  /** Parses a card payload. */
  function Decode(payload: string): Option<VCardForm> {
    DecodeLines(SplitLF(payload))
  }

  /** The card is lossless: decoding the payload recovers every field, the empty
      optional ones included (their lines are absent, and absence reads back as ""). */
  lemma DecodePayload(f: VCardForm)
    ensures Decode(Payload(f)) == Some(f)
  {
    DecodeLinesOf(f);
  }

  /** The assembled lines parse back into the form. */
  lemma DecodeLinesOf(f: VCardForm)
    ensures DecodeLines(Lines(f)) == Some(f)
  {
    var vals := OptionalValues(f);
    LinesShape(f);
    ReadNameLineOf(f);
    ReadOptionalLines(vals, 0);
    assert vals[0..] == vals;
    assert FormFromValues(f.firstName, f.lastName, vals) == f;
  }

  /** Where the name lines and the optional lines sit. */
  lemma LinesShape(f: VCardForm)
    ensures Lines(f)[2] == NameLine(f) && Lines(f)[3] == FormattedNameLine(f)
    ensures Lines(f)[4..] == OptionalLines(OptionalValues(f), 0) + ["END:VCARD"]
  {
    var head := ["BEGIN:VCARD", "VERSION:3.0", NameLine(f), FormattedNameLine(f)];
    var optional := OptionalLines(OptionalValues(f), 0);
    Regroup3(head, optional, ["END:VCARD"]);
    assert (head + (optional + ["END:VCARD"]))[4..] == optional + ["END:VCARD"];
  }
}

=== FILE: wifi.dfy ===
/** The Wi-Fi network payload `WIFI:T:<type>;S:<ssid>;P:<password>;;`
    (components/WifiForm.tsx). */
module WifiEncoder {
  import opened Wrappers

  datatype Encryption = WPA | WEP | NoPass

  /** The option values of the security selector. */
  function EncryptionName(e: Encryption): string {
    match e
    case WPA => "WPA"
    case WEP => "WEP"
    case NoPass => "nopass"
  }

  datatype WifiForm = WifiForm(ssid: string, password: string, encryption: Encryption)

  /** The form's initial state: empty fields, WPA selected. */
  const InitialForm := WifiForm("", "", WPA)

  /** The five characters the escape regex `/([\\;,"'])/g` matches. */
  predicate IsSpecial(c: char) {
    c == '\\' || c == ';' || c == ',' || c == '"' || c == '\''
  }

  function CountSpecial(s: string): (n: nat)
    ensures n <= |s|
  {
    if s == [] then 0 else (if IsSpecial(s[0]) then 1 else 0) + CountSpecial(s[1..])
  }

  /** `s.replace(/([\\;,"'])/g, '\\$1')`: one backslash in front of every special
      character, in a single left-to-right pass. */
  function Escape(s: string): (r: string)
    ensures |r| == |s| + CountSpecial(s)
  {
    if s == [] then []
    else (if IsSpecial(s[0]) then ['\\', s[0]] else [s[0]]) + Escape(s[1..])
  }

  /** A value without special characters is written as it is. */
  lemma {:induction false} EscapePlain(s: string)
    requires forall i :: 0 <= i < |s| ==> !IsSpecial(s[i])
    ensures Escape(s) == s
  {
    if s != [] {
      assert forall i :: 0 <= i < |s[1..]| ==> !IsSpecial(s[1..][i]) by {
        forall i | 0 <= i < |s[1..]| ensures !IsSpecial(s[1..][i]) { assert s[1..][i] == s[i + 1]; }
      }
      EscapePlain(s[1..]);
      assert [s[0]] + s[1..] == s;
    }
  }

  /** Escaping works character by character: it distributes over concatenation. */
  lemma {:induction false} EscapeConcat(a: string, b: string)
    ensures Escape(a + b) == Escape(a) + Escape(b)
  {
    if a != [] {
      assert (a + b)[0] == a[0];
      assert (a + b)[1..] == a[1..] + b;
      EscapeConcat(a[1..], b);
    } else {
      assert a + b == b;
    }
  }

  /** A backslash anywhere in a field is escaped once, into exactly two backslashes;
      the inserted backslash is not escaped again. */
  lemma EscapeBackslashOnce(a: string, b: string)
    ensures Escape(a + "\\" + b) == Escape(a) + "\\\\" + Escape(b)
    ensures Escape("a\\;b") == "a\\\\\\;b"
  {
    EscapeConcat(a + "\\", b);
    EscapeConcat(a, "\\");
    assert Escape("\\") == "\\\\";
  }

  /** The strings escaping can produce: every special character is the second half of
      a backslash pair. */
  predicate WellEscaped(t: string)
    decreases |t|
  {
    || t == []
    || (|t| >= 2 && t[0] == '\\' && IsSpecial(t[1]) && WellEscaped(t[2..]))
    || (!IsSpecial(t[0]) && WellEscaped(t[1..]))
  }

  /** Removes the backslash in front of each escaped special character. */
  function Unescape(t: string): string
    decreases |t|
  {
    if t == [] then []
    else if |t| >= 2 && t[0] == '\\' && IsSpecial(t[1]) then [t[1]] + Unescape(t[2..])
    else [t[0]] + Unescape(t[1..])
  }

  /** Unescaping undoes escaping, so the escape is injective. */
  lemma {:induction false} UnescapeEscape(s: string)
    ensures Unescape(Escape(s)) == s
  {
    if s != [] {
      UnescapeEscape(s[1..]);
      var e := Escape(s[1..]);
      if IsSpecial(s[0]) {
        assert Escape(s) == ['\\', s[0]] + e;
        assert (['\\', s[0]] + e)[2..] == e;
      } else {
        assert Escape(s) == [s[0]] + e;
        assert ([s[0]] + e)[1..] == e;
      }
      assert s == [s[0]] + s[1..];
    }
  }

  /** Every escaped string is well escaped. */
  lemma {:induction false} EscapeIsWellEscaped(s: string)
    ensures WellEscaped(Escape(s))
  {
    if s != [] {
      EscapeIsWellEscaped(s[1..]);
      var e := Escape(s[1..]);
      if IsSpecial(s[0]) {
        assert (['\\', s[0]] + e)[2..] == e;
      } else {
        assert ([s[0]] + e)[1..] == e;
      }
    }
  }

  /** Every well-escaped string is the escape of its unescaping: escaping is a bijection
      between all strings and the well-escaped ones. */
  lemma {:induction false} EscapeUnescape(t: string)
    requires WellEscaped(t)
    ensures Escape(Unescape(t)) == t
  {
    if t != [] {
      if |t| >= 2 && t[0] == '\\' && IsSpecial(t[1]) {
        EscapeUnescape(t[2..]);
        assert Unescape(t) == [t[1]] + Unescape(t[2..]);
        assert ([t[1]] + Unescape(t[2..]))[1..] == Unescape(t[2..]);
        assert t == ['\\', t[1]] + t[2..];
      } else {
        EscapeUnescape(t[1..]);
        assert ([t[0]] + Unescape(t[1..]))[1..] == Unescape(t[1..]);
        assert t == [t[0]] + t[1..];
      }
    }
  }

  lemma EscapeInjective(a: string, b: string)
    requires Escape(a) == Escape(b)
    ensures a == b
  {
    UnescapeEscape(a);
    UnescapeEscape(b);
  }

  /** The network payload assembled in the form's effect. */
  function Payload(f: WifiForm): (p: string)
    ensures "WIFI:T:" + EncryptionName(f.encryption) + ";S:" <= p
    ensures |p| >= 2 && p[|p| - 2..] == ";;"
  {
    "WIFI:T:" + EncryptionName(f.encryption) + ";S:" + Escape(f.ssid) + ";P:" + Escape(f.password) + ";;"
  }

  /** An empty form gives the WPA skeleton; the password segment is never dropped. */
  lemma InitialPayload()
    ensures Payload(InitialForm) == "WIFI:T:WPA;S:;P:;;"
    ensures Payload(WifiForm("", "", NoPass)) == "WIFI:T:nopass;S:;P:;;"
  {
    EmptyPayload(WPA);
    EmptyPayload(NoPass);
  }

  lemma EmptyPayload(e: Encryption)
    ensures Payload(WifiForm("", "", e)) == "WIFI:T:" + EncryptionName(e) + ";S:;P:;;"
  {
    assert Escape("") == "";
    Regroup5("WIFI:T:" + EncryptionName(e), ";S:", ";P:", ";;");
  }

  lemma Regroup5<T>(a: seq<T>, b: seq<T>, c: seq<T>, d: seq<T>)
    ensures a + b + [] + c + [] + d == a + (b + c + d)
  {
  }

  // ---------------------------------------------------------------------------
  // Reading a payload back

  /** Reads one escaped field up to its unescaped `;`: the unescaped value and the text
      after the separator. */
  function ReadField(t: string): Option<(string, string)>
    decreases |t|
  {
    if t == [] then None
    else if t[0] == ';' then Some(([], t[1..]))
    else if |t| >= 2 && t[0] == '\\' && IsSpecial(t[1]) then
      match ReadField(t[2..])
      case None => None
      case Some(vr) => Some(([t[1]] + vr.0, vr.1))
    else
      match ReadField(t[1..])
      case None => None
      case Some(vr) => Some(([t[0]] + vr.0, vr.1))
  }

  lemma {:induction false} ReadEscapedField(s: string, rest: string)
    ensures ReadField(Escape(s) + ";" + rest) == Some((s, rest))
  {
    if s == [] {
      assert Escape(s) + ";" + rest == [';'] + rest;
    } else {
      ReadEscapedField(s[1..], rest);
      var tail := Escape(s[1..]) + ";" + rest;
      var head := if IsSpecial(s[0]) then ['\\', s[0]] else [s[0]];
      assert Escape(s) == head + Escape(s[1..]);
      assert Escape(s) + ";" + rest == head + tail;
      ReadFieldStep(s[0], tail, s[1..], rest);
      assert [s[0]] + s[1..] == s;
    }
  }

  /** One more character, escaped if special, in front of a readable field. */
  lemma ReadFieldStep(c: char, tail: string, v: string, r: string)
    requires ReadField(tail) == Some((v, r))
    ensures ReadField((if IsSpecial(c) then ['\\', c] else [c]) + tail) == Some(([c] + v, r))
  {
    if IsSpecial(c) {
      var t := ['\\', c] + tail;
      assert t[0] == '\\' && t[1] == c && t[2..] == tail;
    } else {
      var t := [c] + tail;
      assert t[0] == c && t[1..] == tail;
    }
  }

  /** Reads the security type and the `;S:` after it. */
  function ReadEncryption(t: string): Option<(Encryption, string)> {
    if "WPA;S:" <= t then Some((WPA, t[6..]))
    else if "WEP;S:" <= t then Some((WEP, t[6..]))
    else if "nopass;S:" <= t then Some((NoPass, t[9..]))
    else None
  }

  lemma ReadEncryptionOf(e: Encryption, rest: string)
    ensures ReadEncryption(EncryptionName(e) + ";S:" + rest) == Some((e, rest))
  {
    var t := EncryptionName(e) + ";S:" + rest;
    match e
    case WPA =>
      assert t == "WPA;S:" + rest;
      assert t[..6] == "WPA;S:";
      assert t[6..] == rest;
    case WEP =>
      assert t == "WEP;S:" + rest;
      assert t[1] == 'E';
      assert t[..6] == "WEP;S:";
      assert t[6..] == rest;
    case NoPass =>
      assert t == "nopass;S:" + rest;
      assert t[0] == 'n';
      assert t[..9] == "nopass;S:";
      assert t[9..] == rest;
  }

  /** Parses a network payload into its fields. */
  function Decode(p: string): Option<WifiForm> {
    if !("WIFI:T:" <= p) then None
    else match ReadEncryption(p[7..])
      case None => None
      case Some(et) =>
        match ReadField(et.1)
        case None => None
        case Some(sr) =>
          if !("P:" <= sr.1) then None
          else match ReadField(sr.1[2..])
            case None => None
            case Some(pr) => if pr.1 == ";" then Some(WifiForm(sr.0, pr.0, et.0)) else None
  }

  /** The payload, grouped the way the decoder reads it. */
  lemma PayloadShape(f: WifiForm)
    ensures Payload(f) == "WIFI:T:" + (EncryptionName(f.encryption) + ";S:"
              + (Escape(f.ssid) + ";" + ("P:" + (Escape(f.password) + ";" + ";"))))
  {
    assert ";P:" == ";" + "P:" && ";;" == ";" + ";";
    RegroupPayload("WIFI:T:", EncryptionName(f.encryption), ";S:", Escape(f.ssid), ";", "P:", Escape(f.password), ";", ";");
  }

  lemma RegroupPayload<T>(a: seq<T>, n: seq<T>, b: seq<T>, s: seq<T>, c: seq<T>, d: seq<T>, p: seq<T>, g: seq<T>, h: seq<T>)
    ensures a + n + b + s + (c + d) + p + (g + h) == a + (n + b + (s + c + (d + (p + g + h))))
  {
  }

  /** The payload is unambiguous: decoding it recovers every field of the form. */
  lemma DecodePayload(f: WifiForm)
    ensures Decode(Payload(f)) == Some(f)
  {
    var p := Payload(f);
    var afterP := Escape(f.password) + ";" + ";";
    var rest := "P:" + afterP;
    var afterS := Escape(f.ssid) + ";" + rest;
    PayloadShape(f);
    assert p[7..] == EncryptionName(f.encryption) + ";S:" + afterS;
    ReadEncryptionOf(f.encryption, afterS);
    ReadEscapedField(f.ssid, rest);
    assert rest[2..] == afterP;
    ReadEscapedField(f.password, ";");
  }
}

=== FILE: wrappers.dfy ===
/** Failure-compatible wrappers: JavaScript's `undefined`/`null` and thrown errors. */
module Wrappers {

  /** An optional value: `None` stands for an absent (undefined) property or a `null` result. */
  datatype Option<+T> = None | Some(value: T) {

    /** The value, or `default` when absent (JavaScript's `x ?? default`). */
    function GetOr(default: T): (r: T)
      ensures this.Some? ==> r == this.value
      ensures this.None? ==> r == default
    {
      match this
      case Some(v) => v
      case None => default
    }

    /** This value when present, otherwise `other` (a spread key that overrides). */
    function Or(other: Option<T>): (r: Option<T>)
      ensures this.Some? ==> r == this
      ensures this.None? ==> r == other
    {
      match this
      case Some(_) => this
      case None => other
    }
  }

  /** The outcome of an operation that either yields a value or fails with an error. */
  datatype Result<+R, +E> = Success(value: R) | Failure(error: E)
}
